=== FILE: README.md ===
# Booking and credit ledger of a seat-reselling backend, in Dafny

This project models the agent booking engine of a B2B flight-seat reselling platform.
Agents draw on an admin-issued credit line to book seats from tickets bought in bulk, and
resell the seats at their own markup. The model covers the following handlers, each written
as a pure transition `State -> Result<State>` over an immutable store:

- the atomic `createBooking` transaction, which:
  - admits the request;
  - resolves the promo and prices the sale with two differently capped discounts;
  - checks and debits the agent's credit and raises the balance due;
  - writes two ledger records;
  - reserves the seats;
  - draws a unique `FDT######` reference;
  - records the booking;
- the agent's markup edit;
- the name-change request and its admin approval or rejection;
- the finance requests and their processing;
- the admin's manual finance adjustment and the receivables report;
- the admin's ticket edit, with its seat invariant and PNR propagation;
- the promo upsert and the agent's promo listing;
- the front end's flight-duration text.

A handler either returns `Ok` with the whole new store or `Err` with the reason. On `Err`
the store is unchanged, which is how the model states that an aborted MongoDB transaction
leaves nothing behind.

## How the model is built

**Store**

- Tickets and users are maps keyed by database id.
- Promos, bookings, finance requests and ledger records are sequences in creation order. A
  later position means a later `createdAt`.
- Money is `real` (exact), not an IEEE-754 double. Seat counts are `int`, and the schema
  bounds on them are predicates.

**Clock and randomness**

- The clock (`now`) is a parameter.
- `Math.random()` is a sequence of draws in `[0, 1)`.
- MongoDB's unspecified choice when two promos match a booking's code is a `pick` index.

**Ledger replay**

- `LedgerModel.Replay` applies each FinanceTransaction's `valueAfter` to the field named by
  its `kind`. It fails when a record's `valueBefore` does not match the account.
- Every finance handler proves that replaying the records it appended turns the old account
  into the new one.

**Schema validators and unique indexes**

- `WellFormed` bundles the schema validators, the unique indexes on booking references,
  agent ids and the two promo scopes, and the seat balance of every ticket.
- Every handler that changes the store has a `...KeepsWellFormed` lemma proving it keeps
  `WellFormed`. The promo upsert keeps it only for requests within the schema bounds (see
  "Left out").
- A booking reads only the booked ticket and the booking agent, so `CreateBooking` assumes
  nothing about the rest of the store. Its saves re-run the schema validators: a stored
  promo, agent or ticket the schema would refuse makes the save fail and the booking abort
  with a schema error.

**Behaviour of the code worth knowing**

- `totalMarkup` is `max(0, markerAmount) * quantity`, not `markerAmount * quantity`
  (backend/controllers/bookingController.js:99-104).
- A booking sets the balance due to `max(0, before + required)`
  (backend/controllers/bookingController.js:203). So when the agent holds an advance (a
  negative balance due), a booking wipes the advance instead of drawing on it, and the
  balance-due ledger record no longer satisfies `valueAfter - valueBefore == amount`.
  `BookingController.BookingDueRecordUnbalancedByAdvance` shows a concrete case, and
  `BookingProperties.CreateBookingWritesLedger` states exactly when this happens.
- The markup edit recomputes the selling total without the promo discount the booking was
  sold with (backend/controllers/bookingController.js:377-382).
  `MarkupUpdate.RepriceIgnoresPromoDiscount` states this.

## Model

| member | source | states |
|---|---|---|
| BookingProperties.CreateBookingFailureOrder | backend/controllers/bookingController.js:70-250 | the guards fail in the handler's order: missing input, missing or inactive ticket, too few seats, unknown agent; then the promo, usage-limit, promo-save and credit errors; then the agent's save, the ticket's save, reference exhaustion and the booking's own validators; success implies every stage succeeded |
| BookingProperties.StoredRecordsSave | backend/controllers/bookingController.js:199-225 | an agent and a ticket the schema accepted always pass the validators again after the debit and the seat reservation |
| BookingController.CreateBooking | backend/controllers/bookingController.js:63-292 | a successful booking keeps every ticket and user id, appends one booking and two ledger records, leaves the finance requests and airport cities alone, and leaves the booked ticket and the agent passing their validators; the BookingProperties lemmas state the rest of what it does |
| BookingProperties.CreateBookingStages | backend/controllers/bookingController.js:63-292 | a successful booking passed admission, pricing and the reference draw, and its store is exactly: seats reserved on the ticket, the agent debited, the promo usage consumed, one booking appended with a fresh reference, and the two debit records appended |
| BookingProperties.CreateBookingSucceeds | backend/controllers/bookingController.js:63-292 | the converse of the stages: when admission, pricing with its credit check and the reference draw succeed and the saves accept the debited agent, the reserved ticket and the new booking, the booking is made and its store is the staged one |
| BookingProperties.CreateBookingReservesSeats | backend/controllers/bookingController.js:222-225 | available seats drop and booked seats rise by the quantity; the total stays, a balanced ticket stays balanced and available never goes negative; no other ticket and no other ticket field changes |
| BookingProperties.CreateBookingDebitsCredit | backend/controllers/bookingController.js:160-203 | available credit drops by the discounted base total (never below zero); the balance due becomes max(0, due + that amount); the booked base price is the ticket's; no other user and no other field changes |
| BookingProperties.CreateBookingWritesLedger | backend/controllers/bookingController.js:181-219 | the ledger is only appended to, by exactly two `booking` records (available credit, then balance due); the first is balanced, and the second is balanced exactly when due + required is non-negative; replaying both gives the agent's new account |
| BookingProperties.CreateBookingRecordsBooking | backend/controllers/bookingController.js:233-282 | earlier bookings are kept; the new booking carries the request's ticket, agent, quantity and infant count, a well-formed reference not yet in use, and valid prices; the finance requests are untouched |
| BookingProperties.ConsumeChangesOnlyOne | backend/controllers/bookingController.js:146-157 | consuming a use changes only the consumed promo, by exactly one use, within its limit |
| BookingProperties.CreateBookingCountsPromoUse | backend/controllers/bookingController.js:146-157 | a promo changes only by one more use, within its limit, and only when it is the promo the new booking names |
| BookingProperties.InfantsNotFunded | backend/controllers/bookingController.js:171-179 | changing only the infants leaves the credit, the ledger, the seats and the promos exactly as they would otherwise be |
| BookingProperties.CreateBookingKeepsWellFormed | backend/controllers/bookingController.js:63-292 | a booking keeps every schema validator, the unique indexes and the seat balance of every ticket |
| BookingProperties.KeepsTicketsValid | backend/models/Ticket.js:61-75 | the store a booking's stages assemble keeps every ticket valid and seat-balanced |
| BookingProperties.KeepsUsersValid | backend/models/User.js:144-164 | the store a booking's stages assemble keeps available credit non-negative, the other finance fields valid, and agent ids unique |
| BookingProperties.KeepsPromosValid | backend/models/PromoCode.js:8-29 | in the store a booking's stages assemble, the usage increment keeps the usage count within the promo's bounds and keeps both promo unique indexes |
| BookingProperties.KeepsBookingsValid | backend/models/Booking.js:52-74 | in the store a booking's stages assemble, the appended booking passes the validators, references stay unique and the finance requests stay valid |
| BookingController.ResolvePromo | backend/controllers/bookingController.js:109-131 | no code means no promo; with a code, the lookup fails with `InvalidPromo` exactly when no active, in-window, in-scope promo has that code, and otherwise returns one of those promos |
| BookingController.ConsumeUsage | backend/controllers/bookingController.js:146-157 | an unlimited promo is untouched and not saved; a limited one fails with `UsageLimitReached` exactly when its count has reached the limit, and otherwise gains exactly one use, staying within the limit, and is saved, failing with a schema error exactly when the counted record breaks a validator; no other promo changes |
| BookingController.ConsumeStoredPromo | backend/controllers/bookingController.js:146-157 | on a promo the schema accepted, the only refusal left is the usage limit |
| BookingController.UsageLimitExhausted | backend/controllers/bookingController.js:147-155 | a valid promo one use short of its limit accepts one more booking and then refuses the next |
| BookingController.DebitForBooking | backend/controllers/bookingController.js:181-220 | the debit lowers available credit by the requirement and sets the due to max(0, due + requirement); it writes two records with the right kinds, before and after values, amounts, action and snapshots; the due record is balanced exactly when due + requirement is non-negative |
| BookingController.BookingDebitReconciles | backend/controllers/bookingController.js:181-220 | replaying the two debit records against the agent's account gives exactly the debited account |
| BookingController.BookingDueRecordUnbalancedByAdvance | backend/controllers/bookingController.js:201-210 | with a 500 advance, a 100 booking records amount 100 going from -500 to 0, which is not balanced |
| BookingController.ReserveSeats | backend/controllers/bookingController.js:222-225 | seat reservation moves the quantity from available to booked and keeps a balanced ticket balanced |
| BookingController.PickReference | backend/controllers/bookingController.js:233-248 | the reference is the first of the ten draws' `FDT` + six-digit candidates not already in use; it fails with `ReferenceGenerationFailed` exactly when all ten are taken |
| BookingController.GenerateReference | backend/controllers/bookingController.js:234-248 | the do/while loop computes the same reference or failure as the functional definition |
| BookingController.InfantCount | backend/controllers/bookingController.js:172-174 | the infant count is the length of the infant list when one is given, else the `infants` number |
| BookingController.CopiedPnr | backend/controllers/bookingController.js:280 | a booking copies the ticket's PNR only when it is non-empty, and trimmed, as the booking schema's setter stores it |
| BookingController.CopiedPnrOfStored | backend/models/Booking.js:76 | a non-empty ticket PNR stored through the ticket's own setter is copied unchanged |
| BookingController.Admit | backend/controllers/bookingController.js:70-97 | admission succeeds exactly when the ticket id and a positive quantity are given, the ticket exists, is active and has enough seats, and the agent exists; otherwise it returns the first failing guard's error |
| BookingController.PriceBooking | backend/controllers/bookingController.js:94-169 | the quote is the list price with the chosen promo's discount; a used promo is one of the lookup's matches and its usage is consumed and saved; an unknown code fails with `InvalidPromo` and a failing usage step with its own error; once the promo stages pass, the sale succeeds exactly when the required funds fit the available credit and otherwise fails with `InsufficientFunds` |
| BookingController.NewBooking | backend/controllers/bookingController.js:250-282 | the booking stores the quote's prices, the base discount as `promoDiscount`, the selling total plus infant fees, the airport cities, the copied PNR, the reference, status booked and no name-change history; its passengers are the normalized list, and every passenger's and infant's names are stored trimmed |
| Pricing.CapDiscount | backend/controllers/bookingController.js:142-143 | a discount is clamped into [0, cap] |
| Pricing.Total | backend/controllers/bookingController.js:102-104 | a total of a non-negative unit price over a non-negative quantity is non-negative |
| Pricing.ListPrice | backend/controllers/bookingController.js:95-104 | the unit markup is the marker clamped at zero; unit selling = base + markup; the totals are the unit prices times the quantity; the base total is at most the selling total; without a promo the funding requirement is the base total, or nothing when a negative base price makes that total negative |
| Pricing.ApplyDiscount | backend/controllers/bookingController.js:142-164 | the base discount is capped by the base total and the selling discount by the selling total; the selling total drops by the selling discount; the requirement is never negative, and is the base total less the base discount when that total is not negative |
| Pricing.PriceSale | backend/controllers/bookingController.js:94-164 | the sale keeps the list prices and discounts both totals by the promo's discount within their caps; for a non-negative base price it requires the discounted base total, for a negative one nothing |
| Pricing.InfantFee | backend/controllers/bookingController.js:175-179 | infant fees are zero without infants and the infant price times the count otherwise |
| Pricing.RequiredFundsIgnoreMarkup | backend/controllers/bookingController.js:163-164 | without a percentage promo the funds required do not depend on the agent's markup |
| Pricing.PercentPromoCoupledToMarkup | backend/controllers/bookingController.js:133-142 | a percentage promo is computed on the marked-up selling total, so a higher markup lowers the funds required (900 vs 800 on a 1000 seat) |
| Pricing.TenPercentOfOneSeat | backend/controllers/bookingController.js:133-164 | for one 1000 seat and a 10% promo the requirement is 900 - markup/10 |
| Pricing.PricingExample | backend/controllers/bookingController.js:94-179 | base 1000, marker 200, three seats and one 300 infant give base 3000, markup 600, selling 3900 and a requirement of 3000 |
| Pricing.FundingExample | backend/controllers/bookingController.js:134-143 | a 50% promo capped at 2000 discounts both totals by exactly 2000 |
| MarkupUpdate.InfantUnit | backend/controllers/bookingController.js:374-375 | the infant unit price is the current ticket's, or zero when the ticket is gone |
| MarkupUpdate.Reprice | backend/controllers/bookingController.js:371-389 | the new markup is the requested one clamped at zero; selling total = base total + markup total + infant fees at the current ticket price; nothing else in the booking changes |
| MarkupUpdate.UpdateMarkup | backend/controllers/bookingController.js:358-400 | the edit fails with not-found exactly when the caller does not own the booking; otherwise it changes only that booking, to its repriced form |
| MarkupUpdate.RepriceIdempotent | backend/controllers/bookingController.js:371-389 | repricing twice with the same markup gives the same booking as once |
| MarkupUpdate.RepriceIgnoresPromoDiscount | backend/controllers/bookingController.js:377-382 | the recomputed selling total does not depend on the booking's promo discount |
| MarkupUpdate.UpdateMarkupKeepsWellFormed | backend/controllers/bookingController.js:358-390 | an owner's edit always succeeds, keeps the store well formed, and keeps the base price, discount, reference, passengers and counts |
| MarkupUpdate.UpdateMarkupIdempotent | backend/controllers/bookingController.js:358-390 | repeating an edit changes nothing more |
| NameChange.EntryNote | backend/models/Booking.js:40 | the entry's note is the sent note trimmed, or empty when none is sent |
| NameChange.RequestNameChange | backend/controllers/bookingController.js:402-442 | a request by someone other than the owner is not found; a passenger list whose length differs from the quantity is refused; otherwise exactly one pending entry is appended, holding the current and the normalized new passengers, the caller, the time and the note as the entry schema trims it |
| NameChange.RequestNameChangeKeepsWellFormed | backend/controllers/bookingController.js:402-442 | a request keeps the store well formed |
| NameChange.TargetEntry | backend/controllers/bookingController.js:457-468 | with no pending entry the request fails; with an id, that entry is chosen exactly when it is pending; without one, the first pending entry is chosen |
| NameChange.Resolve | backend/controllers/bookingController.js:484-490 | resolving an entry sets its status and stamps the admin and the time, and nothing else |
| NameChange.ProcessNameChange | backend/controllers/bookingController.js:449-508 | errors come in the handler's order; on success only the target entry changes, to approved (and the passengers are replaced by the normalized, trimmed list) or rejected (passengers kept) |
| NameChange.ProcessNameChangeKeepsWellFormed | backend/controllers/bookingController.js:449-508 | a decision keeps the store well formed |
| NameChange.RequestExtendsHistory | backend/controllers/bookingController.js:425-432 | a request only extends the history, and every entry stays stamped exactly when it is processed |
| NameChange.ProcessAdvancesHistory | backend/controllers/bookingController.js:484-490 | processing moves one entry from pending to processed, never touches a processed entry, and lowers the pending count by exactly one |
| NameChange.ResolveOneAdvances | backend/controllers/bookingController.js:484-490 | resolving one pending entry and no other is a history step that keeps every stamp consistent and lowers the pending count by one |
| NameChange.PendingCountDrops | backend/controllers/bookingController.js:458 | resolving one pending entry lowers the number of pending entries by exactly one |
| NameChange.RejectKeepsPassengers | backend/controllers/bookingController.js:487-490 | a rejection leaves the passengers unchanged |
| NameChange.RequestThenApprove | backend/controllers/bookingController.js:402-490 | approving a fresh request by its id installs exactly the requested passengers and keeps the previous ones in the entry |
| FinanceController.RequestFinance | backend/controllers/financeController.js:23-55 | an unknown type is refused first, then a missing or non-positive amount, then (by the schema) an amount below 1; otherwise exactly one pending, unstamped request of the caller is appended with the given type, amount and trimmed note |
| FinanceController.RequestFinanceKeepsWellFormed | backend/controllers/financeController.js:23-55 | filing a request keeps the store well formed |
| Store.AppendKeepsRequestsValid | backend/models/FinanceRequest.js:3-15 | appending a request that passes the schema keeps every request valid |
| FinanceController.ApplyRequest | backend/controllers/financeController.js:130-215 | an approval's records replay to the new account and are balanced; a total increase raises the total (clamped at zero) and, when positive, the available credit by the same amount; an available increase raises only that; a settlement lowers the due by the amount, possibly below zero |
| FinanceController.ProcessedNote | backend/controllers/financeController.js:226 | a given non-empty note replaces the request's note, trimmed as the schema trims it; otherwise the old note stays |
| FinanceController.ProcessRequest | backend/controllers/financeController.js:105-239 | an unknown request, a processed request, a missing agent and an unknown action are refused in that order; otherwise the request is stamped and approved or rejected; only an approval touches the agent and appends that approval's records |
| FinanceController.ProcessAtMostOnce | backend/controllers/financeController.js:117-121 | a processed request can never be processed again |
| FinanceController.ProcessKeepsWellFormed | backend/controllers/financeController.js:105-239 | processing keeps the store well formed; the ledger is only appended to, by balanced records that replay the agent's old account into the new one; a rejection writes no record |
| FinanceController.SettlementCreatesAdvance | backend/controllers/financeController.js:191-213 | settling 500 against a due of 200 leaves a due of -300 (an advance) with a balanced record of -500 |
| FinanceController.AdjustTotal | backend/controllers/financeController.js:253-293 | a manual total adjustment clamps the total at zero, raises the available credit too when the delta is positive, and writes one or two balanced manual records that replay to the new account |
| FinanceController.AdjustAvailable | backend/controllers/financeController.js:294-313 | a manual available adjustment clamps at zero and writes one balanced manual record |
| FinanceController.AdjustDue | backend/controllers/financeController.js:314-333 | a manual due adjustment adds the delta unclamped and writes one balanced manual record with that amount |
| FinanceController.AdjustAccount | backend/controllers/financeController.js:253-334 | the three optional adjustments run in order; the record count, the final total, due and available credit follow the deltas; all records are manual, balanced and replay to the final account; no delta means no change |
| FinanceController.Then | backend/controllers/financeController.js:253-334 | two reconciling batches of manual records, the second starting where the first ends, make one reconciling batch ending where the second ends |
| FinanceController.ManualAppend | backend/controllers/financeController.js:265-326 | manual records stay manual when batches are joined |
| FinanceController.AdjustFinance | backend/controllers/financeController.js:241-339 | the handler fails exactly when the key names no agent; otherwise only that agent changes, and the appended records are balanced manual records that replay its old account into the new one |
| FinanceController.AdjustKeepsWellFormed | backend/controllers/financeController.js:241-339 | a manual adjustment keeps the store well formed |
| FinanceController.DueAdjustmentsAdd | backend/controllers/financeController.js:314-318 | adjusting the balance due by d1 and then by d2 leaves the same account as one adjustment by d1 + d2, each writing one record |
| FinanceController.SameAgentLookup | backend/controllers/financeController.js:245-251 | a change that keeps every id, agent id and user type does not change which user an agent key finds |
| FinanceController.Receivable | backend/controllers/financeController.js:353 | the receivable is the used credit (total less available), never negative |
| FinanceController.Receivables | backend/controllers/financeController.js:341-359 | the report lists exactly the agents, each with its receivable |
| FinanceController.DebitRaisesReceivable | backend/controllers/financeController.js:353 | a booking debit within the total raises the receivable by exactly the debited amount |
| TicketController.RederiveAvailable | backend/controllers/ticketController.js:37-46 | when the total moves, available seats shift by the same delta, clamped to [0, total - booked]; otherwise they stay |
| TicketController.PropagatePnr | backend/controllers/ticketController.js:52-57 | every booking of the ticket gets the new PNR, trimmed by the booking schema's setter, and every other booking is unchanged |
| TicketController.PropagatePnrIdempotent | backend/controllers/ticketController.js:52-57 | propagating the same PNR twice is the same as propagating it once |
| TicketController.PropagatePnrKeepsBookingsValid | backend/models/Booking.js:52-76 | rewriting PNRs keeps every booking valid and every reference unique |
| TicketController.EditTicket | backend/controllers/ticketController.js:27-49 | the edited ticket differs from the stored one only in total, available seats and PNR; the total is the one sent or the old one, the available seats are re-derived from it, and a sent PNR is stored trimmed |
| TicketController.EditTicketIdempotent | backend/controllers/ticketController.js:27-49 | editing a ticket twice with the same fields gives the ticket of one edit |
| TicketController.RetagBookings | backend/controllers/ticketController.js:52-57 | the bookings are rewritten exactly when a PNR is sent that differs, as sent, from the stored one |
| TicketController.RetagBookingsTwice | backend/controllers/ticketController.js:52-57 | when the stored PNR was trimmed, a second identical edit leaves the bookings as the first one left them |
| TicketController.UpdateTicket | backend/controllers/ticketController.js:18-62 | an unknown ticket is not found; a total below the booked seats is refused; otherwise only the ticket's total, available seats and PNR change; a sent PNR is stored trimmed, and is propagated when it differs from the old PNR as sent |
| TicketController.UpdateKeepsSeatsBalanced | backend/controllers/ticketController.js:27-46 | a valid balanced ticket stays balanced after an edit, with non-negative available seats and the same booked seats |
| Store.ReplaceTicketKeepsTicketsValid | backend/models/Ticket.js:61-75 | replacing one ticket by a valid, balanced ticket keeps every ticket valid |
| TicketController.UpdateKeepsWellFormed | backend/controllers/ticketController.js:18-62 | a ticket edit keeps the store well formed |
| TicketController.PnrReachesEveryBooking | backend/controllers/ticketController.js:52-57 | after a PNR change the ticket and every one of its bookings hold the trimmed PNR, and no other booking changes; a PNR that differs only by surrounding blanks counts as a change |
| TicketController.SamePnrLeavesBookings | backend/controllers/ticketController.js:52 | a PNR sent exactly as stored leaves every booking alone |
| TicketController.UpdateTicketIdempotent | backend/controllers/ticketController.js:18-62 | repeating an edit changes nothing more, on a ticket whose PNR is stored trimmed |
| TicketModel.NewTicket | backend/models/Ticket.js:3-130 | a created ticket passes the validators, has trimmed upper-case route codes and a trimmed PNR, gets the schema defaults, and has available = total when available is omitted; creation fails exactly when a validator fails |
| TicketModel.TrimOption | backend/models/Ticket.js:33-36 | an optional string field with a trim setter (the ticket's PNR, a passenger's passport) is stored trimmed when sent and stays absent otherwise |
| TicketModel.NewTicketBalanced | backend/models/Ticket.js:124-130 | a new ticket with defaulted counts is balanced with nothing booked |
| TicketModel.NormalizedAirportIsCode | backend/models/Ticket.js:5-20 | a trimmed three-letter input becomes a valid upper-case airport code |
| UserModel.FindAgent | backend/controllers/financeController.js:245-251 | an `FD####` key (any case) finds the agent with that id, any other key the user with that database id; the user found is an agent, and none is found exactly when no matching agent exists |
| UserModel.FindUserById | backend/controllers/financeController.js:249 | an id lookup ignores the letter case of the hex id |
| UserModel.FindByAgentId | backend/controllers/financeController.js:247 | an agent-id lookup finds the unique user with that id, or none when nobody has it |
| UserModel.NewUser | backend/models/User.js:7-17 | a new user is approved by default unless an agent, with zero credit, markup and balance |
| UserModel.NextAgentId | backend/models/User.js:229-253 | a generated agent id has the `FD####` format, is not in use and is one of the ten draws; generation fails exactly when all ten draws are taken |
| UserModel.GenerateAgentId | backend/models/User.js:229-253 | the retry loop computes the same id or failure as the functional definition |
| UserModel.SaveUser | backend/models/User.js:207-226 | the validators (User.js:36-48, 144-162) run first, so a user breaking them is refused whatever else holds, and an agent without an id passes them; then a new agent without an id gets a fresh generated one; no other user changes; the saved user passes the validators |
| UserModel.SaveUserKeepsAgentIdsUnique | backend/models/User.js:35-49 | saving a user keeps agent ids unique |
| BookingModel.NormalizePassenger | backend/controllers/bookingController.js:265-272 | each passenger keeps its birth date; the names and the passport are stored trimmed by the sub-document's setters; the salutation falls back to the legacy gender when missing or empty; the type defaults to adult |
| BookingModel.ResentPassengerUnchanged | backend/models/Booking.js:4-11 | a stored passenger sent back comes back unchanged exactly when its salutation is not the empty string |
| BookingModel.StoredInfant | backend/models/Booking.js:14-19 | an infant is stored with trimmed names and its salutation and birth date as sent; an infant whose names are already trimmed is stored as sent |
| BookingModel.AppendFreshReference | backend/models/Booking.js:74 | appending a booking whose reference is unused keeps references unique |
| BookingModel.ReferenceCandidate | backend/controllers/bookingController.js:238-239 | each draw yields `FDT` and a six-digit number from 100000 to 999999 |
| RandomCodes.Scaled | backend/controllers/bookingController.js:238 | `floor(lo + r * span)` for a draw r lies in [lo, lo + span) |
| RandomCodes.ScaledReachesRange | backend/models/User.js:237 | every value of the range is produced by some draw |
| LedgerModel.Change | backend/models/FinanceTransaction.js:3-18 | a change record carries the given values and is balanced |
| LedgerModel.Replay | backend/models/FinanceTransaction.js:5-8 | replaying records changes only the three finance fields, and leaves a field untouched when no record names it |
| LedgerModel.ReplayAppend | backend/models/FinanceTransaction.js:5-8 | replaying two batches in sequence is replaying their concatenation |
| LedgerModel.ReplayChain | backend/models/FinanceTransaction.js:5-8 | two batches that each reconcile reconcile together |
| LedgerModel.BalancedAppend | backend/models/FinanceTransaction.js:6-8 | balanced batches stay balanced when joined |
| LedgerModel.AppendOnlyTransitive | backend/models/FinanceTransaction.js:3-18 | the append-only relation between ledgers is transitive |
| LedgerModel.EnumNamesRoundTrip | backend/models/FinanceTransaction.js:5-13 | the kind, action and source names parse back to the same value |
| RequestModel.ParseRequestType | backend/controllers/financeController.js:26-28 | the type check accepts exactly the three request type names |
| RequestModel.ParseStatus | backend/models/FinanceRequest.js:8 | a missing status defaults to pending; exactly the three status names are accepted |
| RequestModel.RequestNamesRoundTrip | backend/models/FinanceRequest.js:6-8 | request type and status names parse back to the same value |
| Store.ReplaceUserKeepsUsersValid | backend/models/User.js:36-48 | rewriting one account with a valid account that keeps its agent id keeps ids canonical, accounts valid and agent ids unique |
| Store.ReplaceBookingKeepsBookingsValid | backend/models/Booking.js:52-76 | rewriting one booking with a valid booking of the same reference keeps every booking valid and the references unique |
| Store.AirportCity | backend/controllers/bookingController.js:227-231 | a booking shows the airport's city when a city is known for the code, and the code itself otherwise |
| PromoModel.NormalizeCode | backend/models/PromoCode.js:7 | a stored code is trimmed and upper case |
| PromoModel.NormalizeCodeOfStored | backend/models/PromoCode.js:7 | a trimmed upper-case code is its own normal form |
| PromoModel.BookingMatches | backend/controllers/bookingController.js:111-122 | the booking lookup's candidates are exactly the active, in-window promos with the normalized code that are global or the agent's |
| PromoModel.BookingMatchesOnePerScope | backend/models/PromoCode.js:20-29 | with both unique indexes, a code matches at most one global promo and at most one promo of the agent |
| PromoModel.DiscountFor | backend/controllers/bookingController.js:133-141 | a flat promo discounts its amount; a percentage promo discounts that share of the selling total, capped by `maxDiscount` when set |
| PromoController.FirstInScope | backend/controllers/promoController.js:36-38 | the upsert addresses the first record matching its filter, or none when no record matches |
| PromoController.StoredCode | backend/controllers/promoController.js:15 | the code stored and filtered by is trimmed and upper case |
| PromoController.Updated | backend/controllers/promoController.js:16-27 | an update overwrites the sent fields, keeps the omitted optional fields and the usage count, and keeps a global record's agent |
| PromoController.Inserted | backend/controllers/promoController.js:36-38 | an inserted record carries the request, has zero uses, and has the filter's agent or none |
| PromoController.Upsert | backend/controllers/promoController.js:38 | an upsert keeps every record outside its filter and every usage count; it appends one record exactly when none matched; afterwards the first match carries the request |
| PromoController.Upserts | backend/controllers/promoController.js:62-67 | the per-agent upserts add at most one record each and never change a usage count |
| PromoController.CleanKeys | backend/controllers/promoController.js:45 | the list items are trimmed, upper-cased, and blank ones dropped |
| PromoController.AgentKeys | backend/controllers/promoController.js:42-46 | the keys are the `agent` field first when present, then the cleaned `agentId` items |
| PromoController.ResolveAgents | backend/controllers/promoController.js:48-61 | resolution succeeds exactly when every key names an agent, and then returns each key's agent in order; otherwise it is not found |
| PromoController.Targets | backend/controllers/promoController.js:29-61 | a blank list and no agent address the global record; otherwise the request addresses each listed agent, and fails exactly when one does not resolve |
| PromoController.CreateOrUpdate | backend/controllers/promoController.js:6-68 | a missing code is refused first; otherwise the save fails exactly when an agent does not resolve, and nothing is written; only the promo collection changes, and it never shrinks |
| PromoController.CreateOrUpdateStages | backend/controllers/promoController.js:6-68 | a successful save is the upserts for the resolved targets, which are one global target or only agent targets |
| PromoController.UpsertSettles | backend/controllers/promoController.js:38 | after an upsert, its record already is what the upsert would make of it |
| PromoController.SettledCarries | backend/controllers/promoController.js:16-27 | a settled record carries the request's fields |
| PromoController.SettledUpsertIsIdentity | backend/controllers/promoController.js:38 | upserting a settled record changes nothing |
| PromoController.UpsertKeepsSettled | backend/controllers/promoController.js:62-67 | an upsert for one agent keeps another agent's record settled |
| PromoController.UpsertLeavesOtherAgent | backend/controllers/promoController.js:62-67 | an upsert for one agent neither adds, removes nor changes a record in another agent's scope |
| PromoController.SettledCarriesOver | backend/controllers/promoController.js:38 | a settled record stays settled when every record of its scope stays in place and none is added |
| PromoController.UpsertsKeepSettled | backend/controllers/promoController.js:62-67 | the per-agent upserts keep any agent's settled record settled |
| PromoController.UpsertsSettleAll | backend/controllers/promoController.js:62-67 | after the per-agent upserts every listed agent's record is settled |
| PromoController.SettledUpsertsAreIdentity | backend/controllers/promoController.js:62-67 | upserts whose records are all settled change nothing |
| PromoController.GlobalUpsertIsOne | backend/controllers/promoController.js:34-39 | a global request makes exactly one upsert |
| PromoController.UpsertsIdempotent | backend/controllers/promoController.js:34-67 | running the upserts of one request a second time changes nothing |
| PromoController.CreateOrUpdateIdempotent | backend/controllers/promoController.js:6-68 | saving the same promo twice leaves the store as the first save left it: one record per agent, or one global record |
| PromoController.UpsertKeepsPromosValid | backend/models/PromoCode.js:7-29 | a valid upsert keeps the records valid and keeps both unique indexes |
| Store.ReplaceKeepsPromosValid | backend/models/PromoCode.js:20-29 | rewriting a record in place, keeping its code and neither adding an agent nor making it global, keeps both unique indexes |
| Store.AppendKeepsPromosValid | backend/models/PromoCode.js:20-29 | appending a record keeps both unique indexes when no record of its agent, and no global record if it is global, has its code |
| PromoController.UpsertsKeepPromosValid | backend/models/PromoCode.js:20-29 | a sequence of valid upserts keeps the records valid and keeps both unique indexes |
| PromoController.CreateOrUpdateKeepsWellFormed | backend/controllers/promoController.js:6-68 | a save with valid values keeps the store well formed, both promo unique indexes included |
| PromoController.UpsertsCarry | backend/controllers/promoController.js:34-67 | after the upserts, each addressed scope's first record carries the request |
| PromoController.CreateOrUpdateCarries | backend/controllers/promoController.js:15-67 | after a save, each addressed record carries the request's fields |
| PromoController.CleanKeysOfClean | backend/controllers/promoController.js:45 | already clean keys pass the cleaning unchanged |
| PromoController.JoinOfTrimmed | backend/controllers/promoController.js:30 | a comma-joined list of trimmed keys needs no trimming |
| PromoController.AgentListRoundTrip | backend/controllers/promoController.js:29-46 | a list written `A,B,C` addresses agents, not the global record, and parses back to exactly those keys |
| PromoController.ListingAgent | backend/controllers/promoController.js:86 | the listing is for the agent in the path, or for the caller when none is given |
| PromoController.ListForAgent | backend/controllers/promoController.js:84-103 | the listing holds exactly the active, in-window promos that are global or the agent's, newest first |
| PromoController.BookingSeesOnlyListed | backend/controllers/promoController.js:88-98 | the booking lookup's candidates are exactly the listed promos with that code |
| PromoController.CarriedIsEligible | backend/controllers/promoController.js:88-98 | a global record saved active with a window around now passes the listing filter for any agent |
| PromoController.SavedGlobalIsListed | backend/controllers/promoController.js:34-98 | a global promo saved active with a window around now is listed for every agent |
| FlightDuration.JsRem | frontend/utils/get-flight-duration.js:8 | JavaScript's remainder by a positive divisor lies in [0, b) for a non-negative dividend and in (-b, 0] for a negative one |
| FlightDuration.FloorDiv | frontend/utils/get-flight-duration.js:6-7 | `Math.floor(a / b)` is the q with qb <= a < qb + b |
| FlightDuration.DurationOf | frontend/utils/get-flight-duration.js:5-8 | for an arrival after departure, the hours are non-negative and the minutes lie in [0, 60) |
| FlightDuration.GetFlightDuration | frontend/utils/get-flight-duration.js:1-11 | for an arrival after departure the text is the hours' digits, `h `, the minutes' digits and `m` |
| FlightDuration.DurationSplitsMinutes | frontend/utils/get-flight-duration.js:5-8 | for an arrival after departure, hours * 60 + minutes is the elapsed whole minutes, with minutes below sixty |
| FlightDuration.NegativeDurationIsOffByAnHour | frontend/utils/get-flight-duration.js:7-8 | when arrival precedes departure by a non-whole number of hours, the printed parts sum to an hour less than the elapsed minutes |
| FlightDuration.HalfHourEarly | frontend/utils/get-flight-duration.js:1-11 | an arrival thirty minutes before departure prints `-1h -30m` |
| FlightDuration.ReadDurationOfRendered | frontend/utils/get-flight-duration.js:10 | the printed text of a forward flight reads back as its elapsed whole minutes |

## Left out

- Input/output: the HTTP layer, the responses, e-mail, PDF and SMS notifications, and the payment-screenshot upload (backend/controllers/financeController.js:32-40) are outside the state the handlers change.
- Concurrency: MongoDB sessions are modelled as atomic transitions. `adminAdjustFinance` writes its records without a transaction; its partial effect on a database failure mid-way is not modelled, because failures there come only from I/O.
- `Number()` coercion: request numbers are modelled as already numeric. `NaN`, numeric strings and non-number JSON values are not modelled.
- The legacy single `nameChangeRequest` flag (backend/controllers/bookingController.js:433-440, 497-501): a request overwrites it with the new entry; a decision stamps it with the status of the entry it processed, which need not be the latest one, and keeps the flag's old note unless a new note is given. Only these two writes read it, and nothing in the history depends on it.
- Ticket edits: `updateTicket` writes any other request field as given. Only the total seats and the PNR are modelled, the two fields with logic.
- Audit fields: `createdBy`/`updatedBy` are kept only where a property mentions them. Timestamps are the position in creation order.
- Ledger notes and snapshot texts: the free-text `note` of FinanceTransaction records is not modelled.
- Record ids: three kinds of id are positions in the model, not ObjectIds: the finance request's `referenceId`; the booking id of the markup and name-change handlers; and a name-change entry's id. The source matches an entry's `_id` against the sent `requestId` as strings (backend/controllers/bookingController.js:462-464), and the model matches positions. An id that names no pending entry gives `InvalidRequestId` either way.
- BookingController.Admit: looks the ticket up by comparing the id string exactly, and `TicketController.UpdateTicket` does the same. `Ticket.findById` (backend/controllers/bookingController.js:79, backend/controllers/ticketController.js:21) first casts the id to an ObjectId, which reads its 24 hex digits in either letter case. So an upper-case spelling of a stored ticket's id is `NotFound("Ticket")` here, where the source books or edits that ticket. User ids are not affected: `UserModel.FindUserById` does model the case-insensitive cast.
- The `isNew` save in `createOrUpdate` (backend/controllers/promoController.js:70-76): documents returned by `findOneAndUpdate` are never new, so that save never runs and has no effect to model.
- Lookups by a malformed database id: `findById` throws a cast error (HTTP 500) rather than finding nothing. The model reports not-found, and either way nothing is written.
- Case mapping: `toUpperCase` and `toLowerCase` are modelled on ASCII letters only. JavaScript also maps other letters, and a few of them change length (`ß` becomes `SS`). White space is the full set `trim` removes.
- PromoModel.NormalizeCode: upper-cases ASCII letters only, so a code holding a non-ASCII lower-case letter keeps that letter in the model while JavaScript would map it.
- Dates: a date of epoch 0 is falsy in JavaScript and would be dropped by `createOrUpdate`. The model treats every given date as a bound. Invalid dates (`NaN` durations) are not modelled.
- Read-only listing endpoints other than `listForAgent` (searches, pagination, admin lists) are not part of this model.
- PromoController.CreateOrUpdateKeepsWellFormed: requires a request with a non-blank code, a non-negative amount and cap, and a usage limit of at least one. `findOneAndUpdate` runs no validators, so a request that breaks these bounds stores a record the schema would refuse.
- FinanceController.DueAdjustmentsAdd: is stated for the account the agent key finds, not for the whole handler. `AdjustFinance` states that the handler changes only that account, and `SameAgentLookup` states that the key still finds it afterwards.
- PromoController.ListForAgent: returns the positions of the listed records rather than the documents.
- FlightDuration.JsRem: states only the range of the remainder. Its identity with the dividend is stated by `DurationSplitsMinutes` and `NegativeDurationIsOffByAnHour`.
- Validators on save outside `createBooking` and the markup edit: the handlers below save documents without the model re-running their validators. On a well-formed store those validators provably pass, which the `...KeepsWellFormed` lemmas show; only a stored document the schema would refuse makes the source's save fail where the model succeeds.
- NameChange.RequestNameChange: does not re-run the booking validators on save. The booking-level ones bound prices, counts and the reference, which the handler does not change. The passenger sub-document validators (required names, the salutation enum, backend/models/Booking.js:5-7) are not modelled at all, so a name of only blanks, which trims to the empty string and fails `required` in the source, is accepted here.
- NameChange.ProcessNameChange: does not re-run the booking validators on save, for the same reasons, including the unmodelled passenger sub-document validators.
- BookingController.CreateBooking: checks the booking-level validators of the new booking but not the passenger and infant sub-document validators (required names and the salutation enums, backend/models/Booking.js:5-7, 15-17). A passenger with a blank name or an unknown salutation is booked here where the source's `Booking.create` fails.
- Floating point: money is exact `real` arithmetic. The source computes with IEEE-754 doubles, so where rounding decides a comparison the two differ: with 0.3 of available credit and a base price of 0.1 + 0.2 the source refuses the booking (0.30000000000000004 > 0.3) while the model books it.
- FinanceController.ProcessRequest: does not re-run the request and user validators on save. The amount is unchanged and the credit fields stay non-negative on a valid account.
- FinanceController.AdjustFinance: does not re-run the user validators on save. The clamps keep both credit limits non-negative.

=== FILE: booking_controller.dfy ===
/** Booking creation and the markup re-pricing of an existing booking. Booking creation
    runs in one database transaction: the model returns either the whole new store or an
    error, never a partial store. */
module BookingController {
  import opened Results
  import opened Text
  import opened Seqs
  import opened RandomCodes
  import opened TicketModel
  import opened UserModel
  import opened PromoModel
  import opened LedgerModel
  import opened BookingModel
  import opened Store
  import opened Pricing

  /** The request body of a booking. */
  datatype BookingRequest = BookingRequest(
    ticketId: TicketId,
    quantity: int,
    passengers: Option<seq<PassengerInput>>,
    infants: Option<int>,
    infantPassengers: Option<seq<InfantPassenger>>,
    promoCode: Option<string>)

  /** The promo a booking uses: none when no code (or an empty one) is given; otherwise one
      of the eligible records with that code. When a global and an agent-specific record
      share the code the lookup does not say which one it returns, so `pick` chooses. */
  function ResolvePromo(promos: seq<PromoCode>, code: Option<string>, agent: UserId, now: int, pick: nat): (r: Result<Option<nat>>)
    ensures code.None? || code.value == [] ==> r == Ok(None)
    ensures code.Some? && code.value != [] ==> (r.Err? <==> BookingMatches(promos, code.value, agent, now) == [])
    ensures r.Err? ==> r.error == InvalidPromo
    ensures r.Ok? && r.value.Some? ==>
      code.Some? && code.value != [] && r.value.value in BookingMatches(promos, code.value, agent, now)
  {
    if code.None? || code.value == [] then Ok(None)
    else
      var matches := BookingMatches(promos, code.value, agent, now);
      if matches == [] then Err(InvalidPromo)
      else Ok(Some(matches[pick % |matches|]))
  }

  /** The usage-limit step: a limited promo whose counter has reached its limit refuses the
      booking; otherwise its counter goes up by one and the record is saved, which runs the
      schema validators on the whole record. An unlimited promo is neither counted nor
      saved. */
  function ConsumeUsage(promos: seq<PromoCode>, i: nat): (r: Result<seq<PromoCode>>)
    requires i < |promos|
    ensures promos[i].usageLimit.None? ==> r == Ok(promos)
    ensures r.Err? <==>
      promos[i].usageLimit.Some?
      && (promos[i].usageCount >= promos[i].usageLimit.value
          || !PromoValidators(promos[i].(usageCount := promos[i].usageCount + 1)))
    ensures r.Err? && promos[i].usageCount >= promos[i].usageLimit.value ==> r.error == UsageLimitReached
    ensures r.Err? && promos[i].usageCount < promos[i].usageLimit.value ==> r.error == SchemaViolation("PromoCode")
    ensures r.Ok? ==> |r.value| == |promos|
    ensures r.Ok? ==> forall j :: 0 <= j < |promos| && j != i ==> r.value[j] == promos[j]
    ensures r.Ok? && promos[i].usageLimit.Some? ==>
      r.value[i] == promos[i].(usageCount := promos[i].usageCount + 1)
      && r.value[i].usageCount <= promos[i].usageLimit.value
      && PromoValidators(r.value[i])
  {
    var p := promos[i];
    if p.usageLimit.None? then Ok(promos)
    else if p.usageCount >= p.usageLimit.value then Err(UsageLimitReached)
    else
      var counted := p.(usageCount := p.usageCount + 1);
      if !PromoValidators(counted) then Err(SchemaViolation("PromoCode"))
      else Ok(promos[i := counted])
  }

  /** On a record the schema accepted, counting a use never trips the validators: the
      only refusal left is the usage limit. */
  lemma ConsumeStoredPromo(promos: seq<PromoCode>, i: nat)
    requires i < |promos| && ValidPromo(promos[i])
    ensures ConsumeUsage(promos, i).Err? ==> ConsumeUsage(promos, i) == Err(UsageLimitReached)
  {
  }

  /** A promo with a usage limit of n funds at most n bookings: once the counter has been
      raised up to the limit, the next use is refused. */
  lemma UsageLimitExhausted(promos: seq<PromoCode>, i: nat)
    requires i < |promos| && promos[i].usageLimit.Some?
    requires promos[i].usageCount + 1 == promos[i].usageLimit.value && PromoValidators(promos[i])
    ensures ConsumeUsage(promos, i).Ok?
    ensures ConsumeUsage(ConsumeUsage(promos, i).value, i) == Err(UsageLimitReached)
  {
  }

  /** The credit debit of a booking: available credit drops by the required funds, the
      balance due rises by them (floored at 0), and one ledger record is written for each
      field, available credit first. */
  function DebitForBooking(agent: UserId, u: User, required: real): (r: (User, seq<LedgerEntry>))
    requires 0.0 <= required <= u.availableCreditLimit
    ensures r.0 == u.(availableCreditLimit := u.availableCreditLimit - required,
                      balanceDue := Max(0.0, u.balanceDue + required))
    ensures |r.1| == 2
    ensures r.1[0].kind == AvailableCreditLimit && r.1[1].kind == BalanceDue
    ensures Balanced(r.1[0]) && r.1[0].amount == -required
    ensures r.1[0].valueBefore == u.availableCreditLimit && r.1[0].valueAfter == r.0.availableCreditLimit
    ensures r.1[1].amount == required
    ensures r.1[1].valueBefore == u.balanceDue && r.1[1].valueAfter == r.0.balanceDue
    ensures Balanced(r.1[1]) <==> u.balanceDue + required >= 0.0
    ensures forall k :: 0 <= k < 2 ==>
      r.1[k].agent == agent && r.1[k].action == BookingAction && r.1[k].reference == BookingReference
      && r.1[k].source == SystemSource
      && r.1[k].availableAfter == r.0.availableCreditLimit && r.1[k].totalAfter == u.totalCreditLimit
  {
    var beforeAvailable := u.availableCreditLimit;
    var afterAvailable := Max(0.0, beforeAvailable - required);
    var e1 := Change(agent, AvailableCreditLimit, beforeAvailable, afterAvailable, BookingAction,
                     BookingReference, SystemSource, None, afterAvailable, u.totalCreditLimit);
    var beforeDue := u.balanceDue;
    var afterDue := Max(0.0, beforeDue + required);
    var e2 := LedgerEntry(agent, BalanceDue, required, beforeDue, afterDue, BookingAction,
                          BookingReference, SystemSource, Some(agent), afterAvailable, u.totalCreditLimit);
    (u.(availableCreditLimit := afterAvailable, balanceDue := afterDue), [e1, e2])
  }

  /** The two debit records reconcile: re-playing them against the agent's account gives
      the debited account, whichever way the balance-due floor goes. */
  lemma BookingDebitReconciles(agent: UserId, u: User, required: real)
    requires 0.0 <= required <= u.availableCreditLimit
    ensures var (u', es) := DebitForBooking(agent, u, required); Replay(u, es) == Some(u')
  {
    var (u', es) := DebitForBooking(agent, u, required);
    var u1 := SetField(u, AvailableCreditLimit, es[0].valueAfter);
    assert Replay(u, es) == Replay(u1, es[1..]);
    var u2 := SetField(u1, BalanceDue, es[1].valueAfter);
    assert Replay(u1, es[1..]) == Replay(u2, es[2..]);
    assert es[2..] == [];
    assert u2 == u';
  }

  /** The balance-due record of a booking disagrees with its own before and after values
      exactly when the agent had an advance (a negative balance due) larger than the
      booking: the balance is floored at 0 while the record still states the full amount. */
  lemma BookingDueRecordUnbalancedByAdvance(agent: UserId, u: User)
    requires u.availableCreditLimit >= 100.0 && u.balanceDue == -500.0
    ensures var e := DebitForBooking(agent, u, 100.0).1[1];
      e.amount == 100.0 && e.valueBefore == -500.0 && e.valueAfter == 0.0 && !Balanced(e)
  {
  }

  /** Seats move from available to booked. */
  function ReserveSeats(t: Ticket, quantity: int): (r: Ticket)
    ensures r.quantityAvailable == t.quantityAvailable - quantity
    ensures r.quantityBooked == t.quantityBooked + quantity
    ensures r.quantityAvailable + r.quantityBooked == t.quantityAvailable + t.quantityBooked
    ensures SeatsBalanced(t) ==> SeatsBalanced(r)
    ensures r == t.(quantityAvailable := r.quantityAvailable, quantityBooked := r.quantityBooked)
  {
    t.(quantityAvailable := t.quantityAvailable - quantity, quantityBooked := t.quantityBooked + quantity)
  }

  /** The booking reference: the first of ten `FDT######` draws no booking holds yet. */
  function PickReference(used: set<string>, draws: seq<real>): (r: Result<string>)
    requires ValidDraws(draws)
    ensures r.Ok? ==> ReferenceFormat(r.value) && r.value !in used
    ensures r.Ok? ==>
      exists i :: 0 <= i < MaxAttempts && r.value == ReferenceCandidate(draws[i])
                  && forall j :: 0 <= j < i ==> ReferenceCandidate(draws[j]) in used
    ensures r.Err? <==> forall i :: 0 <= i < MaxAttempts ==> ReferenceCandidate(draws[i]) in used
    ensures r.Err? ==> r.error == ReferenceGenerationFailed
  {
    var candidates := ReferenceCandidates(draws);
    match FirstUnused(candidates, used)
    case Some(i) => Ok(candidates[i])
    case None => Err(ReferenceGenerationFailed)
  }

  /** The do-while loop that draws booking references: stop at the first unused draw,
      count the collisions, give up after ten. */
  method GenerateReference(used: set<string>, draws: seq<real>) returns (r: Result<string>)
    requires ValidDraws(draws)
    ensures r == PickReference(used, draws)
  {
    var candidates := ReferenceCandidates(draws);
    var reference := "";
    var attempts := 0;
    var found := false;
    while !found && attempts < MaxAttempts
      invariant 0 <= attempts <= MaxAttempts
      invariant forall j :: 0 <= j < attempts ==> candidates[j] in used
      invariant found ==> attempts < MaxAttempts && reference == candidates[attempts] && reference !in used
      decreases MaxAttempts - attempts, if found then 0 else 1
    {
      reference := candidates[attempts];
      if reference !in used {
        found := true;
      } else {
        attempts := attempts + 1;
      }
    }
    if attempts == MaxAttempts {
      r := Err(ReferenceGenerationFailed);
    } else {
      assert FirstUnused(candidates, used) == Some(attempts);
      r := Ok(reference);
    }
  }

  /** The infant count stored on the booking: the length of the infant list when one is
      sent, else the `infants` number, else 0. */
  function InfantCount(req: BookingRequest): (n: int)
    ensures req.infantPassengers.Some? ==> n == |req.infantPassengers.value|
    ensures req.infantPassengers.None? ==> n == req.infants.GetOr(0)
  {
    if req.infantPassengers.Some? then |req.infantPassengers.value| else req.infants.GetOr(0)
  }

  /** `ticket.pnr || undefined`, stored through the booking schema's `trim` setter: an
      empty PNR is not copied, any other is copied trimmed. */
  function CopiedPnr(pnr: Option<string>): (r: Option<string>)
    ensures r.Some? ==> pnr.Some? && pnr.value != [] && r.value == Trim(pnr.value)
    ensures pnr.Some? && pnr.value != [] ==> r.Some?
  {
    if pnr.Some? && pnr.value != [] then Some(Trim(pnr.value)) else None
  }

  /** A ticket PNR stored by the ticket schema's setter is copied unchanged when not empty. */
  lemma CopiedPnrOfStored(t: Ticket)
    requires PnrTrimmed(t)
    ensures CopiedPnr(t.pnr) == (if t.pnr == Some([]) then None else t.pnr)
  {
    if t.pnr.Some? && t.pnr.value != [] {
      TrimOfTrimmed(t.pnr.value);
    }
  }

  /** The request checks that come before any pricing: a ticket id and a positive
      quantity, an active ticket with enough seats, and an existing agent. */
  function Admit(s: State, agent: UserId, req: BookingRequest): (r: Result<(Ticket, User)>)
    ensures req.ticketId == [] || req.quantity <= 0 ==> r == Err(InvalidField("quantity"))
    ensures r.Ok? <==>
      req.ticketId != [] && req.quantity >= 1
      && req.ticketId in s.tickets && s.tickets[req.ticketId].isActive
      && s.tickets[req.ticketId].quantityAvailable >= req.quantity
      && agent in s.users
    ensures r.Ok? ==> r.value == (s.tickets[req.ticketId], s.users[agent])
    ensures r.Err? && req.ticketId != [] && req.quantity >= 1 ==>
      if req.ticketId !in s.tickets || !s.tickets[req.ticketId].isActive then r.error == NotFound("Ticket")
      else if s.tickets[req.ticketId].quantityAvailable < req.quantity then r.error == InsufficientSeats
      else r.error == NotFound("User")
  {
    if req.ticketId == [] || req.quantity <= 0 then Err(InvalidField("quantity"))
    else if req.ticketId !in s.tickets || !s.tickets[req.ticketId].isActive then Err(NotFound("Ticket"))
    else if s.tickets[req.ticketId].quantityAvailable < req.quantity then Err(InsufficientSeats)
    else if agent !in s.users then Err(NotFound("User"))
    else Ok((s.tickets[req.ticketId], s.users[agent]))
  }

  /** What the pricing steps settle: the quote, the promo used (and its position), and the
      promo collection with its usage counter raised. */
  datatype Sale = Sale(quote: Quote, promo: Option<PromoCode>, used: Option<nat>, promos: seq<PromoCode>)

  /** Pricing, promo resolution, the usage limit and the credit check, in that order. */
  function PriceBooking(promos: seq<PromoCode>, agent: UserId, u: User, t: Ticket, quantity: int,
                        promoCode: Option<string>, now: int, pick: nat): (r: Result<Sale>)
    requires quantity >= 1
    ensures r.Ok? ==> r.value.quote == PriceSale(t.basePrice, u.markerAmount, quantity, r.value.promo)
    ensures r.Ok? ==> r.value.quote.requiredFunds <= u.availableCreditLimit
    ensures r.Ok? ==> |r.value.promos| == |promos|
    ensures r.Ok? && r.value.promo.None? ==> r.value.promos == promos
    ensures r.Ok? ==> (r.value.promo.Some? <==> r.value.used.Some?)
    ensures r.Ok? && r.value.used.Some? ==>
      var i := r.value.used.value;
      promoCode.Some? && i < |promos| && i in BookingMatches(promos, promoCode.value, agent, now)
      && r.value.promo == Some(promos[i]) && ConsumeUsage(promos, i) == Ok(r.value.promos)
    ensures r.Ok? && (promoCode.None? || promoCode.value == []) ==> r.value.promo.None?
    ensures promoCode.Some? && promoCode.value != [] && BookingMatches(promos, promoCode.value, agent, now) == [] ==>
      r == Err(InvalidPromo)
    ensures ResolvePromo(promos, promoCode, agent, now, pick).Ok? ==>
      var chosen := ResolvePromo(promos, promoCode, agent, now, pick).value;
      chosen.Some? ==> chosen.value < |promos| && (ConsumeUsage(promos, chosen.value).Err? ==> r == Err(ConsumeUsage(promos, chosen.value).error))
    ensures ResolvePromo(promos, promoCode, agent, now, pick).Ok? ==>
      var chosen := ResolvePromo(promos, promoCode, agent, now, pick).value;
      var promo := if chosen.Some? && chosen.value < |promos| then Some(promos[chosen.value]) else None;
      var funds := PriceSale(t.basePrice, u.markerAmount, quantity, promo).requiredFunds;
      (chosen.None? || ConsumeUsage(promos, chosen.value).Ok?) ==>
        (r.Ok? <==> funds <= u.availableCreditLimit)
        && (r.Err? ==> r.error == InsufficientFunds)
  {
    var chosen :- ResolvePromo(promos, promoCode, agent, now, pick);
    var promo := if chosen.Some? then Some(promos[chosen.value]) else None;
    var q := PriceSale(t.basePrice, u.markerAmount, quantity, promo);
    var promos' :- if chosen.Some? then ConsumeUsage(promos, chosen.value) else Ok(promos);
    if u.availableCreditLimit < q.requiredFunds then Err(InsufficientFunds)
    else Ok(Sale(q, promo, chosen, promos'))
  }

  /** The booking document as created. */
  function NewBooking(s: State, agent: UserId, req: BookingRequest, t: Ticket, sale: Sale, reference: string): (b: Booking)
    ensures b.ticket == req.ticketId && b.agent == agent && b.createdBy == agent
    ensures b.quantity == req.quantity && b.infants == InfantCount(req)
    ensures b.unitBasePrice == sale.quote.unitBase && b.unitMarkup == sale.quote.unitMarkup
    ensures b.totalBasePrice == sale.quote.totalBase && b.promoDiscount == sale.quote.baseDiscount
    ensures b.totalSellingPrice == sale.quote.totalSelling + InfantFee(t.infantPrice, InfantCount(req))
    ensures b.reference == reference && b.status == Booked && b.nameChangeRequests == []
    ensures b.fromAirportCity == AirportCity(s, t.fromAirport) && b.toAirportCity == AirportCity(s, t.toAirport)
    ensures b.pnr == CopiedPnr(t.pnr)
    ensures b.passengers == NormalizePassengers(req.passengers.GetOr([]))
    ensures forall i :: 0 <= i < |b.passengers| ==> PassengerTrimmed(b.passengers[i])
    ensures b.infantPassengers == StoredInfants(req.infantPassengers.GetOr([]))
    ensures forall i :: 0 <= i < |b.infantPassengers| ==>
      IsTrimmed(b.infantPassengers[i].firstName) && IsTrimmed(b.infantPassengers[i].lastName)
  {
    var infants := InfantCount(req);
    var q := sale.quote;
    Booking(
      req.ticketId, agent,
      AirportCity(s, t.fromAirport), AirportCity(s, t.toAirport),
      req.quantity, infants,
      q.unitBase, q.unitMarkup, q.unitSelling,
      q.totalBase, q.totalMarkup, q.totalSelling + InfantFee(t.infantPrice, infants),
      if sale.promo.Some? then Some(sale.promo.value.code) else None, q.baseDiscount,
      NormalizePassengers(req.passengers.GetOr([])), StoredInfants(req.infantPassengers.GetOr([])),
      Booked, reference, CopiedPnr(t.pnr), [], agent, None)
  }

  /** `createBooking`: validate the request, check the ticket and its seats, price the sale,
      resolve and charge the promo, check and debit the agent's credit, save the agent and
      the ticket with its seats reserved (each save runs the schema validators), draw a
      reference and create the booking, all or nothing. Only the booked ticket and the
      booking agent are read, so nothing is assumed about the rest of the store. */
  function CreateBooking(s: State, agent: UserId, req: BookingRequest, now: int, pick: nat, draws: seq<real>): (r: Result<State>)
    requires ValidDraws(draws)
    ensures r.Ok? ==>
      req.ticketId in s.tickets && agent in s.users
      && r.value.tickets.Keys == s.tickets.Keys && r.value.users.Keys == s.users.Keys
      && |r.value.bookings| == |s.bookings| + 1 && |r.value.ledger| == |s.ledger| + 2
      && r.value.requests == s.requests && r.value.airportCities == s.airportCities
      && TicketValidators(r.value.tickets[req.ticketId]) && ValidUser(r.value.users[agent])
  {
    var (t, u) :- Admit(s, agent, req);
    var sale :- PriceBooking(s.promos, agent, u, t, req.quantity, req.promoCode, now, pick);
    var debit := DebitForBooking(agent, u, sale.quote.requiredFunds);
    var reserved := ReserveSeats(t, req.quantity);
    if !ValidUser(debit.0) then Err(SchemaViolation("User"))
    else if !TicketValidators(reserved) then Err(SchemaViolation("Ticket"))
    else
      var reference :- PickReference(ReferencesInUse(s.bookings), draws);
      var b := NewBooking(s, agent, req, t, sale, reference);
      if !ValidBooking(b) then Err(SchemaViolation("Booking"))
      else
        Ok(s.(tickets := s.tickets[req.ticketId := reserved],
              users := s.users[agent := debit.0],
              promos := sale.promos,
              bookings := s.bookings + [b],
              ledger := s.ledger + debit.1))
  }
}

=== FILE: booking_markup.dfy ===
/** `updateMyBookingMarkup`: an agent re-prices the markup of one of its own bookings. The
    base side (and with it the agent's credit and the ledger) is not touched; the selling
    side is recomputed from the base price, the new markup and the infant fee. */
module MarkupUpdate {
  import opened Results
  import opened TicketModel
  import opened UserModel
  import opened BookingModel
  import opened Store
  import opened Pricing

  /** The infant unit price the handler reads: the ticket's, or 0 when the ticket is gone. */
  function InfantUnit(s: State, b: Booking): (price: real)
    ensures b.ticket in s.tickets ==> price == s.tickets[b.ticket].infantPrice
    ensures b.ticket !in s.tickets ==> price == 0.0
    ensures TicketsValid(s.tickets) ==> price >= 0.0
  {
    if b.ticket in s.tickets then s.tickets[b.ticket].infantPrice else 0.0
  }

  /** The recomputed prices: markup `max(0, unitMarkup || 0)`, selling = base + markup per
      seat, totals per seat count, infant fee on top of the selling total. */
  function Reprice(b: Booking, unitMarkup: Option<real>, infantUnit: real, caller: UserId): (b': Booking)
    ensures b'.unitMarkup >= 0.0
    ensures unitMarkup.GetOr(0.0) >= 0.0 ==> b'.unitMarkup == unitMarkup.GetOr(0.0)
    ensures b'.unitSellingPrice == b.unitBasePrice + b'.unitMarkup
    ensures b'.totalBasePrice == Total(b.unitBasePrice, b.quantity)
    ensures b'.totalMarkup == Total(b'.unitMarkup, b.quantity)
    ensures b'.totalSellingPrice == b'.totalBasePrice + b'.totalMarkup + InfantFee(infantUnit, b.infants)
    ensures b'.updatedBy == Some(caller)
    ensures b' == b.(unitMarkup := b'.unitMarkup, unitSellingPrice := b'.unitSellingPrice,
                     totalBasePrice := b'.totalBasePrice, totalMarkup := b'.totalMarkup,
                     totalSellingPrice := b'.totalSellingPrice, updatedBy := b'.updatedBy)
  {
    var markup := Max(0.0, unitMarkup.GetOr(0.0));
    var selling := b.unitBasePrice + markup;
    TotalDistributes(b.unitBasePrice, markup, b.quantity);
    b.(unitMarkup := markup, unitSellingPrice := selling,
       totalBasePrice := Total(b.unitBasePrice, b.quantity), totalMarkup := Total(markup, b.quantity),
       totalSellingPrice := Total(selling, b.quantity) + InfantFee(infantUnit, b.infants),
       updatedBy := Some(caller))
  }

  /** The caller must own the booking; the re-priced booking is validated on save. */
  function UpdateMarkup(s: State, index: nat, caller: UserId, unitMarkup: Option<real>): (r: Result<State>)
    ensures !(index < |s.bookings| && s.bookings[index].agent == caller) <==> r == Err(NotFound("Booking"))
    ensures r.Err? ==> r.error == NotFound("Booking") || r.error == SchemaViolation("Booking")
    ensures r.Ok? ==> index < |s.bookings| && |r.value.bookings| == |s.bookings|
    ensures r.Ok? ==> r.value == s.(bookings := s.bookings[index := r.value.bookings[index]])
    ensures r.Ok? ==>
      r.value.bookings[index] == Reprice(s.bookings[index], unitMarkup, InfantUnit(s, s.bookings[index]), caller)
  {
    if index >= |s.bookings| || s.bookings[index].agent != caller then Err(NotFound("Booking"))
    else
      var b := s.bookings[index];
      var b' := Reprice(b, unitMarkup, InfantUnit(s, b), caller);
      if !ValidBooking(b') then Err(SchemaViolation("Booking"))
      else Ok(s.(bookings := s.bookings[index := b']))
  }

  /** Re-pricing twice with the same markup is re-pricing once. */
  lemma RepriceIdempotent(b: Booking, unitMarkup: Option<real>, infantUnit: real, caller: UserId)
    ensures var once := Reprice(b, unitMarkup, infantUnit, caller);
      Reprice(once, unitMarkup, infantUnit, caller) == once
  {
  }

  /** The stored promo discount plays no part in the new selling total: two bookings that
      differ only in their discount get the same selling total. A discount that lowered the
      selling total at booking time is therefore not re-applied by a markup change. */
  lemma RepriceIgnoresPromoDiscount(b: Booking, d: real, unitMarkup: Option<real>, infantUnit: real, caller: UserId)
    ensures Reprice(b.(promoDiscount := d), unitMarkup, infantUnit, caller).totalSellingPrice
         == Reprice(b, unitMarkup, infantUnit, caller).totalSellingPrice
  {
  }

  /** On a well-formed store, an agent's markup update of its own booking always succeeds,
      keeps the store well formed, and leaves the base price, the discount, the reference,
      the passengers and the seat count as they were. */
  lemma UpdateMarkupKeepsWellFormed(s: State, index: nat, caller: UserId, unitMarkup: Option<real>)
    requires WellFormed(s)
    requires index < |s.bookings| && s.bookings[index].agent == caller
    ensures UpdateMarkup(s, index, caller, unitMarkup).Ok?
    ensures WellFormed(UpdateMarkup(s, index, caller, unitMarkup).value)
    ensures var b := s.bookings[index];
      var b' := UpdateMarkup(s, index, caller, unitMarkup).value.bookings[index];
      b'.unitBasePrice == b.unitBasePrice && b'.promoDiscount == b.promoDiscount && b'.reference == b.reference
      && b'.passengers == b.passengers && b'.quantity == b.quantity && b'.infants == b.infants
  {
    var b := s.bookings[index];
    var b' := Reprice(b, unitMarkup, InfantUnit(s, b), caller);
    MulNonNegative(b.unitBasePrice, b.quantity as real);
    MulNonNegative(b'.unitMarkup, b.quantity as real);
    assert ValidBooking(b');
    var s' := UpdateMarkup(s, index, caller, unitMarkup).value;
    assert s'.bookings == s.bookings[index := b'];
    forall i, j | 0 <= i < j < |s'.bookings|
      ensures s'.bookings[i].reference != s'.bookings[j].reference
    {
    }
  }

  /** The update is idempotent on the store. */
  lemma UpdateMarkupIdempotent(s: State, index: nat, caller: UserId, unitMarkup: Option<real>)
    requires UpdateMarkup(s, index, caller, unitMarkup).Ok?
    ensures UpdateMarkup(UpdateMarkup(s, index, caller, unitMarkup).value, index, caller, unitMarkup)
         == UpdateMarkup(s, index, caller, unitMarkup)
  {
    var s' := UpdateMarkup(s, index, caller, unitMarkup).value;
    var b := s.bookings[index];
    var b' := s'.bookings[index];
    RepriceIdempotent(b, unitMarkup, InfantUnit(s, b), caller);
    assert b'.agent == caller && ValidBooking(b');
    assert InfantUnit(s', b') == InfantUnit(s, b);
    assert Reprice(b', unitMarkup, InfantUnit(s', b'), caller) == b';
    assert s'.(bookings := s'.bookings[index := b']) == s';
  }
}

=== FILE: booking_model.dfy ===
/** The Booking document: one sale of seats of one ticket by one agent, with its pricing
    snapshot, passengers and the history of name-change requests. */
module BookingModel {
  import opened Results
  import opened Text
  import opened RandomCodes
  import opened TicketModel
  import opened UserModel
  import opened RequestModel

  datatype PassengerType = Adult | Child

  /** An adult or child passenger as stored. Salutation enums and required names are
      sub-document validators this model does not check. */
  datatype Passenger = Passenger(
    firstName: string,
    lastName: string,
    salutation: Option<string>,
    passengerType: PassengerType,
    dateOfBirth: Option<int>,
    passportNumber: Option<string>)

  /** A passenger as a client sends it; older clients send `gender` for the salutation. */
  datatype PassengerInput = PassengerInput(
    firstName: string,
    lastName: string,
    salutation: Option<string>,
    gender: Option<string>,
    passengerType: Option<PassengerType>,
    dateOfBirth: Option<int>,
    passportNumber: Option<string>)

  datatype InfantPassenger = InfantPassenger(
    firstName: string,
    lastName: string,
    salutation: string,
    dateOfBirth: int)

  /** One name-change request; its identifier is its position in the booking's list. */
  datatype NameChangeEntry = NameChangeEntry(
    previousPassengers: seq<Passenger>,
    newPassengers: seq<Passenger>,
    status: ReviewStatus,
    requestedAt: int,
    requestedBy: UserId,
    processedAt: Option<int>,
    processedBy: Option<UserId>,
    note: string)

  datatype BookingStatus = Booked | Cancelled

  datatype Booking = Booking(
    ticket: TicketId,
    agent: UserId,
    fromAirportCity: string,
    toAirportCity: string,
    quantity: int,
    infants: int,
    unitBasePrice: real,
    unitMarkup: real,
    unitSellingPrice: real,
    totalBasePrice: real,
    totalMarkup: real,
    totalSellingPrice: real,
    promoCode: Option<string>,
    promoDiscount: real,
    passengers: seq<Passenger>,
    infantPassengers: seq<InfantPassenger>,
    status: BookingStatus,
    reference: string,
    pnr: Option<string>,
    nameChangeRequests: seq<NameChangeEntry>,
    createdBy: UserId,
    updatedBy: Option<UserId>)

  /** Names and passport as the passenger sub-document's `trim` setters store them. */
  predicate PassengerTrimmed(q: Passenger) {
    IsTrimmed(q.firstName) && IsTrimmed(q.lastName)
    && (q.passportNumber.None? || IsTrimmed(q.passportNumber.value))
  }

  /** The mapping both booking creation and name-change handlers apply to each passenger:
      the salutation falls back to `gender` when missing or empty, the type to adult; the
      stored sub-document then trims the names and the passport number. */
  function NormalizePassenger(p: PassengerInput): (q: Passenger)
    ensures q.firstName == Trim(p.firstName) && q.lastName == Trim(p.lastName)
    ensures q.dateOfBirth == p.dateOfBirth && q.passportNumber == TrimOption(p.passportNumber)
    ensures PassengerTrimmed(q)
    ensures p.salutation.Some? && p.salutation.value != [] ==> q.salutation == p.salutation
    ensures !(p.salutation.Some? && p.salutation.value != []) ==> q.salutation == p.gender
    ensures p.passengerType.None? ==> q.passengerType == Adult
    ensures p.passengerType.Some? ==> q.passengerType == p.passengerType.value
  {
    Passenger(
      Trim(p.firstName), Trim(p.lastName),
      if p.salutation.Some? && p.salutation.value != [] then p.salutation else p.gender,
      p.passengerType.GetOr(Adult),
      p.dateOfBirth, TrimOption(p.passportNumber))
  }

  function NormalizePassengers(ps: seq<PassengerInput>): (qs: seq<Passenger>)
    ensures |qs| == |ps|
    ensures forall i :: 0 <= i < |ps| ==> qs[i] == NormalizePassenger(ps[i])
  {
    seq(|ps|, i requires 0 <= i < |ps| => NormalizePassenger(ps[i]))
  }

  /** A stored passenger as a client would send it back. */
  function Resent(q: Passenger): PassengerInput {
    PassengerInput(q.firstName, q.lastName, q.salutation, None, Some(q.passengerType),
                   q.dateOfBirth, q.passportNumber)
  }

  /** Sending a stored passenger back stores it unchanged, unless its salutation is the empty
      string, which the fallback treats as missing. */
  lemma ResentPassengerUnchanged(q: Passenger)
    requires PassengerTrimmed(q)
    ensures NormalizePassenger(Resent(q)) == q <==> q.salutation != Some("")
  {
    var r := NormalizePassenger(Resent(q));
    if q.salutation == Some("") {
      assert r.salutation.None?;
    } else {
      TrimOfTrimmed(q.firstName);
      TrimOfTrimmed(q.lastName);
      assert r.passportNumber == q.passportNumber by {
        if q.passportNumber.Some? {
          TrimOfTrimmed(q.passportNumber.value);
        }
      }
      assert r.salutation == q.salutation;
    }
  }

  /** An infant passenger as the sub-document's `trim` setters store it: names trimmed,
      salutation and birth date as sent. */
  function StoredInfant(ip: InfantPassenger): (r: InfantPassenger)
    ensures IsTrimmed(r.firstName) && IsTrimmed(r.lastName)
    ensures r.firstName == Trim(ip.firstName) && r.lastName == Trim(ip.lastName)
    ensures r.salutation == ip.salutation && r.dateOfBirth == ip.dateOfBirth
    ensures IsTrimmed(ip.firstName) && IsTrimmed(ip.lastName) ==> r == ip
  {
    TrimOfTrimmedIfTrimmed(ip.firstName);
    TrimOfTrimmedIfTrimmed(ip.lastName);
    ip.(firstName := Trim(ip.firstName), lastName := Trim(ip.lastName))
  }

  function StoredInfants(ips: seq<InfantPassenger>): (rs: seq<InfantPassenger>)
    ensures |rs| == |ips|
    ensures forall i :: 0 <= i < |ips| ==> rs[i] == StoredInfant(ips[i])
  {
    seq(|ips|, i requires 0 <= i < |ips| => StoredInfant(ips[i]))
  }

  lemma TrimOfTrimmedIfTrimmed(s: string)
    ensures IsTrimmed(s) ==> Trim(s) == s
  {
    if IsTrimmed(s) {
      TrimOfTrimmed(s);
    }
  }

  /** The schema validators: at least one seat, a non-negative infant count, non-negative
      prices and discount, and a reference. */
  predicate ValidBooking(b: Booking) {
    b.quantity >= 1 && b.infants >= 0
    && b.unitBasePrice >= 0.0 && b.unitMarkup >= 0.0 && b.unitSellingPrice >= 0.0
    && b.totalBasePrice >= 0.0 && b.totalMarkup >= 0.0 && b.totalSellingPrice >= 0.0
    && b.promoDiscount >= 0.0
    && b.reference != []
  }

  /** The unique index on `reference`. */
  predicate UniqueReferences(bs: seq<Booking>) {
    forall i, j :: 0 <= i < j < |bs| ==> bs[i].reference != bs[j].reference
  }

  function ReferencesInUse(bs: seq<Booking>): (used: set<string>)
    ensures forall i :: 0 <= i < |bs| ==> bs[i].reference in used
    ensures forall r :: r in used ==> exists i :: 0 <= i < |bs| && bs[i].reference == r
  {
    set i | 0 <= i < |bs| :: bs[i].reference
  }

  /** A booking whose reference no booking holds yet keeps the references unique. */
  lemma AppendFreshReference(bs: seq<Booking>, b: Booking)
    requires UniqueReferences(bs) && b.reference !in ReferencesInUse(bs)
    ensures UniqueReferences(bs + [b])
  {
    var bs' := bs + [b];
    forall i, j | 0 <= i < j < |bs'|
      ensures bs'[i].reference != bs'[j].reference
    {
      assert bs'[i] == bs[i];
      if j < |bs| {
        assert bs'[j] == bs[j];
      }
    }
  }

  /** "FDT" followed by a six-digit number without a leading zero. */
  predicate ReferenceFormat(s: string) {
    |s| == 9 && s[..3] == "FDT" && AllDigits(s[3..]) && s[3] != '0'
  }

  /** `FDT${Math.floor(100000 + Math.random() * 900000)}` for one draw. */
  function ReferenceCandidate(r: real): (ref: string)
    requires IsDraw(r)
    ensures ReferenceFormat(ref)
    ensures 100000 <= ParseDigits(ref[3..]) <= 999999
  {
    var n := Scaled(r, 100000, 900000);
    DigitsLength(n, 6);
    LeadingDigitNonZero(n);
    ParseDigitsOfDigits(n);
    assert ("FDT" + Digits(n))[3..] == Digits(n);
    "FDT" + Digits(n)
  }

  /** The rendering of a positive number does not start with zero. */
  lemma {:induction false} LeadingDigitNonZero(n: nat)
    requires n >= 1
    ensures Digits(n)[0] != '0'
  {
    if n >= 10 {
      LeadingDigitNonZero(n / 10);
    }
  }

  function ReferenceCandidates(draws: seq<real>): (c: seq<string>)
    requires ValidDraws(draws)
    ensures |c| == MaxAttempts
    ensures forall i :: 0 <= i < MaxAttempts ==> c[i] == ReferenceCandidate(draws[i])
  {
    seq(MaxAttempts, i requires 0 <= i < MaxAttempts => ReferenceCandidate(draws[i]))
  }
}

=== FILE: booking_properties.dfy ===
/** What a successful booking does to the store, and what it leaves alone.

    Each property is a predicate over the store before and after. It is proved once about
    the store `AfterBooking` assembles from the booking's stages, and then carried over to
    `CreateBooking` through `CreateBookingStages`. */
module BookingProperties {
  import opened Results
  import opened RandomCodes
  import opened TicketModel
  import opened UserModel
  import opened PromoModel
  import opened LedgerModel
  import opened BookingModel
  import opened Store
  import opened Pricing
  import opened BookingController

  /** The failure modes in the order the handler meets them: request fields, ticket,
      seats, agent, promo, usage limit, promo save, credit, agent save, ticket save,
      reference draws. Each aborts the whole transaction, which the model expresses by
      returning no store at all. */
  lemma CreateBookingFailureOrder(s: State, agent: UserId, req: BookingRequest, now: int, pick: nat, draws: seq<real>)
    requires ValidDraws(draws)
    ensures Admit(s, agent, req).Err? ==> CreateBooking(s, agent, req, now, pick, draws) == Err(Admit(s, agent, req).error)
    ensures Admit(s, agent, req).Ok? ==>
      var t := s.tickets[req.ticketId];
      var u := s.users[agent];
      var sale := PriceBooking(s.promos, agent, u, t, req.quantity, req.promoCode, now, pick);
      (sale.Err? ==> CreateBooking(s, agent, req, now, pick, draws) == Err(sale.error))
      && (sale.Ok? ==>
            var debited := DebitForBooking(agent, u, sale.value.quote.requiredFunds).0;
            var reserved := ReserveSeats(t, req.quantity);
            (!ValidUser(debited) ==> CreateBooking(s, agent, req, now, pick, draws) == Err(SchemaViolation("User")))
            && (ValidUser(debited) && !TicketValidators(reserved) ==>
                  CreateBooking(s, agent, req, now, pick, draws) == Err(SchemaViolation("Ticket")))
            && (ValidUser(debited) && TicketValidators(reserved) && PickReference(ReferencesInUse(s.bookings), draws).Err? ==>
                  CreateBooking(s, agent, req, now, pick, draws) == Err(ReferenceGenerationFailed))
            && (ValidUser(debited) && TicketValidators(reserved) && PickReference(ReferencesInUse(s.bookings), draws).Ok?
                && !ValidBooking(NewBooking(s, agent, req, t, sale.value, PickReference(ReferencesInUse(s.bookings), draws).value)) ==>
                  CreateBooking(s, agent, req, now, pick, draws) == Err(SchemaViolation("Booking"))))
    ensures CreateBooking(s, agent, req, now, pick, draws).Ok? ==>
      Admit(s, agent, req).Ok?
      && PriceBooking(s.promos, agent, s.users[agent], s.tickets[req.ticketId], req.quantity, req.promoCode, now, pick).Ok?
      && PickReference(ReferencesInUse(s.bookings), draws).Ok?
  {
  }

  /** The save checks only refuse records the schema would not have stored: an agent and a
      ticket as stored pass them, whatever the sale. */
  lemma StoredRecordsSave(s: State, agent: UserId, req: BookingRequest, now: int, pick: nat)
    requires Admit(s, agent, req).Ok?
    requires ValidUser(s.users[agent]) && ValidTicket(s.tickets[req.ticketId])
    requires PriceBooking(s.promos, agent, s.users[agent], s.tickets[req.ticketId], req.quantity, req.promoCode, now, pick).Ok?
    ensures var sale := PriceBooking(s.promos, agent, s.users[agent], s.tickets[req.ticketId], req.quantity, req.promoCode, now, pick).value;
      ValidUser(DebitForBooking(agent, s.users[agent], sale.quote.requiredFunds).0)
      && TicketValidators(ReserveSeats(s.tickets[req.ticketId], req.quantity))
  {
  }

  // ---------------------------------------------------------------------------------
  // The stages of a successful booking.

  /** The store a successful booking leaves behind, assembled from its stages. */
  function AfterBooking(s: State, agent: UserId, req: BookingRequest, t: Ticket, u: User, sale: Sale, reference: string): State
    requires 0.0 <= sale.quote.requiredFunds <= u.availableCreditLimit
  {
    var debit := DebitForBooking(agent, u, sale.quote.requiredFunds);
    s.(tickets := s.tickets[req.ticketId := ReserveSeats(t, req.quantity)],
       users := s.users[agent := debit.0],
       promos := sale.promos,
       bookings := s.bookings + [NewBooking(s, agent, req, t, sale, reference)],
       ledger := s.ledger + debit.1)
  }

  /** What the admission, pricing and reference stages establish about their results. */
  predicate Staged(s: State, agent: UserId, req: BookingRequest, t: Ticket, u: User, sale: Sale, reference: string) {
    req.ticketId in s.tickets && t == s.tickets[req.ticketId] && agent in s.users && u == s.users[agent]
    && 1 <= req.quantity <= t.quantityAvailable
    && sale.quote == PriceSale(t.basePrice, u.markerAmount, req.quantity, sale.promo)
    && 0.0 <= sale.quote.requiredFunds <= u.availableCreditLimit
    && ValidUser(DebitForBooking(agent, u, sale.quote.requiredFunds).0)
    && TicketValidators(ReserveSeats(t, req.quantity)) && t.basePrice >= 0.0
    && |sale.promos| == |s.promos|
    && (sale.used.None? ==> sale.promos == s.promos)
    && (sale.used.Some? ==>
          sale.used.value < |s.promos| && sale.promo == Some(s.promos[sale.used.value])
          && ConsumeUsage(s.promos, sale.used.value) == Ok(sale.promos))
    && ReferenceFormat(reference) && reference !in ReferencesInUse(s.bookings)
    && ValidBooking(NewBooking(s, agent, req, t, sale, reference))
  }

  /** The stages of a successful booking, named: a successful booking is exactly the store
      `AfterBooking` assembles from the admitted ticket and agent, the priced sale and the
      drawn reference. */
  lemma CreateBookingStages(s: State, agent: UserId, req: BookingRequest, now: int, pick: nat, draws: seq<real>)
    returns (t: Ticket, u: User, sale: Sale, reference: string)
    requires ValidDraws(draws)
    requires CreateBooking(s, agent, req, now, pick, draws).Ok?
    ensures Admit(s, agent, req) == Ok((t, u))
    ensures PriceBooking(s.promos, agent, u, t, req.quantity, req.promoCode, now, pick) == Ok(sale)
    ensures PickReference(ReferencesInUse(s.bookings), draws) == Ok(reference)
    ensures Staged(s, agent, req, t, u, sale, reference)
    ensures CreateBooking(s, agent, req, now, pick, draws).value == AfterBooking(s, agent, req, t, u, sale, reference)
  {
    t, u := Admit(s, agent, req).value.0, Admit(s, agent, req).value.1;
    sale := PriceBooking(s.promos, agent, u, t, req.quantity, req.promoCode, now, pick).value;
    reference := PickReference(ReferencesInUse(s.bookings), draws).value;
  }

  /** The converse of `CreateBookingStages`: once admission, pricing (with its credit check)
      and the reference draw succeed and the saves accept the debited agent, the reserved
      ticket and the new booking, the booking is made, and it is the staged store. */
  lemma CreateBookingSucceeds(s: State, agent: UserId, req: BookingRequest, now: int, pick: nat, draws: seq<real>,
                              t: Ticket, u: User, sale: Sale, reference: string)
    requires ValidDraws(draws)
    requires Admit(s, agent, req) == Ok((t, u))
    requires PriceBooking(s.promos, agent, u, t, req.quantity, req.promoCode, now, pick) == Ok(sale)
    requires PickReference(ReferencesInUse(s.bookings), draws) == Ok(reference)
    requires ValidUser(DebitForBooking(agent, u, sale.quote.requiredFunds).0)
    requires TicketValidators(ReserveSeats(t, req.quantity))
    requires ValidBooking(NewBooking(s, agent, req, t, sale, reference))
    ensures 0.0 <= sale.quote.requiredFunds <= u.availableCreditLimit
    ensures CreateBooking(s, agent, req, now, pick, draws) == Ok(AfterBooking(s, agent, req, t, u, sale, reference))
  {
  }

  // ---------------------------------------------------------------------------------
  // Seats.

  /** The booked ticket moves `quantity` seats from available to booked, keeping its total,
      never going below zero, and staying balanced if it was; every other ticket is
      untouched. */
  predicate SeatsReserved(s: State, req: BookingRequest, s': State) {
    req.ticketId in s.tickets && req.ticketId in s'.tickets && s'.tickets.Keys == s.tickets.Keys
    && (var t := s.tickets[req.ticketId]; var t' := s'.tickets[req.ticketId];
        t'.quantityAvailable == t.quantityAvailable - req.quantity >= 0
        && t'.quantityBooked == t.quantityBooked + req.quantity
        && t'.quantityTotal == t.quantityTotal
        && (SeatsBalanced(t) ==> SeatsBalanced(t'))
        && t' == t.(quantityAvailable := t'.quantityAvailable, quantityBooked := t'.quantityBooked))
    && forall id :: id in s.tickets && id != req.ticketId ==> s'.tickets[id] == s.tickets[id]
  }

  lemma AfterBookingReservesSeats(s: State, agent: UserId, req: BookingRequest, t: Ticket, u: User, sale: Sale, reference: string)
    requires Staged(s, agent, req, t, u, sale, reference)
    ensures SeatsReserved(s, req, AfterBooking(s, agent, req, t, u, sale, reference))
  {
  }

  lemma CreateBookingReservesSeats(s: State, agent: UserId, req: BookingRequest, now: int, pick: nat, draws: seq<real>, s': State)
    requires ValidDraws(draws)
    requires CreateBooking(s, agent, req, now, pick, draws) == Ok(s')
    ensures SeatsReserved(s, req, s')
  {
    var t, u, sale, reference := CreateBookingStages(s, agent, req, now, pick, draws);
    AfterBookingReservesSeats(s, agent, req, t, u, sale, reference);
  }

  // ---------------------------------------------------------------------------------
  // Credit.

  /** The agent's available credit drops by exactly the funds the booking records as
      required (base total less the base-capped discount) and stays non-negative; the
      balance due rises by the same amount, floored at 0; nobody else's account moves. */
  predicate CreditDebited(s: State, agent: UserId, req: BookingRequest, s': State) {
    agent in s.users && agent in s'.users && s'.users.Keys == s.users.Keys
    && req.ticketId in s.tickets && |s'.bookings| == |s.bookings| + 1
    && (var b := s'.bookings[|s.bookings|];
        var required := b.totalBasePrice - b.promoDiscount;
        var u := s.users[agent];
        var u' := s'.users[agent];
        0.0 <= b.promoDiscount <= b.totalBasePrice
        && b.unitBasePrice == s.tickets[req.ticketId].basePrice
        && b.totalBasePrice == Total(b.unitBasePrice, b.quantity)
        && u'.availableCreditLimit == u.availableCreditLimit - required >= 0.0
        && u'.balanceDue == Max(0.0, u.balanceDue + required)
        && u' == u.(availableCreditLimit := u'.availableCreditLimit, balanceDue := u'.balanceDue))
    && forall id :: id in s.users && id != agent ==> s'.users[id] == s.users[id]
  }

  lemma AfterBookingDebitsCredit(s: State, agent: UserId, req: BookingRequest, t: Ticket, u: User, sale: Sale, reference: string)
    requires Staged(s, agent, req, t, u, sale, reference)
    ensures CreditDebited(s, agent, req, AfterBooking(s, agent, req, t, u, sale, reference))
  {
    var s' := AfterBooking(s, agent, req, t, u, sale, reference);
    assert s'.bookings[|s.bookings|] == NewBooking(s, agent, req, t, sale, reference);
  }

  lemma CreateBookingDebitsCredit(s: State, agent: UserId, req: BookingRequest, now: int, pick: nat, draws: seq<real>, s': State)
    requires ValidDraws(draws)
    requires CreateBooking(s, agent, req, now, pick, draws) == Ok(s')
    ensures CreditDebited(s, agent, req, s')
  {
    var t, u, sale, reference := CreateBookingStages(s, agent, req, now, pick, draws);
    AfterBookingDebitsCredit(s, agent, req, t, u, sale, reference);
  }

  // ---------------------------------------------------------------------------------
  // Ledger.

  /** Exactly two booking records are appended, available credit first, then balance due;
      the first always agrees with its before and after values, the second only when the
      old balance due plus the required funds is not negative; re-played against the
      agent's old account they give its new one. */
  predicate LedgerWritten(s: State, agent: UserId, s': State) {
    agent in s.users && agent in s'.users && |s'.bookings| == |s.bookings| + 1
    && AppendOnly(s.ledger, s'.ledger) && |s'.ledger| == |s.ledger| + 2
    && (forall k :: |s.ledger| <= k < |s'.ledger| ==>
          s'.ledger[k].agent == agent && s'.ledger[k].action == BookingAction && s'.ledger[k].reference == BookingReference)
    && (var b := s'.bookings[|s.bookings|];
        var required := b.totalBasePrice - b.promoDiscount;
        var e1 := s'.ledger[|s.ledger|];
        var e2 := s'.ledger[|s.ledger| + 1];
        e1.kind == AvailableCreditLimit && e2.kind == BalanceDue
        && Balanced(e1) && e1.amount == -required
        && e2.amount == required
        && (Balanced(e2) <==> s.users[agent].balanceDue + required >= 0.0))
    && Replay(s.users[agent], s'.ledger[|s.ledger|..]) == Some(s'.users[agent])
  }

  lemma AfterBookingWritesLedger(s: State, agent: UserId, req: BookingRequest, t: Ticket, u: User, sale: Sale, reference: string)
    requires Staged(s, agent, req, t, u, sale, reference)
    ensures LedgerWritten(s, agent, AfterBooking(s, agent, req, t, u, sale, reference))
  {
    var s' := AfterBooking(s, agent, req, t, u, sale, reference);
    assert s'.bookings[|s.bookings|] == NewBooking(s, agent, req, t, sale, reference);
    var debit := DebitForBooking(agent, u, sale.quote.requiredFunds);
    assert s'.ledger[|s.ledger|] == debit.1[0] && s'.ledger[|s.ledger| + 1] == debit.1[1];
    assert s'.ledger[|s.ledger|..] == debit.1;
    BookingDebitReconciles(agent, u, sale.quote.requiredFunds);
  }

  lemma CreateBookingWritesLedger(s: State, agent: UserId, req: BookingRequest, now: int, pick: nat, draws: seq<real>, s': State)
    requires ValidDraws(draws)
    requires CreateBooking(s, agent, req, now, pick, draws) == Ok(s')
    ensures LedgerWritten(s, agent, s')
  {
    var t, u, sale, reference := CreateBookingStages(s, agent, req, now, pick, draws);
    AfterBookingWritesLedger(s, agent, req, t, u, sale, reference);
  }

  // ---------------------------------------------------------------------------------
  // The booking record and the promo counter.

  /** The new booking is appended after the existing ones, with a fresh reference of the
      `FDT######` format, the requested ticket, agent, quantity and infants, the status
      `booked` and no name-change history; the finance requests are untouched. */
  predicate BookingRecorded(s: State, agent: UserId, req: BookingRequest, s': State) {
    |s'.bookings| == |s.bookings| + 1 && s'.bookings[..|s.bookings|] == s.bookings
    && s'.requests == s.requests
    && var b := s'.bookings[|s.bookings|];
    b.ticket == req.ticketId && b.agent == agent && b.quantity == req.quantity
    && b.infants == InfantCount(req) && b.status == Booked && b.nameChangeRequests == []
    && ReferenceFormat(b.reference) && b.reference !in ReferencesInUse(s.bookings) && ValidBooking(b)
  }

  lemma AfterBookingRecordsBooking(s: State, agent: UserId, req: BookingRequest, t: Ticket, u: User, sale: Sale, reference: string)
    requires Staged(s, agent, req, t, u, sale, reference)
    ensures BookingRecorded(s, agent, req, AfterBooking(s, agent, req, t, u, sale, reference))
  {
    var s' := AfterBooking(s, agent, req, t, u, sale, reference);
    assert s'.bookings[|s.bookings|] == NewBooking(s, agent, req, t, sale, reference);
    assert s'.bookings[..|s.bookings|] == s.bookings;
  }

  lemma CreateBookingRecordsBooking(s: State, agent: UserId, req: BookingRequest, now: int, pick: nat, draws: seq<real>, s': State)
    requires ValidDraws(draws)
    requires CreateBooking(s, agent, req, now, pick, draws) == Ok(s')
    ensures BookingRecorded(s, agent, req, s')
  {
    var t, u, sale, reference := CreateBookingStages(s, agent, req, now, pick, draws);
    AfterBookingRecordsBooking(s, agent, req, t, u, sale, reference);
  }

  /** Only the promo the booking names can change, and only by one more use within its
      limit. */
  predicate PromoUseCounted(s: State, s': State) {
    |s'.promos| == |s.promos| && |s'.bookings| == |s.bookings| + 1
    && forall i :: 0 <= i < |s.promos| && s'.promos[i] != s.promos[i] ==>
      s'.promos[i] == s.promos[i].(usageCount := s.promos[i].usageCount + 1)
      && s.promos[i].usageLimit.Some? && s'.promos[i].usageCount <= s.promos[i].usageLimit.value
      && s'.bookings[|s.bookings|].promoCode == Some(s.promos[i].code)
  }

  /** Consuming a use changes at most the consumed promo, by one use within its limit. */
  lemma ConsumeChangesOnlyOne(promos: seq<PromoCode>, i: nat, promos': seq<PromoCode>)
    requires i < |promos| && ConsumeUsage(promos, i) == Ok(promos')
    ensures |promos'| == |promos|
    ensures forall j :: 0 <= j < |promos| && promos'[j] != promos[j] ==>
      j == i && promos'[j] == promos[j].(usageCount := promos[j].usageCount + 1)
      && promos[j].usageLimit.Some? && promos'[j].usageCount <= promos[j].usageLimit.value
  {
  }

  lemma AfterBookingCountsPromoUse(s: State, agent: UserId, req: BookingRequest, t: Ticket, u: User, sale: Sale, reference: string)
    requires Staged(s, agent, req, t, u, sale, reference)
    ensures PromoUseCounted(s, AfterBooking(s, agent, req, t, u, sale, reference))
  {
    var s' := AfterBooking(s, agent, req, t, u, sale, reference);
    assert s'.bookings[|s.bookings|] == NewBooking(s, agent, req, t, sale, reference);
    if sale.used.Some? {
      ConsumeChangesOnlyOne(s.promos, sale.used.value, sale.promos);
    }
  }

  lemma CreateBookingCountsPromoUse(s: State, agent: UserId, req: BookingRequest, now: int, pick: nat, draws: seq<real>, s': State)
    requires ValidDraws(draws)
    requires CreateBooking(s, agent, req, now, pick, draws) == Ok(s')
    ensures PromoUseCounted(s, s')
  {
    var t, u, sale, reference := CreateBookingStages(s, agent, req, now, pick, draws);
    AfterBookingCountsPromoUse(s, agent, req, t, u, sale, reference);
  }

  /** Infants are charged on the selling side only: two requests that differ only in their
      infants leave the same credit, ledger, seats and promo counters behind. */
  lemma InfantsNotFunded(s: State, agent: UserId, req: BookingRequest, infants: Option<int>,
                         infantPassengers: Option<seq<InfantPassenger>>, now: int, pick: nat, draws: seq<real>,
                         s1: State, s2: State)
    requires ValidDraws(draws)
    requires CreateBooking(s, agent, req, now, pick, draws) == Ok(s1)
    requires CreateBooking(s, agent, req.(infants := infants, infantPassengers := infantPassengers), now, pick, draws) == Ok(s2)
    ensures s1.users == s2.users && s1.ledger == s2.ledger && s1.tickets == s2.tickets && s1.promos == s2.promos
  {
    var req2 := req.(infants := infants, infantPassengers := infantPassengers);
    var t, u, sale, reference := CreateBookingStages(s, agent, req, now, pick, draws);
    var t2, u2, sale2, reference2 := CreateBookingStages(s, agent, req2, now, pick, draws);
    assert Admit(s, agent, req2) == Admit(s, agent, req);
  }

  // ---------------------------------------------------------------------------------
  // The schemas and unique indexes.

  /** A booking keeps the store well formed: the debited agent, the reserved ticket, the
      promo with its raised counter and the new booking all satisfy their schemas, and the
      new reference keeps references unique. */
  lemma CreateBookingKeepsWellFormed(s: State, agent: UserId, req: BookingRequest, now: int, pick: nat, draws: seq<real>, s': State)
    requires WellFormed(s) && ValidDraws(draws)
    requires CreateBooking(s, agent, req, now, pick, draws) == Ok(s')
    ensures WellFormed(s')
  {
    var t, u, sale, reference := CreateBookingStages(s, agent, req, now, pick, draws);
    KeepsTicketsValid(s, agent, req, t, u, sale, reference);
    KeepsUsersValid(s, agent, req, t, u, sale, reference);
    KeepsPromosValid(s, agent, req, t, u, sale, reference);
    KeepsBookingsValid(s, agent, req, t, u, sale, reference);
  }

  lemma KeepsTicketsValid(s: State, agent: UserId, req: BookingRequest, t: Ticket, u: User, sale: Sale, reference: string)
    requires WellFormed(s) && Staged(s, agent, req, t, u, sale, reference)
    ensures TicketsValid(AfterBooking(s, agent, req, t, u, sale, reference).tickets)
  {
    var s' := AfterBooking(s, agent, req, t, u, sale, reference);
    AfterBookingReservesSeats(s, agent, req, t, u, sale, reference);
    forall id | id in s'.tickets
      ensures ValidTicket(s'.tickets[id]) && SeatsBalanced(s'.tickets[id])
    {
      if id != req.ticketId {
        assert s'.tickets[id] == s.tickets[id];
      }
    }
  }

  lemma KeepsBookingsValid(s: State, agent: UserId, req: BookingRequest, t: Ticket, u: User, sale: Sale, reference: string)
    requires WellFormed(s) && Staged(s, agent, req, t, u, sale, reference)
    ensures BookingsValid(AfterBooking(s, agent, req, t, u, sale, reference).bookings)
    ensures RequestsValid(AfterBooking(s, agent, req, t, u, sale, reference).requests)
  {
    var s' := AfterBooking(s, agent, req, t, u, sale, reference);
    var b := NewBooking(s, agent, req, t, sale, reference);
    assert s'.bookings == s.bookings + [b];
    AppendFreshReference(s.bookings, b);
  }

  lemma KeepsUsersValid(s: State, agent: UserId, req: BookingRequest, t: Ticket, u: User, sale: Sale, reference: string)
    requires WellFormed(s) && Staged(s, agent, req, t, u, sale, reference)
    ensures UsersValid(AfterBooking(s, agent, req, t, u, sale, reference).users)
  {
    var s' := AfterBooking(s, agent, req, t, u, sale, reference);
    AfterBookingDebitsCredit(s, agent, req, t, u, sale, reference);
    ReplaceUserKeepsUsersValid(s.users, agent, s'.users[agent]);
  }

  lemma KeepsPromosValid(s: State, agent: UserId, req: BookingRequest, t: Ticket, u: User, sale: Sale, reference: string)
    requires WellFormed(s) && Staged(s, agent, req, t, u, sale, reference)
    ensures PromosValid(AfterBooking(s, agent, req, t, u, sale, reference).promos)
  {
    assert AfterBooking(s, agent, req, t, u, sale, reference).promos == sale.promos;
    if sale.used.Some? {
      var i := sale.used.value;
      var p := s.promos[i];
      if p.usageLimit.Some? {
        assert sale.promos == s.promos[i := p.(usageCount := p.usageCount + 1)];
        ReplaceKeepsPromosValid(s.promos, i, p.(usageCount := p.usageCount + 1));
      }
    }
  }
}

=== FILE: codes.dfy ===
/** Bounded random code generation, shared by the booking reference (`FDT######`) and
    the agent id (`FD####`). `Math.random()` is an oracle: the caller passes the values
    it would return, one per attempt. */
module RandomCodes {
  import opened Results
  import opened Text
  import opened Seqs

  /** Both generators give up after this many colliding draws. */
  const MaxAttempts: nat := 10

  /** A value `Math.random()` can return. */
  predicate IsDraw(r: real) {
    0.0 <= r < 1.0
  }

  /** Enough draws for every attempt, each in `Math.random()`'s range. */
  predicate ValidDraws(draws: seq<real>) {
    |draws| >= MaxAttempts && forall i :: 0 <= i < |draws| ==> IsDraw(draws[i])
  }

  /** `Math.floor(lo + Math.random() * span)`: an integer in [lo, lo + span). */
  function Scaled(r: real, lo: nat, span: nat): (n: nat)
    requires IsDraw(r) && span >= 1
    ensures lo <= n < lo + span
  {
    var x := lo as real + r * span as real;
    assert r * span as real < span as real;
    assert x < (lo + span) as real;
    x.Floor
  }

  /** Every draw of a scaled range lands in it: for each n in [lo, lo + span) some draw
      produces n, so the generator can reach every code of the format. */
  lemma ScaledReachesRange(n: nat, lo: nat, span: nat)
    requires span >= 1 && lo <= n < lo + span
    ensures IsDraw((n - lo) as real / span as real)
    ensures Scaled((n - lo) as real / span as real, lo, span) == n
  {
    var r := (n - lo) as real / span as real;
    assert r * span as real == (n - lo) as real;
  }

  /** The index of the first candidate not already in use, if any. */
  function FirstUnused(candidates: seq<string>, used: set<string>): (r: Option<nat>)
    ensures r.Some? ==> r.value < |candidates| && candidates[r.value] !in used
    ensures r.Some? ==> forall j :: 0 <= j < r.value ==> candidates[j] in used
    ensures r.None? <==> forall j :: 0 <= j < |candidates| ==> candidates[j] in used
  {
    FindFirst(candidates, (c: string) => c !in used)
  }
}

=== FILE: finance_controller.dfy ===
/** The agent-credit handlers: an agent files a finance request, an admin approves or
    rejects it (approval changes the agent's credit and writes ledger records, all in one
    transaction), an admin adjusts an agent's credit directly, and the receivables report. */
module FinanceController {
  import opened Results
  import opened Text
  import opened UserModel
  import opened LedgerModel
  import opened RequestModel
  import opened Store

  /** `requestFinance`: the type must be one of the three names, the amount present and
      positive; the schema then demands at least 1. The note defaults to "" and is trimmed;
      an empty payment reference is dropped. */
  function RequestFinance(s: State, caller: UserId, typeName: string, amount: Option<real>,
                          note: Option<string>, paymentReference: Option<string>): (r: Result<State>)
    ensures ParseRequestType(typeName).None? ==> r == Err(InvalidField("type"))
    ensures ParseRequestType(typeName).Some? && (amount.None? || amount.value <= 0.0) ==> r == Err(InvalidField("amount"))
    ensures ParseRequestType(typeName).Some? && amount.Some? && 0.0 < amount.value < 1.0 ==>
      r == Err(SchemaViolation("FinanceRequest"))
    ensures r.Ok? <==> ParseRequestType(typeName).Some? && amount.Some? && amount.value >= 1.0
    ensures r.Ok? ==>
      |r.value.requests| == |s.requests| + 1
      && r.value == s.(requests := s.requests + [r.value.requests[|s.requests|]])
    ensures r.Ok? ==>
      var fr := r.value.requests[|s.requests|];
      fr.agent == caller && fr.createdBy == caller && Some(fr.requestType) == ParseRequestType(typeName)
      && fr.amount == amount.value && fr.status == Pending && fr.note == Trim(note.GetOr(""))
      && fr.processedAt.None? && fr.processedBy.None?
      && ValidRequest(fr) && StampConsistent(fr)
      && (fr.paymentReference.Some? <==> paymentReference.Some? && paymentReference.value != [])
  {
    var t := ParseRequestType(typeName);
    if t.None? then Err(InvalidField("type"))
    else if amount.None? || amount.value <= 0.0 then Err(InvalidField("amount"))
    else if amount.value < 1.0 then Err(SchemaViolation("FinanceRequest"))
    else
      var reference := if paymentReference.Some? && paymentReference.value != [] then Some(Trim(paymentReference.value)) else None;
      var fr := FinanceRequest(caller, t.value, amount.value, Pending, Trim(note.GetOr("")), reference,
                               None, None, caller);
      Ok(s.(requests := s.requests + [fr]))
  }

  /** Filing a request keeps the store well formed: the new request passes the schema's
      validators and carries no processing stamp, and nothing else changes. */
  lemma RequestFinanceKeepsWellFormed(s: State, caller: UserId, typeName: string, amount: Option<real>,
                                      note: Option<string>, paymentReference: Option<string>)
    requires WellFormed(s)
    requires RequestFinance(s, caller, typeName, amount, note, paymentReference).Ok?
    ensures WellFormed(RequestFinance(s, caller, typeName, amount, note, paymentReference).value)
  {
    var s' := RequestFinance(s, caller, typeName, amount, note, paymentReference).value;
    var fr := s'.requests[|s.requests|];
    AppendKeepsRequestsValid(s.requests, fr);
    assert s'.requests == s.requests + [fr];
  }

  /** The credit change of an approved request of type `t` and amount `amount` for the agent
      `agent`, with the records it writes. A total-limit increase clamps the total at 0 and,
      for a positive amount, raises the available credit by the same amount (also clamped);
      an available-limit increase clamps at 0; a settlement lowers the balance due without a
      floor, so an overpayment becomes an advance. */
  function ApplyRequest(agent: UserId, u: User, t: RequestType, amount: real, request: nat, admin: UserId)
    : (r: (User, seq<LedgerEntry>))
    ensures Replay(u, r.1) == Some(r.0)
    ensures AllBalanced(r.1)
    ensures forall i :: 0 <= i < |r.1| ==>
      r.1[i].agent == agent && r.1[i].reference == RequestReference(request)
      && r.1[i].source == AdminSource && r.1[i].createdBy == Some(admin)
    ensures t == TotalLimitIncrease ==>
      r.0.totalCreditLimit == Max(0.0, u.totalCreditLimit + amount)
      && r.0.availableCreditLimit == (if amount > 0.0 then Max(0.0, u.availableCreditLimit + amount) else u.availableCreditLimit)
      && r.0.balanceDue == u.balanceDue
      && |r.1| == (if amount > 0.0 then 2 else 1)
    ensures t == AvailableLimitIncrease ==>
      r.0 == u.(availableCreditLimit := Max(0.0, u.availableCreditLimit + amount)) && |r.1| == 1
    ensures t == BalanceDueSettlement ==>
      r.0 == u.(balanceDue := u.balanceDue - amount) && |r.1| == 1
      && r.1[0].amount == -amount && r.1[0].action == SettlementApprove
    ensures t != BalanceDueSettlement ==> forall i :: 0 <= i < |r.1| ==> r.1[i].action == RequestApprove
  {
    var reference := RequestReference(request);
    match t
    case TotalLimitIncrease =>
      var total := Max(0.0, u.totalCreditLimit + amount);
      var e1 := Change(agent, TotalCreditLimit, u.totalCreditLimit, total, RequestApprove, reference,
                       AdminSource, Some(admin), u.availableCreditLimit, total);
      if amount > 0.0 then
        var available := Max(0.0, u.availableCreditLimit + amount);
        var e2 := Change(agent, AvailableCreditLimit, u.availableCreditLimit, available, RequestApprove, reference,
                         AdminSource, Some(admin), available, total);
        ReplayChain(u, [e1], u.(totalCreditLimit := total), [e2], u.(totalCreditLimit := total, availableCreditLimit := available));
        assert [e1] + [e2] == [e1, e2];
        (u.(totalCreditLimit := total, availableCreditLimit := available), [e1, e2])
      else
        (u.(totalCreditLimit := total), [e1])
    case AvailableLimitIncrease =>
      var available := Max(0.0, u.availableCreditLimit + amount);
      var e := Change(agent, AvailableCreditLimit, u.availableCreditLimit, available, RequestApprove, reference,
                      AdminSource, Some(admin), available, u.totalCreditLimit);
      (u.(availableCreditLimit := available), [e])
    case BalanceDueSettlement =>
      var due := u.balanceDue - amount;
      var e := Change(agent, BalanceDue, u.balanceDue, due, SettlementApprove, reference,
                      AdminSource, Some(admin), u.availableCreditLimit, u.totalCreditLimit);
      (u.(balanceDue := due), [e])
  }

  /** `note || fr.note`: a non-empty admin note replaces the request's note (trimmed). */
  function ProcessedNote(previous: string, note: Option<string>): (n: string)
    ensures note.Some? && note.value != [] ==> n == Trim(note.value)
    ensures note.None? || note.value == [] ==> n == previous
  {
    if note.Some? && note.value != [] then Trim(note.value) else previous
  }

  /** `adminProcessRequest`: the request must exist and be pending; approval needs the
      agent's account and applies the credit change; rejection changes nothing but the
      request. Either way the request is stamped. Any other action is refused. */
  function ProcessRequest(s: State, index: nat, admin: UserId, action: string, note: Option<string>, now: int)
    : (r: Result<State>)
    ensures index >= |s.requests| <==> r == Err(NotFound("Request"))
    ensures index < |s.requests| && s.requests[index].status != Pending ==> r == Err(AlreadyProcessed)
    ensures index < |s.requests| && s.requests[index].status == Pending ==>
      (action == "approve" && s.requests[index].agent !in s.users ==> r == Err(NotFound("Agent")))
      && (action == "approve" && s.requests[index].agent in s.users ==> r.Ok?)
      && (action == "reject" ==> r.Ok?)
      && (action != "approve" && action != "reject" ==> r == Err(InvalidAction))
    ensures r.Ok? ==>
      index < |s.requests| && |r.value.requests| == |s.requests|
      && var fr := s.requests[index];
      var fr' := r.value.requests[index];
      fr.status == Pending
      && r.value.requests == s.requests[index := fr']
      && fr' == fr.(status := fr'.status, note := ProcessedNote(fr.note, note),
                    processedAt := Some(now), processedBy := Some(admin))
      && (action == "reject" ==> fr'.status == Rejected && r.value == s.(requests := r.value.requests))
      && (action == "approve" ==>
            fr'.status == Approved && fr.agent in s.users
            && var (u', es) := ApplyRequest(fr.agent, s.users[fr.agent], fr.requestType, fr.amount, index, admin);
            r.value == s.(users := s.users[fr.agent := u'], ledger := s.ledger + es, requests := r.value.requests))
  {
    if index >= |s.requests| then Err(NotFound("Request"))
    else
      var fr := s.requests[index];
      if fr.status != Pending then Err(AlreadyProcessed)
      else
        var stamp := fr.(note := ProcessedNote(fr.note, note), processedAt := Some(now), processedBy := Some(admin));
        if action == "approve" then
          if fr.agent !in s.users then Err(NotFound("Agent"))
          else
            var (u', es) := ApplyRequest(fr.agent, s.users[fr.agent], fr.requestType, fr.amount, index, admin);
            Ok(s.(users := s.users[fr.agent := u'], ledger := s.ledger + es,
                  requests := s.requests[index := stamp.(status := Approved)]))
        else if action == "reject" then
          Ok(s.(requests := s.requests[index := stamp.(status := Rejected)]))
        else Err(InvalidAction)
  }

  /** A request is processed at most once: after a successful decision, any further
      decision on it is refused and the store stays as it is. */
  lemma ProcessAtMostOnce(s: State, index: nat, admin: UserId, action: string, note: Option<string>, now: int,
                          admin2: UserId, action2: string, note2: Option<string>, now2: int)
    requires ProcessRequest(s, index, admin, action, note, now).Ok?
    ensures ProcessRequest(ProcessRequest(s, index, admin, action, note, now).value, index, admin2, action2, note2, now2)
         == Err(AlreadyProcessed)
  {
  }

  /** A decision keeps the store well formed and the ledger append-only, and the appended
      records reconcile: they are balanced and re-play the agent's old account into the new
      one. A rejection writes no record. */
  lemma ProcessKeepsWellFormed(s: State, index: nat, admin: UserId, action: string, note: Option<string>, now: int)
    requires WellFormed(s)
    requires ProcessRequest(s, index, admin, action, note, now).Ok?
    ensures var s' := ProcessRequest(s, index, admin, action, note, now).value;
      WellFormed(s') && AppendOnly(s.ledger, s'.ledger) && AllBalanced(s'.ledger[|s.ledger|..])
    ensures var s' := ProcessRequest(s, index, admin, action, note, now).value;
      var a := s.requests[index].agent;
      action == "approve" ==> a in s.users && a in s'.users && Replay(s.users[a], s'.ledger[|s.ledger|..]) == Some(s'.users[a])
    ensures action == "reject" ==> ProcessRequest(s, index, admin, action, note, now).value.ledger == s.ledger
  {
    var s' := ProcessRequest(s, index, admin, action, note, now).value;
    var fr := s.requests[index];
    assert StampConsistent(s'.requests[index]) && ValidRequest(s'.requests[index]);
    assert RequestsValid(s'.requests);
    if action == "approve" {
      var (u', es) := ApplyRequest(fr.agent, s.users[fr.agent], fr.requestType, fr.amount, index, admin);
      assert s'.ledger[|s.ledger|..] == es;
      assert s'.ledger[..|s.ledger|] == s.ledger;
      assert ValidUser(u') && u'.agentId == s.users[fr.agent].agentId;
      ReplaceUserKeepsUsersValid(s.users, fr.agent, u');
    } else {
      assert s'.ledger[|s.ledger|..] == [];
    }
  }

  /** A settlement can take the balance due below zero: settling 500 against a balance of
      200 leaves an advance of 300, and the record states the full 500. */
  lemma SettlementCreatesAdvance(agent: UserId, u: User, admin: UserId)
    requires u.balanceDue == 200.0
    ensures var (u', es) := ApplyRequest(agent, u, BalanceDueSettlement, 500.0, 0, admin);
      u'.balanceDue == -300.0 && es[0].amount == -500.0 && Balanced(es[0])
  {
  }

  /** The optional manual adjustment of the total limit: clamped at 0; a positive delta
      also raises the available credit (clamped). No delta, no change. */
  function AdjustTotal(agent: UserId, u: User, delta: Option<real>, admin: UserId): (r: (User, seq<LedgerEntry>))
    ensures Reconciles(u, r, agent, admin)
    ensures r.0 == u.(totalCreditLimit := r.0.totalCreditLimit, availableCreditLimit := r.0.availableCreditLimit)
    ensures delta.None? ==> r == (u, [])
    ensures delta.Some? ==>
      r.0.totalCreditLimit == Max(0.0, u.totalCreditLimit + delta.value)
      && r.0.availableCreditLimit == (if delta.value > 0.0 then Max(0.0, u.availableCreditLimit + delta.value) else u.availableCreditLimit)
      && |r.1| == (if delta.value > 0.0 then 2 else 1)
  {
    if delta.None? then (u, [])
    else
      var total := Max(0.0, u.totalCreditLimit + delta.value);
      var e1 := Change(agent, TotalCreditLimit, u.totalCreditLimit, total, Adjust, ManualReference,
                       AdminSource, Some(admin), u.availableCreditLimit, total);
      if delta.value > 0.0 then
        var available := Max(0.0, u.availableCreditLimit + delta.value);
        var e2 := Change(agent, AvailableCreditLimit, u.availableCreditLimit, available, Adjust, ManualReference,
                         AdminSource, Some(admin), available, total);
        ReplayChain(u, [e1], u.(totalCreditLimit := total), [e2], u.(totalCreditLimit := total, availableCreditLimit := available));
        assert [e1] + [e2] == [e1, e2];
        (u.(totalCreditLimit := total, availableCreditLimit := available), [e1, e2])
      else
        (u.(totalCreditLimit := total), [e1])
  }

  /** The optional manual adjustment of the available credit, clamped at 0. */
  function AdjustAvailable(agent: UserId, u: User, delta: Option<real>, admin: UserId): (r: (User, seq<LedgerEntry>))
    ensures Reconciles(u, r, agent, admin)
    ensures delta.None? ==> r == (u, [])
    ensures delta.Some? ==> r.0 == u.(availableCreditLimit := Max(0.0, u.availableCreditLimit + delta.value)) && |r.1| == 1
  {
    if delta.None? then (u, [])
    else
      var available := Max(0.0, u.availableCreditLimit + delta.value);
      (u.(availableCreditLimit := available),
       [Change(agent, AvailableCreditLimit, u.availableCreditLimit, available, Adjust, ManualReference,
               AdminSource, Some(admin), available, u.totalCreditLimit)])
  }

  /** The optional manual adjustment of the balance due, without a floor (a negative
      balance is an advance). */
  function AdjustDue(agent: UserId, u: User, delta: Option<real>, admin: UserId): (r: (User, seq<LedgerEntry>))
    ensures Reconciles(u, r, agent, admin)
    ensures delta.None? ==> r == (u, [])
    ensures delta.Some? ==> r.0 == u.(balanceDue := u.balanceDue + delta.value) && |r.1| == 1 && r.1[0].amount == delta.value
  {
    if delta.None? then (u, [])
    else
      var due := u.balanceDue + delta.value;
      (u.(balanceDue := due),
       [Change(agent, BalanceDue, u.balanceDue, due, Adjust, ManualReference,
               AdminSource, Some(admin), u.availableCreditLimit, u.totalCreditLimit)])
  }

  predicate ManualRecord(e: LedgerEntry, agent: UserId, admin: UserId) {
    e.agent == agent && e.action == Adjust && e.reference == ManualReference
    && e.source == AdminSource && e.createdBy == Some(admin)
  }

  /** A batch of manual records written by `admin` for `agent` that turns account `u` into
      `step.0`, each record balanced. */
  predicate Reconciles(u: User, step: (User, seq<LedgerEntry>), agent: UserId, admin: UserId) {
    Replay(u, step.1) == Some(step.0) && AllBalanced(step.1)
    && forall i :: 0 <= i < |step.1| ==> ManualRecord(step.1[i], agent, admin)
  }

  /** Two reconciling batches in sequence make one. */
  function Then(u: User, first: (User, seq<LedgerEntry>), second: (User, seq<LedgerEntry>), agent: UserId, admin: UserId)
    : (r: (User, seq<LedgerEntry>))
    requires Reconciles(u, first, agent, admin) && Reconciles(first.0, second, agent, admin)
    ensures Reconciles(u, r, agent, admin)
    ensures r.0 == second.0 && |r.1| == |first.1| + |second.1|
  {
    ReplayChain(u, first.1, first.0, second.1, second.0);
    BalancedAppend(first.1, second.1);
    ManualAppend(first.1, second.1, agent, admin);
    (second.0, first.1 + second.1)
  }

  /** The three optional adjustments in the handler's order (total, available, balance due),
      each applied to the account the previous one left. */
  function AdjustAccount(agent: UserId, u: User, totalDelta: Option<real>, availableDelta: Option<real>,
                         dueDelta: Option<real>, admin: UserId): (r: (User, seq<LedgerEntry>))
    ensures Reconciles(u, r, agent, admin)
    ensures |r.1| == (if totalDelta.Some? then (if totalDelta.value > 0.0 then 2 else 1) else 0)
                     + (if availableDelta.Some? then 1 else 0) + (if dueDelta.Some? then 1 else 0)
    ensures r.0.totalCreditLimit == (if totalDelta.Some? then Max(0.0, u.totalCreditLimit + totalDelta.value) else u.totalCreditLimit)
    ensures r.0.balanceDue == u.balanceDue + dueDelta.GetOr(0.0)
    ensures availableDelta.None? && (totalDelta.None? || totalDelta.value <= 0.0) ==>
      r.0.availableCreditLimit == u.availableCreditLimit
    ensures u.availableCreditLimit >= 0.0 ==> r.0.availableCreditLimit >= 0.0
    ensures r.0 == u.(totalCreditLimit := r.0.totalCreditLimit, availableCreditLimit := r.0.availableCreditLimit,
                      balanceDue := r.0.balanceDue)
    ensures totalDelta.None? && availableDelta.None? && dueDelta.None? ==> r == (u, [])
  {
    var step1 := AdjustTotal(agent, u, totalDelta, admin);
    var step2 := AdjustAvailable(agent, step1.0, availableDelta, admin);
    var step3 := AdjustDue(agent, step2.0, dueDelta, admin);
    var r := Then(u, Then(u, step1, step2, agent, admin), step3, agent, admin);
    assert r.1 == step1.1 + step2.1 + step3.1;
    r
  }

  lemma ManualAppend(es1: seq<LedgerEntry>, es2: seq<LedgerEntry>, agent: UserId, admin: UserId)
    requires forall i :: 0 <= i < |es1| ==> ManualRecord(es1[i], agent, admin)
    requires forall i :: 0 <= i < |es2| ==> ManualRecord(es2[i], agent, admin)
    ensures forall i :: 0 <= i < |es1 + es2| ==> ManualRecord((es1 + es2)[i], agent, admin)
  {
    forall i | 0 <= i < |es1 + es2|
      ensures ManualRecord((es1 + es2)[i], agent, admin)
    {
      if i >= |es1| {
        assert (es1 + es2)[i] == es2[i - |es1|];
      }
    }
  }

  /** `adminAdjustFinance`: look the agent up by `FD####` code or by id; it must be an
      agent. The handler is not transactional; the model applies all steps at once. */
  function AdjustFinance(s: State, key: string, admin: UserId, totalDelta: Option<real>, availableDelta: Option<real>,
                         dueDelta: Option<real>): (r: Result<State>)
    requires UniqueAgentIds(s.users)
    ensures FindAgent(s.users, key).None? <==> r == Err(NotFound("Agent"))
    ensures r.Ok? ==>
      var a := FindAgent(s.users, key).value;
      a in s.users && a in r.value.users && AppendOnly(s.ledger, r.value.ledger)
      && r.value == s.(users := s.users[a := r.value.users[a]], ledger := r.value.ledger)
      && Replay(s.users[a], r.value.ledger[|s.ledger|..]) == Some(r.value.users[a])
      && AllBalanced(r.value.ledger[|s.ledger|..])
      && forall i :: |s.ledger| <= i < |r.value.ledger| ==> ManualRecord(r.value.ledger[i], a, admin)
  {
    var found := FindAgent(s.users, key);
    if found.None? then Err(NotFound("Agent"))
    else
      var a := found.value;
      var (u', es) := AdjustAccount(a, s.users[a], totalDelta, availableDelta, dueDelta, admin);
      assert (s.ledger + es)[|s.ledger|..] == es;
      assert (s.ledger + es)[..|s.ledger|] == s.ledger;
      Ok(s.(users := s.users[a := u'], ledger := s.ledger + es))
  }

  /** An adjustment keeps the store well formed: the clamps keep both credit limits
      non-negative, and the balance due has no bound to break. */
  lemma AdjustKeepsWellFormed(s: State, key: string, admin: UserId, totalDelta: Option<real>,
                              availableDelta: Option<real>, dueDelta: Option<real>)
    requires WellFormed(s)
    requires AdjustFinance(s, key, admin, totalDelta, availableDelta, dueDelta).Ok?
    ensures WellFormed(AdjustFinance(s, key, admin, totalDelta, availableDelta, dueDelta).value)
  {
    var s' := AdjustFinance(s, key, admin, totalDelta, availableDelta, dueDelta).value;
    var a := FindAgent(s.users, key).value;
    assert ValidUser(s'.users[a]) && s'.users[a].agentId == s.users[a].agentId;
    ReplaceUserKeepsUsersValid(s.users, a, s'.users[a]);
  }

  /** Balance-due adjustments add up: adjusting an account by d1 and then by d2 leaves the
      same account as one adjustment by d1 + d2 (only the ledger tells them apart). */
  lemma DueAdjustmentsAdd(agent: UserId, u: User, admin: UserId, d1: real, d2: real)
    ensures var first := AdjustAccount(agent, u, None, None, Some(d1), admin);
      var second := AdjustAccount(agent, first.0, None, None, Some(d2), admin);
      var once := AdjustAccount(agent, u, None, None, Some(d1 + d2), admin);
      second.0 == once.0 && |first.1| == |second.1| == |once.1| == 1
  {
  }

  /** The agent lookup only reads ids, agent ids and user types. */
  lemma SameAgentLookup(users: map<UserId, User>, users': map<UserId, User>, key: string)
    requires UniqueAgentIds(users)
    requires users'.Keys == users.Keys
    requires forall id :: id in users ==> users'[id].agentId == users[id].agentId && users'[id].userType == users[id].userType
    ensures UniqueAgentIds(users')
    ensures FindAgent(users', key) == FindAgent(users, key)
  {
    if LooksLikeAgentId(key) {
      var f := FindByAgentId(users, Upper(key));
      var f' := FindByAgentId(users', Upper(key));
      assert f.Some? ==> f'.Some? && f'.value == f.value;
      assert f'.Some? ==> f.Some?;
    }
  }

  /** What an agent owes against its limit: total minus available, never below 0. */
  function Receivable(u: User): (amount: real)
    ensures amount >= 0.0
    ensures u.availableCreditLimit <= u.totalCreditLimit ==> amount == u.totalCreditLimit - u.availableCreditLimit
    ensures u.availableCreditLimit >= u.totalCreditLimit ==> amount == 0.0
  {
    Max(0.0, u.totalCreditLimit - u.availableCreditLimit)
  }

  /** `adminReceivables`: one line per agent (and only agents). */
  function Receivables(users: map<UserId, User>): (r: map<UserId, real>)
    ensures forall id :: id in r <==> id in users && users[id].userType == Agent
    ensures forall id :: id in r ==> r[id] == Receivable(users[id]) && r[id] >= 0.0
  {
    map id | id in users && users[id].userType == Agent :: Receivable(users[id])
  }

  /** A booking's debit raises the receivable by exactly the amount debited when the agent
      had not been over-credited (available at most total). */
  lemma DebitRaisesReceivable(u: User, u': User, required: real)
    requires 0.0 <= required <= u.availableCreditLimit <= u.totalCreditLimit
    requires u' == u.(availableCreditLimit := u.availableCreditLimit - required)
    ensures Receivable(u') == Receivable(u) + required
  {
  }
}

=== FILE: flight_duration.dfy ===
/** The front end's `getFlightDuration`: the time between departure and arrival, in epoch
    milliseconds, rendered as "<hours>h <minutes>m". The minutes are taken with
    JavaScript's `%`, whose remainder has the sign of the dividend. */
module FlightDuration {
  import opened Results
  import opened Text

  /** JavaScript's `a % b` for a positive divisor: truncating, so a negative dividend leaves
      a remainder in (-b, 0]. */
  function JsRem(a: int, b: int): (r: int)
    requires b > 0
    ensures a >= 0 ==> 0 <= r < b
    ensures a < 0 ==> -b < r <= 0
  {
    if a >= 0 then a % b else -((-a) % b)
  }

  /** `Math.floor(a / b)` for a positive divisor. */
  function FloorDiv(a: int, b: int): (q: int)
    requires b > 0
    ensures q * b <= a < q * b + b
  {
    a / b
  }

  /** The whole minutes between the two instants, rounded down. */
  function DiffMinutes(departure: int, arrival: int): int {
    FloorDiv(arrival - departure, 60000)
  }

  datatype Duration = Duration(hours: int, minutes: int)

  /** The two numbers the template prints. */
  function DurationOf(departure: int, arrival: int): (d: Duration)
    ensures arrival >= departure ==> d.hours >= 0 && 0 <= d.minutes < 60
  {
    var diffMins := DiffMinutes(departure, arrival);
    Duration(FloorDiv(diffMins, 60), JsRem(diffMins, 60))
  }

  /** `getFlightDuration(departure, arrival)`. */
  function GetFlightDuration(departure: int, arrival: int): (s: string)
    ensures arrival >= departure ==>
      s == Digits(DurationOf(departure, arrival).hours) + "h " + Digits(DurationOf(departure, arrival).minutes) + "m"
  {
    var d := DurationOf(departure, arrival);
    IntToString(d.hours) + "h " + IntToString(d.minutes) + "m"
  }

  /** For a flight that lands after it departs, hours and minutes are the unique split of the
      elapsed whole minutes with the minutes below sixty. */
  lemma DurationSplitsMinutes(departure: int, arrival: int)
    requires arrival >= departure
    ensures var d := DurationOf(departure, arrival);
      d.hours * 60 + d.minutes == DiffMinutes(departure, arrival)
      && 0 <= d.minutes < 60
      && (arrival - departure) - 60000 < DiffMinutes(departure, arrival) * 60000 <= arrival - departure
  {
  }

  /** With the instants the other way round the floor and the truncating remainder disagree:
      unless the minutes are a whole number of hours, the printed parts add up to an hour
      less than the elapsed time, e.g. thirty minutes early prints "-1h -30m". */
  lemma NegativeDurationIsOffByAnHour(departure: int, arrival: int)
    requires DiffMinutes(departure, arrival) < 0 && DiffMinutes(departure, arrival) % 60 != 0
    ensures var d := DurationOf(departure, arrival);
      d.hours * 60 + d.minutes == DiffMinutes(departure, arrival) - 60
  {
  }

  /** Thirty minutes before departure reads "-1h -30m". */
  lemma HalfHourEarly()
    ensures GetFlightDuration(1800000, 0) == "-1h -30m"
  {
    assert DurationOf(1800000, 0) == Duration(-1, -30);
    assert Digits(1) == "1";
    assert Digits(30) == "30";
  }

  /** Reads "<hours>h <minutes>m" back into whole minutes. */
  function ReadDuration(s: string): (minutes: Option<nat>)
  {
    var parts := Split(s, ' ');
    if |parts| == 2 && |parts[0]| >= 2 && |parts[1]| >= 2
       && parts[0][|parts[0]| - 1] == 'h' && parts[1][|parts[1]| - 1] == 'm'
       && AllDigits(parts[0][..|parts[0]| - 1]) && AllDigits(parts[1][..|parts[1]| - 1])
    then Some(ParseDigits(parts[0][..|parts[0]| - 1]) * 60 + ParseDigits(parts[1][..|parts[1]| - 1]))
    else None
  }

  lemma NoSpaceInDigits(n: nat, suffix: char)
    requires suffix != ' '
    ensures ' ' !in Digits(n) + [suffix]
  {
    var s := Digits(n) + [suffix];
    forall i | 0 <= i < |s|
      ensures s[i] != ' '
    {
      if i < |Digits(n)| {
        assert IsDigit(Digits(n)[i]);
      }
    }
  }

  /** The rendered duration of a flight that lands after it departs reads back as the
      elapsed whole minutes. */
  lemma {:induction false} ReadDurationOfRendered(departure: int, arrival: int)
    requires arrival >= departure
    ensures ReadDuration(GetFlightDuration(departure, arrival)) == Some(DiffMinutes(departure, arrival))
  {
    var d := DurationOf(departure, arrival);
    DurationSplitsMinutes(departure, arrival);
    var h: nat := d.hours;
    var m: nat := d.minutes;
    var p0 := Digits(h) + "h";
    var p1 := Digits(m) + "m";
    NoSpaceInDigits(h, 'h');
    NoSpaceInDigits(m, 'm');
    assert Join([p0, p1], ' ') == p0 + [' '] + Join([p1], ' ');
    assert GetFlightDuration(departure, arrival) == Join([p0, p1], ' ');
    SplitJoin([p0, p1], ' ');
    assert p0[..|p0| - 1] == Digits(h);
    assert p1[..|p1| - 1] == Digits(m);
    ParseDigitsOfDigits(h);
    ParseDigitsOfDigits(m);
  }
}

=== FILE: ledger_model.dfy ===
/** The FinanceTransaction document: one audit record of a change to one of an agent's
    three credit fields. Records are only ever appended. */
module LedgerModel {
  import opened Results
  import opened UserModel

  /** The credit field a record is about. */
  datatype Kind = TotalCreditLimit | AvailableCreditLimit | BalanceDue

  /** What caused the change. */
  datatype Action =
    | Adjust | RequestApprove | BookingAction | Refund
    | SettlementRequest | SettlementApprove | SettlementReject

  /** Who caused the change; the schema default is `SystemSource`. */
  datatype Source = AdminSource | SystemSource | AgentSource

  /** The `referenceType` / `referenceId` pair: a booking, a finance request (by its index
      in the request store) or a manual adjustment. */
  datatype Reference = BookingReference | RequestReference(request: nat) | ManualReference

  datatype LedgerEntry = LedgerEntry(
    agent: UserId,
    kind: Kind,
    amount: real,            // signed: positive for an increase
    valueBefore: real,
    valueAfter: real,
    action: Action,
    reference: Reference,
    source: Source,
    createdBy: Option<UserId>,
    availableAfter: real,    // snapshot of the agent's available credit after this record
    totalAfter: real)        // snapshot of the agent's total credit limit after this record

  /** The before/after consistency every record is meant to satisfy. */
  predicate Balanced(e: LedgerEntry) {
    e.valueAfter - e.valueBefore == e.amount
  }

  /** A record whose amount is the difference of the two values it reports, the shape most
      handlers write. */
  function Change(agent: UserId, kind: Kind, before: real, after: real, action: Action,
                  reference: Reference, source: Source, createdBy: Option<UserId>,
                  availableAfter: real, totalAfter: real): (e: LedgerEntry)
    ensures Balanced(e)
    ensures e.agent == agent && e.kind == kind && e.action == action && e.source == source
    ensures e.valueBefore == before && e.valueAfter == after
    ensures e.availableAfter == availableAfter && e.totalAfter == totalAfter
  {
    LedgerEntry(agent, kind, after - before, before, after, action, reference, source, createdBy, availableAfter, totalAfter)
  }

  /** The credit field a record of kind `k` is about. */
  function Field(u: User, k: Kind): real {
    match k
    case TotalCreditLimit => u.totalCreditLimit
    case AvailableCreditLimit => u.availableCreditLimit
    case BalanceDue => u.balanceDue
  }

  function SetField(u: User, k: Kind, v: real): (u': User)
    ensures Field(u', k) == v
    ensures forall other :: other != k ==> Field(u', other) == Field(u, other)
    ensures u' == u.(totalCreditLimit := u'.totalCreditLimit, availableCreditLimit := u'.availableCreditLimit,
                     balanceDue := u'.balanceDue)
  {
    match k
    case TotalCreditLimit => u.(totalCreditLimit := v)
    case AvailableCreditLimit => u.(availableCreditLimit := v)
    case BalanceDue => u.(balanceDue := v)
  }

  /** Re-plays records against an account: each record must start from the value its field
      holds at that point and leaves the value it reports; `None` when a record's before
      value does not match. A handler's records "reconcile" when re-playing them against the
      old account yields exactly the new one. Only the three credit fields can change. */
  function Replay(u: User, es: seq<LedgerEntry>): (r: Option<User>)
    ensures r.Some? ==> r.value == u.(totalCreditLimit := r.value.totalCreditLimit,
                                      availableCreditLimit := r.value.availableCreditLimit,
                                      balanceDue := r.value.balanceDue)
    ensures r.Some? ==> forall k :: (forall i :: 0 <= i < |es| ==> es[i].kind != k) ==> Field(r.value, k) == Field(u, k)
    decreases |es|
  {
    if es == [] then Some(u)
    else if Field(u, es[0].kind) != es[0].valueBefore then None
    else Replay(SetField(u, es[0].kind, es[0].valueAfter), es[1..])
  }

  /** Re-playing two batches in turn is re-playing their concatenation. */
  lemma {:induction false} ReplayAppend(u: User, es1: seq<LedgerEntry>, es2: seq<LedgerEntry>)
    requires Replay(u, es1).Some?
    ensures Replay(u, es1 + es2) == Replay(Replay(u, es1).value, es2)
    decreases |es1|
  {
    if es1 != [] {
      assert (es1 + es2)[0] == es1[0];
      assert (es1 + es2)[1..] == es1[1..] + es2;
      ReplayAppend(SetField(u, es1[0].kind, es1[0].valueAfter), es1[1..], es2);
    } else {
      assert es1 + es2 == es2;
    }
  }

  /** Every record in the list is balanced. */
  predicate AllBalanced(es: seq<LedgerEntry>) {
    forall i :: 0 <= i < |es| ==> Balanced(es[i])
  }

  /** Two batches that each reconcile reconcile together. */
  lemma ReplayChain(u: User, es1: seq<LedgerEntry>, u1: User, es2: seq<LedgerEntry>, u2: User)
    requires Replay(u, es1) == Some(u1) && Replay(u1, es2) == Some(u2)
    ensures Replay(u, es1 + es2) == Some(u2)
  {
    ReplayAppend(u, es1, es2);
  }

  lemma BalancedAppend(es1: seq<LedgerEntry>, es2: seq<LedgerEntry>)
    requires AllBalanced(es1) && AllBalanced(es2)
    ensures AllBalanced(es1 + es2)
  {
    forall i | 0 <= i < |es1 + es2|
      ensures Balanced((es1 + es2)[i])
    {
      if i < |es1| {
        assert (es1 + es2)[i] == es1[i];
      } else {
        assert (es1 + es2)[i] == es2[i - |es1|];
      }
    }
  }

  /** The ledger after a handler only grows: the old records are kept, unchanged and in
      order, as a prefix. */
  predicate AppendOnly(before: seq<LedgerEntry>, after: seq<LedgerEntry>) {
    |before| <= |after| && after[..|before|] == before
  }

  lemma AppendOnlyTransitive(a: seq<LedgerEntry>, b: seq<LedgerEntry>, c: seq<LedgerEntry>)
    requires AppendOnly(a, b) && AppendOnly(b, c)
    ensures AppendOnly(a, c)
  {
    assert c[..|a|] == c[..|b|][..|a|];
  }

  /** The strings the schema stores for each enumeration, and the check its `enum`
      validator performs. */
  function KindName(k: Kind): string {
    match k
    case TotalCreditLimit => "totalCreditLimit"
    case AvailableCreditLimit => "availableCreditLimit"
    case BalanceDue => "balanceDue"
  }

  function ParseKind(s: string): (r: Option<Kind>)
    ensures r.Some? ==> KindName(r.value) == s
    ensures r.None? <==> s !in {"totalCreditLimit", "availableCreditLimit", "balanceDue"}
  {
    if s == "totalCreditLimit" then Some(TotalCreditLimit)
    else if s == "availableCreditLimit" then Some(AvailableCreditLimit)
    else if s == "balanceDue" then Some(BalanceDue)
    else None
  }

  function ActionName(a: Action): string {
    match a
    case Adjust => "adjust"
    case RequestApprove => "request_approve"
    case BookingAction => "booking"
    case Refund => "refund"
    case SettlementRequest => "settlement_request"
    case SettlementApprove => "settlement_approve"
    case SettlementReject => "settlement_reject"
  }

  function ParseAction(s: string): (r: Option<Action>)
    ensures r.Some? ==> ActionName(r.value) == s
    ensures r.None? <==> s !in {"adjust", "request_approve", "booking", "refund",
                                "settlement_request", "settlement_approve", "settlement_reject"}
  {
    if s == "adjust" then Some(Adjust)
    else if s == "request_approve" then Some(RequestApprove)
    else if s == "booking" then Some(BookingAction)
    else if s == "refund" then Some(Refund)
    else if s == "settlement_request" then Some(SettlementRequest)
    else if s == "settlement_approve" then Some(SettlementApprove)
    else if s == "settlement_reject" then Some(SettlementReject)
    else None
  }

  function SourceName(s: Source): string {
    match s
    case AdminSource => "admin"
    case SystemSource => "system"
    case AgentSource => "agent"
  }

  /** A missing source takes the schema default `system`; an unknown one fails the enum. */
  function ParseSource(s: Option<string>): (r: Option<Source>)
    ensures s.None? ==> r == Some(SystemSource)
    ensures s.Some? && r.Some? ==> SourceName(r.value) == s.value
    ensures r.None? <==> s.Some? && s.value !in {"admin", "system", "agent"}
  {
    match s
    case None => Some(SystemSource)
    case Some(name) =>
      if name == "admin" then Some(AdminSource)
      else if name == "system" then Some(SystemSource)
      else if name == "agent" then Some(AgentSource)
      else None
  }

  /** Each enumeration value is read back from the string stored for it. */
  lemma EnumNamesRoundTrip(k: Kind, a: Action, s: Source)
    ensures ParseKind(KindName(k)) == Some(k)
    ensures ParseAction(ActionName(a)) == Some(a)
    ensures ParseSource(Some(SourceName(s))) == Some(s)
  {
  }
}

=== FILE: name_change.dfy ===
/** Passenger name changes: an agent asks for new passenger names on one of its bookings,
    an admin approves (installing a passenger list of its own) or rejects the request.
    A booking keeps the whole history of its requests; an entry's identifier is its
    position in that history. */
module NameChange {
  import opened Results
  import opened Text
  import opened Seqs
  import opened UserModel
  import opened RequestModel
  import opened BookingModel
  import opened Store

  /** An entry carries its processing stamp exactly when it has left the pending state. */
  predicate EntryStamped(e: NameChangeEntry) {
    e.status != Pending <==> (e.processedAt.Some? && e.processedBy.Some?)
  }

  predicate AllStamped(es: seq<NameChangeEntry>) {
    forall i :: 0 <= i < |es| ==> EntryStamped(es[i])
  }

  predicate IsPending(e: NameChangeEntry) {
    e.status == Pending
  }

  /** How one history may evolve into another: entries are never removed, an entry only
      moves from pending to processed, and a processed entry never changes again. */
  predicate HistoryStep(before: seq<NameChangeEntry>, after: seq<NameChangeEntry>) {
    |before| <= |after|
    && forall i :: 0 <= i < |before| ==>
         StatusStep(before[i].status, after[i].status)
         && (before[i].status != Pending ==> after[i] == before[i])
  }

  /** A passenger list the handlers accept: a list whose length is the booking's seat count. */
  predicate MatchesQuantity(passengers: Option<seq<PassengerInput>>, quantity: int) {
    passengers.Some? && |passengers.value| == quantity
  }

  /** The request's note as the entry's `trim` setter stores it; no note is the empty note. */
  function EntryNote(note: Option<string>): (n: string)
    ensures IsTrimmed(n)
    ensures note.Some? ==> n == Trim(note.value)
    ensures note.None? ==> n == []
  {
    if note.Some? then Trim(note.value) else []
  }

  /** `requestNameChange`: the caller must own the booking and send exactly one passenger per
      seat; a pending entry recording the current and the requested passengers is appended. */
  function RequestNameChange(s: State, index: nat, caller: UserId, passengers: Option<seq<PassengerInput>>,
                             note: Option<string>, now: int): (r: Result<State>)
    ensures !(index < |s.bookings| && s.bookings[index].agent == caller) ==> r == Err(NotFound("Booking"))
    ensures index < |s.bookings| && s.bookings[index].agent == caller ==>
      (r.Err? <==> !MatchesQuantity(passengers, s.bookings[index].quantity))
      && (r.Err? ==> r.error == PassengerCountMismatch)
    ensures r.Ok? ==>
      |r.value.bookings| == |s.bookings| && index < |s.bookings|
      && r.value == s.(bookings := s.bookings[index := r.value.bookings[index]])
    ensures r.Ok? ==>
      var b := s.bookings[index];
      var b' := r.value.bookings[index];
      b' == b.(nameChangeRequests := b'.nameChangeRequests)
      && |b'.nameChangeRequests| == |b.nameChangeRequests| + 1
      && b'.nameChangeRequests[..|b.nameChangeRequests|] == b.nameChangeRequests
      && var e := b'.nameChangeRequests[|b.nameChangeRequests|];
      e.status == Pending && e.previousPassengers == b.passengers
      && e.newPassengers == NormalizePassengers(passengers.value)
      && e.requestedBy == caller && e.requestedAt == now && e.note == EntryNote(note)
      && e.processedAt.None? && e.processedBy.None?
  {
    if index >= |s.bookings| || s.bookings[index].agent != caller then Err(NotFound("Booking"))
    else
      var b := s.bookings[index];
      if !MatchesQuantity(passengers, b.quantity) then Err(PassengerCountMismatch)
      else
        var e := NameChangeEntry(b.passengers, NormalizePassengers(passengers.value), Pending, now, caller,
                                 None, None, EntryNote(note));
        Ok(s.(bookings := s.bookings[index := b.(nameChangeRequests := b.nameChangeRequests + [e])]))
  }

  /** A request keeps the store well formed: only the booking's history grows, and the
      booking's schema does not look at it. */
  lemma RequestNameChangeKeepsWellFormed(s: State, index: nat, caller: UserId, passengers: Option<seq<PassengerInput>>,
                                         note: Option<string>, now: int)
    requires WellFormed(s)
    requires RequestNameChange(s, index, caller, passengers, note, now).Ok?
    ensures WellFormed(RequestNameChange(s, index, caller, passengers, note, now).value)
  {
    var s' := RequestNameChange(s, index, caller, passengers, note, now).value;
    var b, b' := s.bookings[index], s'.bookings[index];
    assert b' == b.(nameChangeRequests := b'.nameChangeRequests);
    ReplaceBookingKeepsBookingsValid(s.bookings, index, b');
    assert s' == s.(bookings := s.bookings[index := b']);
  }

  /** The entry an admin's decision applies to: the given one when it is pending, else the
      first pending entry when no identifier is given. */
  function TargetEntry(es: seq<NameChangeEntry>, requestId: Option<nat>): (r: Result<nat>)
    ensures r.Ok? ==> r.value < |es| && IsPending(es[r.value])
    ensures (forall i :: 0 <= i < |es| ==> !IsPending(es[i])) ==> r == Err(NoPendingRequest)
    ensures requestId.Some? && (exists i :: 0 <= i < |es| && IsPending(es[i])) ==>
      (r.Ok? <==> requestId.value < |es| && IsPending(es[requestId.value]))
      && (r.Ok? ==> r.value == requestId.value)
      && (r.Err? ==> r.error == InvalidRequestId)
    ensures requestId.None? && r.Ok? ==> forall i :: 0 <= i < r.value ==> !IsPending(es[i])
    ensures requestId.None? ==> (r.Ok? <==> exists i :: 0 <= i < |es| && IsPending(es[i]))
  {
    var first := FindFirst(es, IsPending);
    if first.None? then Err(NoPendingRequest)
    else if requestId.Some? then
      if requestId.value < |es| && IsPending(es[requestId.value]) then Ok(requestId.value)
      else Err(InvalidRequestId)
    else Ok(first.value)
  }

  /** The entry after the admin's decision. */
  function Resolve(e: NameChangeEntry, status: ReviewStatus, admin: UserId, now: int): (e': NameChangeEntry)
    requires status != Pending
    ensures e'.status == status && EntryStamped(e')
    ensures e' == e.(status := status, processedAt := e'.processedAt, processedBy := Some(admin))
    ensures e'.processedAt == Some(now)
  {
    e.(status := status, processedAt := Some(now), processedBy := Some(admin))
  }

  /** `processNameChange`: pick the entry, then approve (the admin's passenger list, which
      must match the seat count, replaces the booking's passengers) or reject (the
      passengers stay). Any other action is refused. No ownership check: admins only. */
  function ProcessNameChange(s: State, index: nat, admin: UserId, action: string,
                             passengers: Option<seq<PassengerInput>>, requestId: Option<nat>, now: int): (r: Result<State>)
    ensures index >= |s.bookings| <==> r == Err(NotFound("Booking"))
    ensures index < |s.bookings| && TargetEntry(s.bookings[index].nameChangeRequests, requestId).Err? ==>
      r == Err(TargetEntry(s.bookings[index].nameChangeRequests, requestId).error)
    ensures index < |s.bookings| && TargetEntry(s.bookings[index].nameChangeRequests, requestId).Ok? ==>
      (action != "approve" && action != "reject" ==> r == Err(InvalidAction))
      && (action == "approve" && !MatchesQuantity(passengers, s.bookings[index].quantity) ==> r == Err(PassengerCountMismatch))
      && (action == "reject" || (action == "approve" && MatchesQuantity(passengers, s.bookings[index].quantity)) ==> r.Ok?)
    ensures r.Ok? ==>
      index < |s.bookings| && |r.value.bookings| == |s.bookings|
      && r.value == s.(bookings := s.bookings[index := r.value.bookings[index]])
    ensures r.Ok? ==>
      var b := s.bookings[index];
      var b' := r.value.bookings[index];
      var k := TargetEntry(b.nameChangeRequests, requestId).value;
      |b'.nameChangeRequests| == |b.nameChangeRequests|
      && (forall i :: 0 <= i < |b.nameChangeRequests| && i != k ==> b'.nameChangeRequests[i] == b.nameChangeRequests[i])
      && b'.nameChangeRequests[k].status != Pending
      && b'.nameChangeRequests[k] == Resolve(b.nameChangeRequests[k], b'.nameChangeRequests[k].status, admin, now)
      && (action == "approve" ==>
            b'.nameChangeRequests[k].status == Approved && b'.passengers == NormalizePassengers(passengers.value)
            && b' == b.(passengers := b'.passengers, nameChangeRequests := b'.nameChangeRequests))
      && (action == "reject" ==>
            b'.nameChangeRequests[k].status == Rejected
            && b' == b.(nameChangeRequests := b'.nameChangeRequests))
  {
    if index >= |s.bookings| then Err(NotFound("Booking"))
    else
      var b := s.bookings[index];
      var k :- TargetEntry(b.nameChangeRequests, requestId);
      if action == "approve" then
        if !MatchesQuantity(passengers, b.quantity) then Err(PassengerCountMismatch)
        else
          var es := b.nameChangeRequests[k := Resolve(b.nameChangeRequests[k], Approved, admin, now)];
          Ok(s.(bookings := s.bookings[index := b.(passengers := NormalizePassengers(passengers.value),
                                                   nameChangeRequests := es)]))
      else if action == "reject" then
        var es := b.nameChangeRequests[k := Resolve(b.nameChangeRequests[k], Rejected, admin, now)];
        Ok(s.(bookings := s.bookings[index := b.(nameChangeRequests := es)]))
      else Err(InvalidAction)
  }

  /** A decision keeps the store well formed: only the booking's passengers and history
      change, and the booking's schema does not look at them. */
  lemma ProcessNameChangeKeepsWellFormed(s: State, index: nat, admin: UserId, action: string,
                                         passengers: Option<seq<PassengerInput>>, requestId: Option<nat>, now: int)
    requires WellFormed(s)
    requires ProcessNameChange(s, index, admin, action, passengers, requestId, now).Ok?
    ensures WellFormed(ProcessNameChange(s, index, admin, action, passengers, requestId, now).value)
  {
    var s' := ProcessNameChange(s, index, admin, action, passengers, requestId, now).value;
    ReplaceBookingKeepsBookingsValid(s.bookings, index, s'.bookings[index]);
  }

  /** A request extends the history: earlier entries untouched, stamps consistent. */
  lemma RequestExtendsHistory(s: State, index: nat, caller: UserId, passengers: Option<seq<PassengerInput>>,
                              note: Option<string>, now: int)
    requires RequestNameChange(s, index, caller, passengers, note, now).Ok?
    requires AllStamped(s.bookings[index].nameChangeRequests)
    ensures var es := s.bookings[index].nameChangeRequests;
      var es' := RequestNameChange(s, index, caller, passengers, note, now).value.bookings[index].nameChangeRequests;
      HistoryStep(es, es') && AllStamped(es')
  {
    var es := s.bookings[index].nameChangeRequests;
    var es' := RequestNameChange(s, index, caller, passengers, note, now).value.bookings[index].nameChangeRequests;
    assert |es'| == |es| + 1 && es'[..|es|] == es;
    var e := es'[|es|];
    assert e.status == Pending && e.processedAt.None? && e.processedBy.None?;
    forall i | 0 <= i < |es'|
      ensures (i < |es| ==> es'[i] == es[i]) && EntryStamped(es'[i])
    {
      if i < |es| {
        assert es'[i] == es'[..|es|][i];
      } else {
        assert es'[i] == e;
      }
    }
  }

  /** A decision moves exactly one entry from pending to processed: stamps stay consistent,
      processed entries never change, and the pending count drops by one. */
  lemma ProcessAdvancesHistory(s: State, index: nat, admin: UserId, action: string,
                               passengers: Option<seq<PassengerInput>>, requestId: Option<nat>, now: int)
    requires ProcessNameChange(s, index, admin, action, passengers, requestId, now).Ok?
    requires AllStamped(s.bookings[index].nameChangeRequests)
    ensures var es := s.bookings[index].nameChangeRequests;
      var es' := ProcessNameChange(s, index, admin, action, passengers, requestId, now).value.bookings[index].nameChangeRequests;
      HistoryStep(es, es') && AllStamped(es')
      && |Matching(es', IsPending)| + 1 == |Matching(es, IsPending)|
  {
    var es := s.bookings[index].nameChangeRequests;
    var es' := ProcessNameChange(s, index, admin, action, passengers, requestId, now).value.bookings[index].nameChangeRequests;
    ResolveOneAdvances(es, es', TargetEntry(es, requestId).value, admin, now);
  }

  /** The history step of resolving entry `k` and no other. */
  lemma ResolveOneAdvances(es: seq<NameChangeEntry>, es': seq<NameChangeEntry>, k: nat, admin: UserId, now: int)
    requires AllStamped(es)
    requires |es'| == |es| && k < |es| && IsPending(es[k]) && es'[k].status != Pending
    requires es'[k] == Resolve(es[k], es'[k].status, admin, now)
    requires forall i :: 0 <= i < |es| && i != k ==> es'[i] == es[i]
    ensures HistoryStep(es, es') && AllStamped(es')
    ensures |Matching(es', IsPending)| + 1 == |Matching(es, IsPending)|
  {
    PendingCountDrops(es, es', k);
  }

  /** Resolving one pending entry, and changing no other, removes exactly that index from
      the pending ones. */
  lemma {:induction false} PendingCountDrops(es: seq<NameChangeEntry>, es': seq<NameChangeEntry>, k: nat)
    requires |es'| == |es| && k < |es| && IsPending(es[k]) && !IsPending(es'[k])
    requires forall i :: 0 <= i < |es| && i != k ==> es'[i] == es[i]
    ensures |Matching(es', IsPending)| + 1 == |Matching(es, IsPending)|
    decreases |es|
  {
    var n := |es| - 1;
    assert es[..n][..] == es[..n];
    if k == n {
      SameMatching(es[..n], es'[..n]);
      assert es'[..n] == es'[..|es'| - 1];
    } else {
      PendingCountDrops(es[..n], es'[..n], k);
      assert IsPending(es[n]) == IsPending(es'[n]);
    }
  }

  lemma SameMatching(a: seq<NameChangeEntry>, b: seq<NameChangeEntry>)
    requires |a| == |b| && forall i :: 0 <= i < |a| ==> a[i] == b[i]
    ensures Matching(a, IsPending) == Matching(b, IsPending)
  {
    assert a == b;
  }

  /** Rejection never alters the passengers; approval replaces them with the admin's list. */
  lemma RejectKeepsPassengers(s: State, index: nat, admin: UserId, passengers: Option<seq<PassengerInput>>,
                              requestId: Option<nat>, now: int)
    requires ProcessNameChange(s, index, admin, "reject", passengers, requestId, now).Ok?
    ensures ProcessNameChange(s, index, admin, "reject", passengers, requestId, now).value.bookings[index].passengers
         == s.bookings[index].passengers
  {
  }

  /** Request then approve with the same list: the booking ends up with exactly the
      passengers the request recorded as new, the entry approved, and the entry still
      remembers the passengers it replaced. */
  lemma RequestThenApprove(s: State, index: nat, agent: UserId, admin: UserId,
                           passengers: Option<seq<PassengerInput>>, note: Option<string>, t1: int, t2: int)
    requires RequestNameChange(s, index, agent, passengers, note, t1).Ok?
    ensures var s1 := RequestNameChange(s, index, agent, passengers, note, t1).value;
      var k := |s.bookings[index].nameChangeRequests|;
      var r := ProcessNameChange(s1, index, admin, "approve", passengers, Some(k), t2);
      r.Ok?
      && r.value.bookings[index].passengers == s1.bookings[index].nameChangeRequests[k].newPassengers
      && r.value.bookings[index].nameChangeRequests[k].status == Approved
      && r.value.bookings[index].nameChangeRequests[k].previousPassengers == s.bookings[index].passengers
  {
    var s1 := RequestNameChange(s, index, agent, passengers, note, t1).value;
    var k := |s.bookings[index].nameChangeRequests|;
    var es := s1.bookings[index].nameChangeRequests;
    var normalized := NormalizePassengers(passengers.value);
    assert es[k].newPassengers == normalized && es[k].previousPassengers == s.bookings[index].passengers;
    assert IsPending(es[k]);
    assert TargetEntry(es, Some(k)) == Ok(k);
    assert MatchesQuantity(passengers, s1.bookings[index].quantity);
    var r := ProcessNameChange(s1, index, admin, "approve", passengers, Some(k), t2);
    assert r.Ok? && r.value.bookings[index].passengers == normalized;
  }
}

=== FILE: pricing.dfy ===
/** The pricing of a sale: unit and total prices from the ticket's base price and the
    agent's markup, the promo discount capped twice (once against the base total for the
    credit check, once against the selling total for the customer price), the funds the
    agent's credit must cover, and the infant fee that only the selling total carries. */
module Pricing {
  import opened Results
  import opened PromoModel

  datatype Quote = Quote(
    unitBase: real,
    unitMarkup: real,
    unitSelling: real,
    totalBase: real,
    totalMarkup: real,
    baseDiscount: real,       // the discount the credit check uses; stored as promoDiscount
    sellingDiscount: real,    // the discount taken off the customer price
    totalSelling: real,       // customer price after the discount, before infant fees
    requiredFunds: real)      // what the agent's available credit must cover

  /** `Math.max(0, Math.min(d, cap))`. */
  function CapDiscount(d: real, cap: real): (r: real)
    ensures r >= 0.0
    ensures cap >= 0.0 ==> r <= cap
    ensures 0.0 <= d <= cap ==> r == d
    ensures d > cap >= 0.0 ==> r == cap
    ensures d < 0.0 ==> r == 0.0
  {
    Max(0.0, Min(d, cap))
  }

  /** `quantity` units at `unit` each. */
  function Total(unit: real, quantity: int): (r: real)
    ensures unit >= 0.0 && quantity >= 0 ==> r >= 0.0
  {
    MulNonNegative(unit, quantity as real);
    unit * quantity as real
  }

  /** A selling total splits into its base and markup parts. */
  lemma TotalDistributes(a: real, b: real, quantity: int)
    ensures Total(a + b, quantity) == Total(a, quantity) + Total(b, quantity)
  {
  }

  /** The prices before any promo: `quantity` seats at `unitBase` for an agent whose markup
      is `markerAmount`, with the whole base total to be funded (nothing when a negative
      base price makes that total negative). */
  function ListPrice(unitBase: real, markerAmount: real, quantity: int): (q: Quote)
    requires quantity >= 1
    ensures q.unitBase == unitBase
    ensures q.unitMarkup >= 0.0 && (markerAmount >= 0.0 ==> q.unitMarkup == markerAmount)
    ensures markerAmount < 0.0 ==> q.unitMarkup == 0.0
    ensures q.unitSelling == q.unitBase + q.unitMarkup
    ensures q.totalBase == Total(unitBase, quantity) && q.totalMarkup == Total(q.unitMarkup, quantity)
    ensures q.totalSelling == Total(q.unitSelling, quantity)
    ensures q.totalBase <= q.totalSelling && (unitBase >= 0.0 <==> q.totalBase >= 0.0)
    ensures q.baseDiscount == 0.0 && q.sellingDiscount == 0.0
    ensures unitBase >= 0.0 ==> q.requiredFunds == q.totalBase
    ensures unitBase < 0.0 ==> q.requiredFunds == 0.0
  {
    var unitMarkup := Max(0.0, markerAmount);
    var unitSelling := unitBase + unitMarkup;
    var totalBase := Total(unitBase, quantity);
    TotalDistributes(unitBase, unitMarkup, quantity);
    Quote(unitBase, unitMarkup, unitSelling, totalBase, Total(unitMarkup, quantity),
          0.0, 0.0, Total(unitSelling, quantity), Max(0.0, totalBase))
  }

  /** A discount applied to list prices: capped at the base total for the funds the agent
      must cover, and separately at the selling total for the customer price. */
  function ApplyDiscount(q: Quote, discount: real): (r: Quote)
    ensures r.unitBase == q.unitBase && r.unitMarkup == q.unitMarkup && r.unitSelling == q.unitSelling
    ensures r.totalBase == q.totalBase && r.totalMarkup == q.totalMarkup
    ensures r.baseDiscount == CapDiscount(discount, q.totalBase)
    ensures r.sellingDiscount == CapDiscount(discount, q.totalSelling)
    ensures r.totalSelling == q.totalSelling - r.sellingDiscount
    ensures 0.0 <= q.totalSelling ==> 0.0 <= r.totalSelling
    ensures 0.0 <= r.requiredFunds
    ensures 0.0 <= q.totalBase ==> r.requiredFunds == q.totalBase - r.baseDiscount <= q.totalBase
    ensures q.totalBase < 0.0 ==> r.baseDiscount == 0.0 && r.requiredFunds == 0.0
  {
    var baseDiscount := CapDiscount(discount, q.totalBase);
    var sellingDiscount := CapDiscount(discount, q.totalSelling);
    q.(baseDiscount := baseDiscount, sellingDiscount := sellingDiscount,
       totalSelling := q.totalSelling - sellingDiscount,
       requiredFunds := Max(0.0, q.totalBase - baseDiscount))
  }

  /** The pricing of a sale with `promo` applied when given; a percentage promo is taken of
      the selling subtotal. */
  function PriceSale(unitBase: real, markerAmount: real, quantity: int, promo: Option<PromoCode>): (q: Quote)
    requires quantity >= 1
    ensures var list := ListPrice(unitBase, markerAmount, quantity);
      q.unitBase == list.unitBase && q.unitMarkup == list.unitMarkup && q.unitSelling == list.unitSelling
      && q.totalBase == list.totalBase && q.totalMarkup == list.totalMarkup
      && 0.0 <= q.baseDiscount && 0.0 <= q.sellingDiscount && 0.0 <= q.requiredFunds
      && q.totalSelling == list.totalSelling - q.sellingDiscount
      && (unitBase >= 0.0 ==>
            q.baseDiscount <= q.totalBase && q.sellingDiscount <= list.totalSelling && 0.0 <= q.totalSelling
            && q.requiredFunds == q.totalBase - q.baseDiscount)
      && (unitBase < 0.0 ==> q.baseDiscount == 0.0 && q.requiredFunds == 0.0)
      && (promo.None? ==> q == list)
      && (promo.Some? ==>
            var d := DiscountFor(promo.value, list.totalSelling);
            q.baseDiscount == CapDiscount(d, q.totalBase) && q.sellingDiscount == CapDiscount(d, list.totalSelling))
  {
    var list := ListPrice(unitBase, markerAmount, quantity);
    match promo
    case None => list
    case Some(p) => ApplyDiscount(list, DiscountFor(p, list.totalSelling))
  }

  lemma MulNonNegative(a: real, b: real)
    ensures a >= 0.0 && b >= 0.0 ==> a * b >= 0.0
  {
  }

  /** The infant fee added to the selling total only: the ticket's infant price per infant,
      when there are any. */
  function InfantFee(infantPrice: real, infants: int): (fee: real)
    ensures infantPrice >= 0.0 ==> fee >= 0.0
    ensures infants <= 0 ==> fee == 0.0
    ensures infants > 0 ==> fee == infantPrice * infants as real
  {
    if infants > 0 then infantPrice * infants as real else 0.0
  }

  /** Without a promo, or with a flat one, the funds the agent must cover do not depend on
      the agent's own markup: the markup is margin, not a funding requirement. */
  lemma RequiredFundsIgnoreMarkup(unitBase: real, m1: real, m2: real, quantity: int, promo: Option<PromoCode>)
    requires unitBase >= 0.0 && quantity >= 1
    requires promo.None? || !promo.value.isPercent
    ensures PriceSale(unitBase, m1, quantity, promo).requiredFunds == PriceSale(unitBase, m2, quantity, promo).requiredFunds
  {
  }

  /** A percentage promo is taken of the selling subtotal, markup included, so the agent's
      markup can lower the funds its credit must cover: 10% of a 1000 base with markup 0
      needs 900, with markup 1000 it needs 800. */
  lemma PercentPromoCoupledToMarkup(p: PromoCode)
    requires p == PromoCode("SALE", true, None, 10.0, true, None, None, None, None, 0, true)
    ensures PriceSale(1000.0, 0.0, 1, Some(p)).requiredFunds == 900.0
    ensures PriceSale(1000.0, 1000.0, 1, Some(p)).requiredFunds == 800.0
  {
    TenPercentOfOneSeat(p, 0.0);
    TenPercentOfOneSeat(p, 1000.0);
  }

  lemma TenPercentOfOneSeat(p: PromoCode, markup: real)
    requires p == PromoCode("SALE", true, None, 10.0, true, None, None, None, None, 0, true)
    requires 0.0 <= markup <= 1000.0
    ensures PriceSale(1000.0, markup, 1, Some(p)).requiredFunds == 900.0 - markup / 10.0
  {
    assert ListPrice(1000.0, markup, 1).totalSelling == 1000.0 + markup;
    assert DiscountFor(p, 1000.0 + markup) == (1000.0 + markup) / 10.0;
  }

  /** Base 1000, markup 200, three seats, one infant at 300, no promo: base total 3000,
      markup total 600, selling total 3600 + 300 = 3900, and 3000 to be funded. */
  lemma PricingExample()
    ensures PriceSale(1000.0, 200.0, 3, None).totalBase == 3000.0
    ensures PriceSale(1000.0, 200.0, 3, None).totalMarkup == 600.0
    ensures PriceSale(1000.0, 200.0, 3, None).totalSelling + InfantFee(300.0, 1) == 3900.0
    ensures PriceSale(1000.0, 200.0, 3, None).requiredFunds == 3000.0
  {
  }

  /** One seat at 10000 (or any price from 4000 up) with a 50% promo capped at 2000: the
      discount is the 2000 cap, so 8000 (the price less 2000) is to be funded and charged. */
  lemma FundingExample(p: PromoCode, base: real)
    requires p == PromoCode("HALF", true, None, 50.0, true, Some(2000.0), None, None, None, 0, true)
    requires base >= 4000.0
    ensures PriceSale(base, 0.0, 1, Some(p)).baseDiscount == 2000.0
    ensures PriceSale(base, 0.0, 1, Some(p)).requiredFunds == base - 2000.0
    ensures PriceSale(base, 0.0, 1, Some(p)).totalSelling == base - 2000.0
  {
    assert ListPrice(base, 0.0, 1).totalSelling == base;
    assert DiscountFor(p, base) == 2000.0;
  }
}

=== FILE: promo_controller.dfy ===
/** The admin promo upsert (`createOrUpdate`) and the agent's promo listing
    (`listForAgent`). An upsert goes either to the single global record of a code or to one
    record per listed agent; it runs without the schema validators, and the fields the
    request leaves out keep the values the record already had. */
module PromoController {
  import opened Results
  import opened Text
  import opened Seqs
  import opened UserModel
  import opened PromoModel
  import opened Store

  /** The request body, after the handler's coercions: a missing amount counts as zero,
      `isPercent` is a boolean, and a missing or empty date is no bound. */
  datatype PromoInput = PromoInput(
    code: Option<string>,
    amount: Option<real>,
    isPercent: bool,
    maxDiscount: Option<real>,
    startsAt: Option<int>,
    endsAt: Option<int>,
    usageLimit: Option<int>,
    isActive: Option<bool>)

  /** Which record an upsert addresses: the global one, or the one of an agent. */
  datatype Scope = Global | ForAgent(agent: UserId)

  /** The upsert filter `{ code, isGlobal: true }` or `{ code, agent }`. */
  predicate InScope(p: PromoCode, key: string, scope: Scope) {
    p.code == key
    && match scope
       case Global => p.isGlobal
       case ForAgent(id) => p.agent == Some(id)
  }

  /** The record `findOneAndUpdate` addresses: the first one the filter matches. */
  function FirstInScope(ps: seq<PromoCode>, key: string, scope: Scope): (r: Option<nat>)
    ensures r.Some? ==> r.value < |ps| && InScope(ps[r.value], key, scope)
    ensures r.Some? ==> forall j :: 0 <= j < r.value ==> !InScope(ps[j], key, scope)
    ensures r.None? <==> forall j :: 0 <= j < |ps| ==> !InScope(ps[j], key, scope)
  {
    FindFirst(ps, (p: PromoCode) => InScope(p, key, scope))
  }

  /** The code the upsert stores and filters by: upper-cased by the handler, then trimmed
      and upper-cased by the schema setters. */
  function StoredCode(code: string): (key: string)
    ensures IsUpper(key) && IsTrimmed(key)
  {
    NormalizeCode(Upper(code))
  }

  /** `a` when the request gives it, otherwise what the record had. */
  function Keep<T>(given: Option<T>, previous: Option<T>): (r: Option<T>)
    ensures given.Some? ==> r == given
    ensures given.None? ==> r == previous
  {
    if given.Some? then given else previous
  }

  /** A record carries the request: every field the request sets has the requested value,
      and the record answers the filter. */
  predicate Carries(p: PromoCode, key: string, scope: Scope, input: PromoInput) {
    InScope(p, key, scope)
    && p.isGlobal == scope.Global?
    && p.amount == input.amount.GetOr(0.0)
    && p.isPercent == input.isPercent
    && (input.maxDiscount.Some? ==> p.maxDiscount == input.maxDiscount)
    && (input.startsAt.Some? ==> p.startsAt == input.startsAt)
    && (input.endsAt.Some? ==> p.endsAt == input.endsAt)
    && (input.usageLimit.Some? ==> p.usageLimit == input.usageLimit)
    && p.isActive == input.isActive.GetOr(true)
  }

  /** The update of an existing record: the set fields are overwritten, the usage counter
      is never touched, and a global update leaves the agent field alone. */
  function Updated(p: PromoCode, key: string, scope: Scope, input: PromoInput): (q: PromoCode)
    requires InScope(p, key, scope)
    ensures Carries(q, key, scope, input)
    ensures q.usageCount == p.usageCount
    ensures q.agent == p.agent
    ensures input.maxDiscount.None? ==> q.maxDiscount == p.maxDiscount
    ensures input.startsAt.None? ==> q.startsAt == p.startsAt
    ensures input.endsAt.None? ==> q.endsAt == p.endsAt
    ensures input.usageLimit.None? ==> q.usageLimit == p.usageLimit
  {
    p.(code := key,
       isGlobal := scope.Global?,
       agent := if scope.ForAgent? then Some(scope.agent) else p.agent,
       amount := input.amount.GetOr(0.0),
       isPercent := input.isPercent,
       maxDiscount := Keep(input.maxDiscount, p.maxDiscount),
       startsAt := Keep(input.startsAt, p.startsAt),
       endsAt := Keep(input.endsAt, p.endsAt),
       usageLimit := Keep(input.usageLimit, p.usageLimit),
       isActive := input.isActive.GetOr(true))
  }

  /** The inserted record: the filter's fields plus the request, with the schema's zero
      usage counter and, for a global record, no agent. */
  function Inserted(key: string, scope: Scope, input: PromoInput): (q: PromoCode)
    ensures Carries(q, key, scope, input)
    ensures q.usageCount == 0
    ensures q.agent == (if scope.ForAgent? then Some(scope.agent) else None)
    ensures q.maxDiscount == input.maxDiscount && q.startsAt == input.startsAt
    ensures q.endsAt == input.endsAt && q.usageLimit == input.usageLimit
  {
    PromoCode(key, scope.Global?, if scope.ForAgent? then Some(scope.agent) else None,
              input.amount.GetOr(0.0), input.isPercent, input.maxDiscount, input.startsAt,
              input.endsAt, input.usageLimit, 0, input.isActive.GetOr(true))
  }

  /** One `findOneAndUpdate(filter, payload, { upsert: true })`: the first record in scope
      is updated in place, or a new record is appended when there is none. */
  function Upsert(ps: seq<PromoCode>, key: string, scope: Scope, input: PromoInput): (r: seq<PromoCode>)
    ensures FirstInScope(ps, key, scope).Some? ==> |r| == |ps|
    ensures FirstInScope(ps, key, scope).None? ==> |r| == |ps| + 1 && r[..|ps|] == ps && r[|ps|].usageCount == 0
    ensures forall j :: 0 <= j < |ps| && !InScope(ps[j], key, scope) ==> r[j] == ps[j]
    ensures forall j :: 0 <= j < |ps| ==> r[j].usageCount == ps[j].usageCount
    ensures FirstInScope(r, key, scope).Some?
    ensures Carries(r[FirstInScope(r, key, scope).value], key, scope, input)
  {
    match FirstInScope(ps, key, scope)
    case Some(i) =>
      var r := ps[i := Updated(ps[i], key, scope, input)];
      assert FirstInScope(r, key, scope) == Some(i) by {
        assert InScope(r[i], key, scope);
        assert forall j :: 0 <= j < i ==> r[j] == ps[j];
      }
      r
    case None =>
      var r := ps + [Inserted(key, scope, input)];
      assert FirstInScope(r, key, scope) == Some(|ps|) by {
        assert InScope(r[|ps|], key, scope);
        assert forall j :: 0 <= j < |ps| ==> r[j] == ps[j];
      }
      r
  }

  /** The upserts of one request, in order. */
  function Upserts(ps: seq<PromoCode>, key: string, scopes: seq<Scope>, input: PromoInput): (r: seq<PromoCode>)
    ensures |ps| <= |r| <= |ps| + |scopes|
    ensures forall j :: 0 <= j < |ps| ==> r[j].usageCount == ps[j].usageCount
    decreases |scopes|
  {
    if scopes == [] then ps
    else Upserts(Upsert(ps, key, scopes[0], input), key, scopes[1..], input)
  }

  /** The comma-separated agent list: each piece trimmed and upper-cased, empty pieces
      dropped. */
  function CleanKeys(pieces: seq<string>): (keys: seq<string>)
    ensures |keys| <= |pieces|
    ensures forall key <- keys :: NonBlankKey(key)
  {
    if pieces == [] then []
    else
      var key := NormalizeCode(pieces[0]);
      var rest := CleanKeys(pieces[1..]);
      if key == [] then rest else [key] + rest
  }

  /** What the cleaning leaves of a piece: non-blank, trimmed, upper case. */
  predicate NonBlankKey(s: string) {
    s != [] && IsUpper(s) && IsTrimmed(s)
  }

  /** A piece that is already a clean key survives the cleaning unchanged. */
  predicate CleanKey(s: string) {
    NonBlankKey(s) && ',' !in s
  }

  /** The keys the handler resolves: the `agent` field when present, then the items of the
      `agentId` list. */
  function AgentKeys(agent: Option<string>, agentId: Option<string>): (keys: seq<string>)
    ensures agent.Some? && agent.value != [] ==> |keys| >= 1 && keys[0] == agent.value
    ensures forall k :: (if agent.Some? && agent.value != [] then 1 else 0) <= k < |keys| ==> NonBlankKey(keys[k])
  {
    var raw := Trim(agentId.GetOr(""));
    (if agent.Some? && agent.value != [] then [agent.value] else [])
    + (if raw != [] then CleanKeys(Split(raw, ',')) else [])
  }

  /** Whether the request addresses the global record: a blank `agentId` and no `agent`. */
  predicate IsGlobalRequest(agent: Option<string>, agentId: Option<string>) {
    Trim(agentId.GetOr("")) == [] && (agent.None? || agent.value == [])
  }

  /** Each key resolved to an agent; the first that is not one fails the whole request. */
  function ResolveAgents(users: map<UserId, User>, keys: seq<string>): (r: Result<seq<UserId>>)
    requires UniqueAgentIds(users)
    ensures r.Ok? <==> forall k :: 0 <= k < |keys| ==> FindAgent(users, keys[k]).Some?
    ensures r.Ok? ==> |r.value| == |keys| && forall k :: 0 <= k < |keys| ==> Some(r.value[k]) == FindAgent(users, keys[k])
    ensures r.Err? ==> r.error == NotFound("Agent")
  {
    if keys == [] then Ok([])
    else
      match FindAgent(users, keys[0])
      case None => Err(NotFound("Agent"))
      case Some(id) =>
        var rest := ResolveAgents(users, keys[1..]);
        if rest.Err? then
          assert !(forall k :: 0 <= k < |keys| ==> FindAgent(users, keys[k]).Some?) by {
            var k :| 0 <= k < |keys[1..]| && FindAgent(users, keys[1..][k]).None?;
            assert keys[k + 1] == keys[1..][k];
          }
          rest
        else
          assert forall k :: 1 <= k < |keys| ==> keys[k] == keys[1..][k - 1];
          Ok([id] + rest.value)
  }

  function ForAgents(ids: seq<UserId>): (scopes: seq<Scope>)
    ensures |scopes| == |ids|
    ensures forall k :: 0 <= k < |ids| ==> scopes[k] == ForAgent(ids[k])
  {
    seq(|ids|, k requires 0 <= k < |ids| => ForAgent(ids[k]))
  }

  /** The scopes a request writes to, or the error it stops with. */
  function Targets(users: map<UserId, User>, agent: Option<string>, agentId: Option<string>): (r: Result<seq<Scope>>)
    requires UniqueAgentIds(users)
    ensures IsGlobalRequest(agent, agentId) ==> r == Ok([Global])
    ensures !IsGlobalRequest(agent, agentId) ==>
      (r.Ok? <==> forall k :: 0 <= k < |AgentKeys(agent, agentId)| ==> FindAgent(users, AgentKeys(agent, agentId)[k]).Some?)
    ensures !IsGlobalRequest(agent, agentId) && r.Ok? ==>
      var keys := AgentKeys(agent, agentId);
      |r.value| == |keys|
      && forall k :: 0 <= k < |keys| ==> r.value[k].ForAgent? && Some(r.value[k].agent) == FindAgent(users, keys[k])
    ensures r.Err? ==> r.error == NotFound("Agent")
  {
    if IsGlobalRequest(agent, agentId) then Ok([Global])
    else
      var ids :- ResolveAgents(users, AgentKeys(agent, agentId));
      Ok(ForAgents(ids))
  }

  /** `createOrUpdate`: a missing code is refused first; then every listed agent must
      resolve before anything is written; then the upserts run in order. Only the promo
      collection changes. */
  function CreateOrUpdate(s: State, input: PromoInput, agent: Option<string>, agentId: Option<string>): (r: Result<State>)
    requires UniqueAgentIds(s.users)
    ensures input.code.None? || input.code.value == [] ==> r == Err(InvalidField("code"))
    ensures input.code.Some? && input.code.value != [] ==>
      (r.Err? <==> Targets(s.users, agent, agentId).Err?)
    ensures r.Err? ==> r.error == InvalidField("code") || r.error == NotFound("Agent")
    ensures r.Ok? ==> r.value == s.(promos := r.value.promos)
    ensures r.Ok? ==> |s.promos| <= |r.value.promos|
  {
    if input.code.None? || input.code.value == [] then Err(InvalidField("code"))
    else
      var scopes :- Targets(s.users, agent, agentId);
      Ok(s.(promos := Upserts(s.promos, StoredCode(input.code.value), scopes, input)))
  }

  /** What a successful save did: it had a code, its targets resolved, and the promo
      collection is the result of the upserts for those targets. */
  lemma CreateOrUpdateStages(s: State, input: PromoInput, agent: Option<string>, agentId: Option<string>, s': State)
      returns (key: string, scopes: seq<Scope>)
    requires UniqueAgentIds(s.users)
    requires CreateOrUpdate(s, input, agent, agentId) == Ok(s')
    ensures input.code.Some? && input.code.value != [] && key == StoredCode(input.code.value)
    ensures Targets(s.users, agent, agentId) == Ok(scopes)
    ensures IsGlobalRequest(agent, agentId) ==> scopes == [Global]
    ensures !IsGlobalRequest(agent, agentId) ==> forall k :: 0 <= k < |scopes| ==> scopes[k].ForAgent?
    ensures s'.promos == Upserts(s.promos, key, scopes, input)
    ensures s' == s.(promos := s'.promos)
  {
    key := StoredCode(input.code.value);
    scopes := Targets(s.users, agent, agentId).value;
  }

  /** A global request makes exactly one upsert. */
  lemma GlobalUpsertIsOne(ps: seq<PromoCode>, key: string, input: PromoInput)
    ensures Upserts(ps, key, [Global], input) == Upsert(ps, key, Global, input)
  {
    assert [Global][1..] == [];
  }

  // ---------------------------------------------------------------------------------
  // Idempotence: after an upsert its record carries the request and updating it again
  // changes nothing.

  /** The first record in scope already is what the upsert would make of it. */
  predicate Settled(ps: seq<PromoCode>, key: string, scope: Scope, input: PromoInput) {
    var i := FirstInScope(ps, key, scope);
    i.Some? && Updated(ps[i.value], key, scope, input) == ps[i.value]
  }

  /** An upsert leaves its record settled. */
  lemma UpsertSettles(ps: seq<PromoCode>, key: string, scope: Scope, input: PromoInput)
    ensures Settled(Upsert(ps, key, scope, input), key, scope, input)
  {
  }

  /** A settled record carries the request. */
  lemma SettledCarries(ps: seq<PromoCode>, key: string, scope: Scope, input: PromoInput)
    requires Settled(ps, key, scope, input)
    ensures FirstInScope(ps, key, scope).Some?
    ensures Carries(ps[FirstInScope(ps, key, scope).value], key, scope, input)
  {
    var i := FirstInScope(ps, key, scope).value;
    assert Updated(ps[i], key, scope, input) == ps[i];
  }

  /** Upserting a settled record changes nothing. */
  lemma SettledUpsertIsIdentity(ps: seq<PromoCode>, key: string, scope: Scope, input: PromoInput)
    requires Settled(ps, key, scope, input)
    ensures Upsert(ps, key, scope, input) == ps
  {
  }

  /** An upsert for one agent keeps another agent's settled record settled: no record is in
      both scopes before or after. */
  lemma UpsertKeepsSettled(ps: seq<PromoCode>, key: string, scope: Scope, other: Scope, input: PromoInput)
    requires scope.ForAgent? && other.ForAgent?
    requires Settled(ps, key, other, input)
    ensures Settled(Upsert(ps, key, scope, input), key, other, input)
  {
    if scope == other {
      SettledUpsertIsIdentity(ps, key, scope, input);
    } else {
      UpsertLeavesOtherAgent(ps, key, scope, other, input);
      SettledCarriesOver(ps, Upsert(ps, key, scope, input), key, other, input);
    }
  }

  /** A settled record stays settled in a collection that keeps every record of its scope
      in place and adds none. */
  lemma SettledCarriesOver(ps: seq<PromoCode>, r: seq<PromoCode>, key: string, other: Scope, input: PromoInput)
    requires Settled(ps, key, other, input) && |ps| <= |r|
    requires forall j :: 0 <= j < |ps| && InScope(ps[j], key, other) ==> r[j] == ps[j]
    requires forall j :: 0 <= j < |r| && InScope(r[j], key, other) ==> j < |ps| && InScope(ps[j], key, other)
    ensures Settled(r, key, other, input)
  {
    var i := FirstInScope(ps, key, other).value;
    assert r[i] == ps[i];
    assert FirstInScope(r, key, other) == Some(i);
  }

  /** An upsert for one agent neither adds, removes nor changes a record in another agent's
      scope. */
  lemma UpsertLeavesOtherAgent(ps: seq<PromoCode>, key: string, scope: Scope, other: Scope, input: PromoInput)
    requires scope.ForAgent? && other.ForAgent? && scope != other
    ensures var r := Upsert(ps, key, scope, input);
      |ps| <= |r|
      && (forall j :: 0 <= j < |ps| && InScope(ps[j], key, other) ==> r[j] == ps[j])
      && (forall j :: 0 <= j < |r| && InScope(r[j], key, other) ==> j < |ps| && InScope(ps[j], key, other))
  {
  }

  lemma {:induction false} UpsertsKeepSettled(ps: seq<PromoCode>, key: string, scopes: seq<Scope>, other: Scope, input: PromoInput)
    requires forall k :: 0 <= k < |scopes| ==> scopes[k].ForAgent?
    requires other.ForAgent?
    requires Settled(ps, key, other, input)
    ensures Settled(Upserts(ps, key, scopes, input), key, other, input)
    decreases |scopes|
  {
    if scopes != [] {
      UpsertKeepsSettled(ps, key, scopes[0], other, input);
      UpsertsKeepSettled(Upsert(ps, key, scopes[0], input), key, scopes[1..], other, input);
    }
  }

  /** After the upserts of a list of agents, every listed agent's record is settled. */
  lemma {:induction false} UpsertsSettleAll(ps: seq<PromoCode>, key: string, scopes: seq<Scope>, input: PromoInput)
    requires forall k :: 0 <= k < |scopes| ==> scopes[k].ForAgent?
    ensures forall k :: 0 <= k < |scopes| ==> Settled(Upserts(ps, key, scopes, input), key, scopes[k], input)
    decreases |scopes|
  {
    if scopes != [] {
      var ps1 := Upsert(ps, key, scopes[0], input);
      UpsertSettles(ps, key, scopes[0], input);
      UpsertsKeepSettled(ps1, key, scopes[1..], scopes[0], input);
      UpsertsSettleAll(ps1, key, scopes[1..], input);
      forall k | 0 < k < |scopes|
        ensures Settled(Upserts(ps, key, scopes, input), key, scopes[k], input)
      {
        assert scopes[k] == scopes[1..][k - 1];
      }
    }
  }

  /** Upserts whose records are all settled change nothing. */
  lemma {:induction false} SettledUpsertsAreIdentity(ps: seq<PromoCode>, key: string, scopes: seq<Scope>, input: PromoInput)
    requires forall k :: 0 <= k < |scopes| ==> Settled(ps, key, scopes[k], input)
    ensures Upserts(ps, key, scopes, input) == ps
    decreases |scopes|
  {
    if scopes != [] {
      SettledUpsertIsIdentity(ps, key, scopes[0], input);
      forall k | 0 <= k < |scopes[1..]|
        ensures Settled(ps, key, scopes[1..][k], input)
      {
        assert scopes[1..][k] == scopes[k + 1];
      }
      SettledUpsertsAreIdentity(ps, key, scopes[1..], input);
    }
  }

  /** Running the upserts of one request a second time changes nothing. */
  lemma UpsertsIdempotent(ps: seq<PromoCode>, key: string, scopes: seq<Scope>, input: PromoInput)
    requires scopes == [Global] || forall k :: 0 <= k < |scopes| ==> scopes[k].ForAgent?
    ensures Upserts(Upserts(ps, key, scopes, input), key, scopes, input) == Upserts(ps, key, scopes, input)
  {
    var r := Upserts(ps, key, scopes, input);
    if scopes == [Global] {
      GlobalUpsertIsOne(ps, key, input);
      UpsertSettles(ps, key, Global, input);
    } else {
      UpsertsSettleAll(ps, key, scopes, input);
    }
    SettledUpsertsAreIdentity(r, key, scopes, input);
  }

  /** Saving the same promo twice leaves the store as the first save left it: one record per
      agent (or one global record), not two. */
  lemma CreateOrUpdateIdempotent(s: State, input: PromoInput, agent: Option<string>, agentId: Option<string>, s': State)
    requires UniqueAgentIds(s.users)
    requires CreateOrUpdate(s, input, agent, agentId) == Ok(s')
    ensures CreateOrUpdate(s', input, agent, agentId) == Ok(s')
  {
    var key, scopes := CreateOrUpdateStages(s, input, agent, agentId, s');
    UpsertsIdempotent(s.promos, key, scopes, input);
  }

  // ---------------------------------------------------------------------------------
  // The unique indexes and the schema validators.

  /** The request fields the schema validators would refuse, which the upsert does not
      check: an empty code, a negative amount or cap, a usage limit below one. */
  predicate ValidInput(key: string, input: PromoInput) {
    key != []
    && input.amount.GetOr(0.0) >= 0.0
    && (input.maxDiscount.Some? ==> input.maxDiscount.value >= 0.0)
    && (input.usageLimit.Some? ==> input.usageLimit.value >= 1)
  }

  /** An upsert never creates a second global record of a code, nor a second record of a
      code for one agent, and with a valid request every record passes the validators. */
  lemma UpsertKeepsPromosValid(ps: seq<PromoCode>, key: string, scope: Scope, input: PromoInput)
    requires PromosValid(ps)
    requires ValidInput(key, input) && IsUpper(key) && IsTrimmed(key)
    ensures PromosValid(Upsert(ps, key, scope, input))
  {
    match FirstInScope(ps, key, scope)
    case Some(i) =>
      ReplaceKeepsPromosValid(ps, i, Updated(ps[i], key, scope, input));
    case None =>
      AppendKeepsPromosValid(ps, Inserted(key, scope, input));
  }

  lemma {:induction false} UpsertsKeepPromosValid(ps: seq<PromoCode>, key: string, scopes: seq<Scope>, input: PromoInput)
    requires PromosValid(ps)
    requires ValidInput(key, input) && IsUpper(key) && IsTrimmed(key)
    ensures PromosValid(Upserts(ps, key, scopes, input))
    decreases |scopes|
  {
    if scopes != [] {
      UpsertKeepsPromosValid(ps, key, scopes[0], input);
      UpsertsKeepPromosValid(Upsert(ps, key, scopes[0], input), key, scopes[1..], input);
    }
  }

  /** A successful save with a valid request keeps the store well formed; in particular
      both unique indexes still hold. */
  lemma CreateOrUpdateKeepsWellFormed(s: State, input: PromoInput, agent: Option<string>, agentId: Option<string>, s': State)
    requires WellFormed(s)
    requires CreateOrUpdate(s, input, agent, agentId) == Ok(s')
    requires ValidInput(StoredCode(input.code.value), input)
    ensures WellFormed(s')
  {
    var key, scopes := CreateOrUpdateStages(s, input, agent, agentId, s');
    UpsertsKeepPromosValid(s.promos, key, scopes, input);
  }

  /** After the upserts, each addressed record carries the request. */
  lemma UpsertsCarry(ps: seq<PromoCode>, key: string, scopes: seq<Scope>, input: PromoInput, scope: Scope)
    requires scopes == [Global] || forall k :: 0 <= k < |scopes| ==> scopes[k].ForAgent?
    requires scope in scopes
    ensures var i := FirstInScope(Upserts(ps, key, scopes, input), key, scope);
      i.Some? && Carries(Upserts(ps, key, scopes, input)[i.value], key, scope, input)
  {
    var r := Upserts(ps, key, scopes, input);
    if scopes == [Global] {
      assert scopes[1..] == [];
      GlobalUpsertIsOne(ps, key, input);
      UpsertSettles(ps, key, Global, input);
    } else {
      UpsertsSettleAll(ps, key, scopes, input);
      var k :| 0 <= k < |scopes| && scopes[k] == scope;
    }
    SettledCarries(r, key, scope, input);
  }

  /** After a save, each addressed record carries the request's fields. */
  lemma CreateOrUpdateCarries(s: State, input: PromoInput, agent: Option<string>, agentId: Option<string>, s': State, scope: Scope)
    requires UniqueAgentIds(s.users)
    requires CreateOrUpdate(s, input, agent, agentId) == Ok(s')
    requires Targets(s.users, agent, agentId).Ok? && scope in Targets(s.users, agent, agentId).value
    ensures var i := FirstInScope(s'.promos, StoredCode(input.code.value), scope);
      i.Some? && Carries(s'.promos[i.value], StoredCode(input.code.value), scope, input)
  {
    var key, scopes := CreateOrUpdateStages(s, input, agent, agentId, s');
    UpsertsCarry(s.promos, key, scopes, input, scope);
  }

  // ---------------------------------------------------------------------------------
  // The agent list.

  /** Clean keys come back from the cleaning unchanged. */
  lemma {:induction false} CleanKeysOfClean(keys: seq<string>)
    requires forall k :: 0 <= k < |keys| ==> CleanKey(keys[k])
    ensures CleanKeys(keys) == keys
  {
    if keys != [] {
      NormalizeCodeOfStored(keys[0]);
      CleanKeysOfClean(keys[1..]);
      assert keys == [keys[0]] + keys[1..];
    }
  }

  /** A join of non-empty trimmed pieces is itself trimmed and non-empty. */
  lemma {:induction false} JoinOfTrimmed(keys: seq<string>)
    requires |keys| >= 1
    requires forall k :: 0 <= k < |keys| ==> keys[k] != [] && IsTrimmed(keys[k])
    ensures Join(keys, ',') != [] && IsTrimmed(Join(keys, ','))
    ensures Join(keys, ',')[0] == keys[0][0]
    ensures Join(keys, ',')[|Join(keys, ',')| - 1] == keys[|keys| - 1][|keys[|keys| - 1]| - 1]
  {
    if |keys| > 1 {
      JoinOfTrimmed(keys[1..]);
      var tail := Join(keys[1..], ',');
      assert Join(keys, ',') == keys[0] + [','] + tail;
    }
  }

  /** The agent list written as `A,B,C` parses back to exactly those keys. */
  lemma AgentListRoundTrip(keys: seq<string>)
    requires |keys| >= 1
    requires forall k :: 0 <= k < |keys| ==> CleanKey(keys[k])
    ensures !IsGlobalRequest(None, Some(Join(keys, ',')))
    ensures AgentKeys(None, Some(Join(keys, ','))) == keys
  {
    var raw := Join(keys, ',');
    JoinOfTrimmed(keys);
    TrimOfTrimmed(raw);
    SplitJoin(keys, ',');
    CleanKeysOfClean(keys);
  }

  // ---------------------------------------------------------------------------------
  // The agent's listing.

  /** The agent a listing is for: the path parameter when given, else the caller. */
  function ListingAgent(agentParam: Option<string>, caller: UserId): (agent: UserId)
    ensures agentParam.None? || agentParam.value == [] ==> agent == caller
  {
    if agentParam.Some? && agentParam.value != [] then Lower(agentParam.value) else caller
  }

  predicate Decreasing(r: seq<nat>) {
    forall a, b :: 0 <= a < b < |r| ==> r[a] > r[b]
  }

  /** `listForAgent`: the positions of the eligible promos, newest first (a later position
      is a later `createdAt`). */
  function ListForAgent(ps: seq<PromoCode>, agent: UserId, now: int): (r: seq<nat>)
    ensures forall i: nat :: i in r <==> i < |ps| && Eligible(ps[i], agent, now)
    ensures Decreasing(r)
  {
    var front := Matching(ps, (p: PromoCode) => Eligible(p, agent, now));
    var r := Reverse(front);
    assert forall i: nat :: i in r <==> i in front by {
      forall i: nat
        ensures i in r <==> i in front
      {
        if i in front {
          var k :| 0 <= k < |front| && front[k] == i;
          assert r[|front| - 1 - k] == i;
        }
      }
    }
    r
  }

  /** The booking lookup only ever applies a promo the agent's listing shows: its candidates
      are exactly the listed promos with that code. */
  lemma BookingSeesOnlyListed(ps: seq<PromoCode>, code: string, agent: UserId, now: int)
    ensures forall i: nat :: i in BookingMatches(ps, code, agent, now) <==>
      i in ListForAgent(ps, agent, now) && ps[i].code == NormalizeCode(code)
  {
  }

  /** A save that switches a global promo on and opens its window around `now` makes it
      visible to every agent. */
  lemma SavedGlobalIsListed(s: State, input: PromoInput, code: string, agentId: Option<string>, s': State,
                            someone: UserId, now: int)
    requires input.code == Some(code)
    requires input.isActive != Some(false)
    requires input.startsAt.Some? && input.startsAt.value <= now
    requires input.endsAt.Some? && now <= input.endsAt.value
    requires IsGlobalRequest(None, agentId)
    requires UniqueAgentIds(s.users)
    requires CreateOrUpdate(s, input, None, agentId) == Ok(s')
    ensures var i := FirstInScope(s'.promos, StoredCode(code), Global);
      i.Some? && i.value in ListForAgent(s'.promos, someone, now)
  {
    var key, scopes := CreateOrUpdateStages(s, input, None, agentId, s');
    GlobalUpsertIsOne(s.promos, key, input);
    UpsertSettles(s.promos, key, Global, input);
    SettledCarries(s'.promos, key, Global, input);
    CarriedIsEligible(s'.promos[FirstInScope(s'.promos, key, Global).value], key, input, someone, now);
  }

  /** A global record carrying an active request whose window contains `now` is eligible
      for any agent. */
  lemma CarriedIsEligible(p: PromoCode, key: string, input: PromoInput, someone: UserId, now: int)
    requires Carries(p, key, Global, input)
    requires input.isActive != Some(false)
    requires input.startsAt.Some? && input.startsAt.value <= now
    requires input.endsAt.Some? && now <= input.endsAt.value
    ensures Eligible(p, someone, now)
  {
  }
}

=== FILE: promo_model.dfy ===
/** The PromoCode document: a discount code that is either global or assigned to one
    agent, with an optional active window and an optional usage limit. */
module PromoModel {
  import opened Results
  import opened Text
  import opened Seqs
  import opened UserModel

  datatype PromoCode = PromoCode(
    code: string,
    isGlobal: bool,
    agent: Option<UserId>,
    amount: real,
    isPercent: bool,
    maxDiscount: Option<real>,
    startsAt: Option<int>,     // epoch milliseconds
    endsAt: Option<int>,       // epoch milliseconds
    usageLimit: Option<int>,
    usageCount: int,
    isActive: bool)

  /** The `trim` and `uppercase` setters of the code path, which also run on query filters. */
  function NormalizeCode(s: string): (r: string)
    ensures IsUpper(r) && IsTrimmed(r)
    ensures |r| == |Trim(s)|
  {
    var t := Trim(s);
    UpperIsUpper(t);
    UpperKeepsTrimmed(t);
    Upper(t)
  }

  /** A stored code is its own normal form, so normalizing is idempotent. */
  lemma NormalizeCodeOfStored(s: string)
    requires IsUpper(s) && IsTrimmed(s)
    ensures NormalizeCode(s) == s
  {
    TrimOfTrimmed(s);
    UpperIsUpper(s);
  }

  /** The schema validators, which every save runs: a code is required, and the amount,
      the cap, the usage limit and the usage counter have lower bounds. */
  predicate PromoValidators(p: PromoCode) {
    p.code != []
    && p.amount >= 0.0
    && (p.maxDiscount.Some? ==> p.maxDiscount.value >= 0.0)
    && (p.usageLimit.Some? ==> p.usageLimit.value >= 1)
    && p.usageCount >= 0
  }

  /** A record as the schema stores it: its validators hold and its code went through the
      `trim` and `uppercase` setters. */
  predicate ValidPromo(p: PromoCode) {
    PromoValidators(p) && IsUpper(p.code) && IsTrimmed(p.code)
  }

  /** The partial unique index on (code, agent) for records with an agent. */
  predicate UniquePerAgent(ps: seq<PromoCode>) {
    forall i, j :: 0 <= i < j < |ps| && ps[i].agent.Some? && ps[i].agent == ps[j].agent ==> ps[i].code != ps[j].code
  }

  /** The partial unique index on (code, isGlobal) for global records. */
  predicate UniqueGlobal(ps: seq<PromoCode>) {
    forall i, j :: 0 <= i < j < |ps| && ps[i].isGlobal && ps[j].isGlobal ==> ps[i].code != ps[j].code
  }

  predicate InWindow(p: PromoCode, now: int) {
    (p.startsAt.None? || p.startsAt.value <= now) && (p.endsAt.None? || now <= p.endsAt.value)
  }

  /** The filter shared by the agent's promo listing and the booking lookup: active, inside
      its window where the bounds are set, and global or assigned to this agent. */
  predicate Eligible(p: PromoCode, agent: UserId, now: int) {
    p.isActive && InWindow(p, now) && (p.isGlobal || p.agent == Some(agent))
  }

  /** The indices of the records the booking lookup may return for `code`. */
  function BookingMatches(ps: seq<PromoCode>, code: string, agent: UserId, now: int): (r: seq<nat>)
    ensures forall i: nat :: i in r <==> i < |ps| && ps[i].code == NormalizeCode(code) && Eligible(ps[i], agent, now)
  {
    var key := NormalizeCode(code);
    Matching(ps, (p: PromoCode) => p.code == key && Eligible(p, agent, now))
  }

  /** With both uniqueness indexes in place the booking lookup sees at most one global
      record and at most one record of the agent's own for a code. */
  lemma BookingMatchesOnePerScope(ps: seq<PromoCode>, code: string, agent: UserId, now: int, i: nat, j: nat)
    requires UniquePerAgent(ps) && UniqueGlobal(ps)
    requires i in BookingMatches(ps, code, agent, now) && j in BookingMatches(ps, code, agent, now)
    requires ps[i].isGlobal == ps[j].isGlobal
    ensures i == j
  {
  }

  /** The discount a promo grants before the funding and selling caps: a percentage of the
      selling subtotal, capped by `maxDiscount` when set, or a flat amount. */
  function DiscountFor(p: PromoCode, sellingSubtotal: real): (d: real)
    ensures !p.isPercent ==> d == p.amount
    ensures p.isPercent ==> d <= sellingSubtotal * p.amount / 100.0
    ensures p.isPercent && p.maxDiscount.Some? ==> d <= p.maxDiscount.value
    ensures p.isPercent ==> d == sellingSubtotal * p.amount / 100.0 || (p.maxDiscount.Some? && d == p.maxDiscount.value)
  {
    if p.isPercent then
      var share := sellingSubtotal * p.amount / 100.0;
      if p.maxDiscount.Some? then Min(share, p.maxDiscount.value) else share
    else p.amount
  }
}

=== FILE: request_model.dfy ===
/** The FinanceRequest document: an agent's request to raise a credit field or to record
    a settlement of the balance due, waiting in an admin review queue. */
module RequestModel {
  import opened Results
  import opened UserModel

  datatype RequestType = TotalLimitIncrease | AvailableLimitIncrease | BalanceDueSettlement

  /** The review state shared by finance requests and name-change entries: both schemas use
      the enumeration pending / approved / rejected with default pending. */
  datatype ReviewStatus = Pending | Approved | Rejected

  datatype FinanceRequest = FinanceRequest(
    agent: UserId,
    requestType: RequestType,
    amount: real,
    status: ReviewStatus,
    note: string,
    paymentReference: Option<string>,
    processedAt: Option<int>,
    processedBy: Option<UserId>,
    createdBy: UserId)

  /** The schema validators: the amount is at least 1. */
  predicate ValidRequest(r: FinanceRequest) {
    r.amount >= 1.0
  }

  /** A request carries its processing stamp exactly when it has left the pending state. */
  predicate StampConsistent(r: FinanceRequest) {
    r.status != Pending <==> (r.processedAt.Some? && r.processedBy.Some?)
  }

  function RequestTypeName(t: RequestType): string {
    match t
    case TotalLimitIncrease => "totalCreditLimit"
    case AvailableLimitIncrease => "availableCreditLimit"
    case BalanceDueSettlement => "balanceDueSettlement"
  }

  /** The type check at the top of `requestFinance`. */
  function ParseRequestType(s: string): (r: Option<RequestType>)
    ensures r.Some? ==> RequestTypeName(r.value) == s
    ensures r.None? <==> s !in {"totalCreditLimit", "availableCreditLimit", "balanceDueSettlement"}
  {
    if s == "totalCreditLimit" then Some(TotalLimitIncrease)
    else if s == "availableCreditLimit" then Some(AvailableLimitIncrease)
    else if s == "balanceDueSettlement" then Some(BalanceDueSettlement)
    else None
  }

  function StatusName(s: ReviewStatus): string {
    match s
    case Pending => "pending"
    case Approved => "approved"
    case Rejected => "rejected"
  }

  /** A missing status takes the schema default `pending`; an unknown one fails the enum. */
  function ParseStatus(s: Option<string>): (r: Option<ReviewStatus>)
    ensures s.None? ==> r == Some(Pending)
    ensures s.Some? && r.Some? ==> StatusName(r.value) == s.value
    ensures r.None? <==> s.Some? && s.value !in {"pending", "approved", "rejected"}
  {
    match s
    case None => Some(Pending)
    case Some(name) =>
      if name == "pending" then Some(Pending)
      else if name == "approved" then Some(Approved)
      else if name == "rejected" then Some(Rejected)
      else None
  }

  lemma RequestNamesRoundTrip(t: RequestType, s: ReviewStatus)
    ensures ParseRequestType(RequestTypeName(t)) == Some(t)
    ensures ParseStatus(Some(StatusName(s))) == Some(s)
  {
  }

  /** The only status moves a handler may make: a pending request becomes approved or
      rejected, and a processed request never changes again. */
  predicate StatusStep(before: ReviewStatus, after: ReviewStatus) {
    before == after || (before == Pending && after != Pending)
  }
}

=== FILE: results.dfy ===
/** Failure-compatible wrappers and the error taxonomy shared by every handler.
    A handler either returns `Ok` with the whole new store or `Err` with the reason;
    on `Err` the caller keeps the store it had, which is how the model states that an
    aborted transaction leaves no partial effect. */
module Results {

  datatype Option<+T> = None | Some(value: T) {
    function GetOr(default: T): T {
      match this
      case Some(v) => v
      case None => default
    }
  }

  /** The reasons a handler refuses a request. Each handler documents which of these it can
      return and under which condition. */
  datatype Error =
    | InvalidField(field: string)   // a missing or malformed request field (HTTP 400)
    | NotFound(what: string)        // the addressed record does not exist (HTTP 404)
    | InsufficientSeats             // fewer seats available than requested
    | InvalidPromo                  // no active, in-window, in-scope promo with that code
    | UsageLimitReached             // the promo's usage counter already reached its limit
    | InsufficientFunds             // available credit below the required funds (HTTP 403)
    | ReferenceGenerationFailed     // ten booking-reference draws all collided
    | AgentIdGenerationFailed       // ten agent-id draws all collided
    | QuantityBelowBooked           // total seats edited below the seats already booked
    | PassengerCountMismatch        // passenger list length differs from the booking quantity
    | NoPendingRequest              // a name change was processed with nothing pending
    | InvalidRequestId              // the given name-change id is not a pending entry
    | InvalidAction                 // an action other than "approve" / "reject"
    | AlreadyProcessed              // a finance request that is no longer pending
    | SchemaViolation(model: string) // the document fails its schema validators on save
    | DuplicateKey(model: string)    // a unique index would be violated

  datatype Result<+T> = Ok(value: T) | Err(error: Error) {
    predicate IsFailure() {
      Err?
    }

    function PropagateFailure<U>(): Result<U>
      requires Err?
    {
      Err(error)
    }

    function Extract(): T
      requires Ok?
    {
      value
    }
  }

  function Max(a: real, b: real): (r: real)
    ensures r >= a && r >= b && (r == a || r == b)
  {
    if a >= b then a else b
  }

  function Min(a: real, b: real): (r: real)
    ensures r <= a && r <= b && (r == a || r == b)
  {
    if a <= b then a else b
  }
}

=== FILE: seqs.dfy ===
/** Searches over the append-only stores, whose index order is creation order. */
module Seqs {
  import opened Results

  /** The first index whose element satisfies `p` (MongoDB's `findOne` / JavaScript's
      `findIndex` on a collection kept in insertion order). */
  function FindFirst<T>(s: seq<T>, p: T -> bool): (r: Option<nat>)
    ensures r.Some? ==> r.value < |s| && p(s[r.value])
    ensures r.Some? ==> forall j :: 0 <= j < r.value ==> !p(s[j])
    ensures r.None? <==> forall j :: 0 <= j < |s| ==> !p(s[j])
  {
    if |s| == 0 then None
    else if p(s[0]) then Some(0)
    else
      match FindFirst(s[1..], p)
      case None => None
      case Some(i) => Some(i + 1)
  }

  predicate StrictlyIncreasing(r: seq<nat>) {
    forall a, b :: 0 <= a < b < |r| ==> r[a] < r[b]
  }

  /** Every index whose element satisfies `p`, in increasing order. */
  function Matching<T>(s: seq<T>, p: T -> bool): (r: seq<nat>)
    ensures forall i: nat :: i in r <==> i < |s| && p(s[i])
    ensures StrictlyIncreasing(r)
  {
    if |s| == 0 then []
    else
      var front := Matching(s[..|s| - 1], p);
      assert forall i: nat :: i < |s| - 1 ==> s[..|s| - 1][i] == s[i];
      forall k | 0 <= k < |front|
        ensures front[k] < |s| - 1
      {
        var x: nat := front[k];
        assert x in front;
      }
      if p(s[|s| - 1]) then front + [|s| - 1] else front
  }

  function Reverse(r: seq<nat>): (v: seq<nat>)
    ensures |v| == |r|
    ensures forall i :: 0 <= i < |r| ==> v[i] == r[|r| - 1 - i]
  {
    if r == [] then [] else Reverse(r[1..]) + [r[0]]
  }
}

=== FILE: store.dfy ===
/** The database the handlers read and write: one collection per document type. Tickets
    and users are addressed by id; promos, bookings, finance requests and ledger records
    are kept in creation order and addressed by position. */
module Store {
  import opened Results
  import opened TicketModel
  import opened UserModel
  import opened PromoModel
  import opened LedgerModel
  import opened RequestModel
  import opened BookingModel

  datatype State = State(
    tickets: map<TicketId, Ticket>,
    users: map<UserId, User>,
    promos: seq<PromoCode>,
    bookings: seq<Booking>,
    requests: seq<FinanceRequest>,
    ledger: seq<LedgerEntry>,
    airportCities: map<string, string>)   // code -> city of every active airport

  predicate TicketsValid(tickets: map<TicketId, Ticket>) {
    forall id :: id in tickets ==> ValidTicket(tickets[id]) && SeatsBalanced(tickets[id])
  }

  /** Rewriting one ticket with a valid, balanced one keeps the ticket collection valid. */
  lemma ReplaceTicketKeepsTicketsValid(tickets: map<TicketId, Ticket>, id: TicketId, t': Ticket)
    requires TicketsValid(tickets) && ValidTicket(t') && SeatsBalanced(t')
    ensures TicketsValid(tickets[id := t'])
  {
  }

  predicate UsersValid(users: map<UserId, User>) {
    CanonicalIds(users) && UniqueAgentIds(users)
    && forall id :: id in users ==> ValidUser(users[id])
  }

  /** Rewriting one account keeps the user collection valid when the new account is valid
      and keeps its agent id. */
  lemma ReplaceUserKeepsUsersValid(users: map<UserId, User>, a: UserId, u': User)
    requires UsersValid(users) && a in users
    requires ValidUser(u') && u'.agentId == users[a].agentId
    ensures UsersValid(users[a := u'])
  {
    var users' := users[a := u'];
    assert forall id :: id in users' ==> users'[id].agentId == users[id].agentId;
  }

  predicate PromosValid(promos: seq<PromoCode>) {
    UniquePerAgent(promos) && UniqueGlobal(promos)
    && forall i :: 0 <= i < |promos| ==> ValidPromo(promos[i])
  }

  /** Rewriting a record in place keeps the indexes when the rewrite keeps its code, does not
      give it an agent it lacked and does not make it global. */
  lemma ReplaceKeepsPromosValid(ps: seq<PromoCode>, i: nat, q: PromoCode)
    requires PromosValid(ps) && i < |ps| && ValidPromo(q)
    requires q.code == ps[i].code && (q.agent.Some? ==> q.agent == ps[i].agent) && (q.isGlobal ==> ps[i].isGlobal)
    ensures PromosValid(ps[i := q])
  {
    var r := ps[i := q];
    assert forall j :: 0 <= j < |r| && j != i ==> r[j] == ps[j];
  }

  /** Appending a record keeps the indexes when no record of its agent, and no global record
      if it is global, already has its code. */
  lemma AppendKeepsPromosValid(ps: seq<PromoCode>, q: PromoCode)
    requires PromosValid(ps) && ValidPromo(q)
    requires q.agent.Some? ==> forall j :: 0 <= j < |ps| && ps[j].agent == q.agent ==> ps[j].code != q.code
    requires q.isGlobal ==> forall j :: 0 <= j < |ps| && ps[j].isGlobal ==> ps[j].code != q.code
    ensures PromosValid(ps + [q])
  {
    var r := ps + [q];
    assert forall j :: 0 <= j < |ps| ==> r[j] == ps[j];
  }

  predicate BookingsValid(bookings: seq<Booking>) {
    UniqueReferences(bookings)
    && forall i :: 0 <= i < |bookings| ==> ValidBooking(bookings[i])
  }

  /** Rewriting one booking with a valid booking of the same reference keeps every booking
      valid and the references unique. */
  lemma ReplaceBookingKeepsBookingsValid(bookings: seq<Booking>, i: nat, b': Booking)
    requires BookingsValid(bookings) && i < |bookings|
    requires ValidBooking(b') && b'.reference == bookings[i].reference
    ensures BookingsValid(bookings[i := b'])
  {
    var r := bookings[i := b'];
    assert forall j :: 0 <= j < |r| ==> r[j].reference == bookings[j].reference;
  }

  predicate RequestsValid(requests: seq<FinanceRequest>) {
    forall i :: 0 <= i < |requests| ==> ValidRequest(requests[i]) && StampConsistent(requests[i])
  }

  /** Appending a request that passes the schema keeps every request valid. */
  lemma AppendKeepsRequestsValid(requests: seq<FinanceRequest>, fr: FinanceRequest)
    requires RequestsValid(requests) && ValidRequest(fr) && StampConsistent(fr)
    ensures RequestsValid(requests + [fr])
  {
    var r := requests + [fr];
    assert forall i :: 0 <= i < |requests| ==> r[i] == requests[i];
  }

  /** What every document's schema and every unique index guarantee, plus the seat
      conservation of every ticket. */
  predicate WellFormed(s: State) {
    TicketsValid(s.tickets) && UsersValid(s.users) && PromosValid(s.promos)
    && BookingsValid(s.bookings) && RequestsValid(s.requests)
  }

  /** `Airport.findOne({ airportCode: code, isActive: true })?.city || code`: the city of
      an active airport, or the code itself when there is none or its city is empty. */
  function AirportCity(s: State, code: string): (city: string)
    ensures code !in s.airportCities ==> city == code
    ensures code in s.airportCities && s.airportCities[code] != [] ==> city == s.airportCities[code]
    ensures city == code || city == s.airportCities[code]
  {
    if code in s.airportCities && s.airportCities[code] != [] then s.airportCities[code] else code
  }
}

=== FILE: text.dfy ===
/** The string operations the handlers rely on: JavaScript's `trim` and `split`, its
    `toUpperCase` and `toLowerCase` restricted to ASCII letters, and the decimal rendering
    of integers used in template strings. */
module Text {

  /** The characters `trim` removes: the ECMAScript white space (tab, vertical tab, form
      feed, the byte order mark and every space separator of the Unicode `Zs` category)
      and the line terminators (line feed, carriage return, U+2028, U+2029). */
  predicate IsSpace(c: char) {
    '\t' <= c <= '\r' || c == ' ' || c == '\U{00A0}' || c == '\U{1680}'
    || '\U{2000}' <= c <= '\U{200A}' || '\U{2028}' <= c <= '\U{2029}'
    || c == '\U{202F}' || c == '\U{205F}' || c == '\U{3000}' || c == '\U{FEFF}'
  }

  predicate IsDigit(c: char) {
    '0' <= c <= '9'
  }

  predicate AllDigits(s: string) {
    forall i :: 0 <= i < |s| ==> IsDigit(s[i])
  }

  function UpperChar(c: char): (u: char)
    ensures !('a' <= u <= 'z')
    ensures !('a' <= c <= 'z') ==> u == c
  {
    if 'a' <= c <= 'z' then (c as int - 32) as char else c
  }

  /** `s.toUpperCase()` on ASCII letters. */
  function Upper(s: string): (r: string)
    ensures |r| == |s|
    ensures forall i :: 0 <= i < |s| ==> r[i] == UpperChar(s[i])
  {
    seq(|s|, i requires 0 <= i < |s| => UpperChar(s[i]))
  }

  function LowerChar(c: char): (l: char)
    ensures !('A' <= l <= 'Z')
    ensures !('A' <= c <= 'Z') ==> l == c
  {
    if 'A' <= c <= 'Z' then (c as int + 32) as char else c
  }

  /** `s.toLowerCase()` on ASCII letters. */
  function Lower(s: string): (r: string)
    ensures |r| == |s|
    ensures forall i :: 0 <= i < |s| ==> r[i] == LowerChar(s[i])
  {
    seq(|s|, i requires 0 <= i < |s| => LowerChar(s[i]))
  }

  /** No lower-case ASCII letter left. */
  predicate IsUpper(s: string) {
    forall i :: 0 <= i < |s| ==> !('a' <= s[i] <= 'z')
  }

  lemma UpperIsUpper(s: string)
    ensures IsUpper(Upper(s))
    ensures IsUpper(s) ==> Upper(s) == s
  {
  }

  function TrimStart(s: string): (r: string)
    ensures |r| <= |s| && r == s[|s| - |r|..]
    ensures r == [] || !IsSpace(r[0])
    ensures forall i :: 0 <= i < |s| - |r| ==> IsSpace(s[i])
  {
    if s != [] && IsSpace(s[0]) then TrimStart(s[1..]) else s
  }

  function TrimEnd(s: string): (r: string)
    ensures |r| <= |s| && r == s[..|r|]
    ensures r == [] || !IsSpace(r[|r| - 1])
    ensures forall i :: |r| <= i < |s| ==> IsSpace(s[i])
  {
    if s != [] && IsSpace(s[|s| - 1]) then TrimEnd(s[..|s| - 1]) else s
  }

  /** No white space at either end. */
  predicate IsTrimmed(s: string) {
    s == [] || (!IsSpace(s[0]) && !IsSpace(s[|s| - 1]))
  }

  /** `s.trim()`: drops leading and trailing white space. */
  function Trim(s: string): (r: string)
    ensures IsTrimmed(r)
  {
    TrimEnd(TrimStart(s))
  }

  /** Upper-casing touches letters only, so it keeps a trimmed string trimmed. */
  lemma UpperKeepsTrimmed(s: string)
    requires IsTrimmed(s)
    ensures IsTrimmed(Upper(s))
  {
    if s != [] {
      assert Upper(s)[0] == UpperChar(s[0]);
      assert Upper(s)[|s| - 1] == UpperChar(s[|s| - 1]);
    }
  }

  /** A string that does not start or end with white space is its own trim. */
  lemma TrimOfTrimmed(s: string)
    requires IsTrimmed(s)
    ensures Trim(s) == s
  {
  }

  /** Pieces joined by `sep`, the inverse of `Split`. */
  function Join(parts: seq<string>, sep: char): string
    requires |parts| >= 1
  {
    if |parts| == 1 then parts[0] else parts[0] + [sep] + Join(parts[1..], sep)
  }

  lemma JoinCons(c: char, p: string, tail: seq<string>, sep: char)
    ensures Join([[c] + p] + tail, sep) == [c] + Join([p] + tail, sep)
  {
    var parts := [[c] + p] + tail;
    if |tail| > 0 {
      assert parts[1..] == tail;
      assert ([p] + tail)[1..] == tail;
    }
  }

  /** `s.split(sep)`: the maximal sep-free pieces of `s`, in order; the empty string
      splits into one empty piece. */
  function Split(s: string, sep: char): (r: seq<string>)
    ensures |r| >= 1
    ensures forall i :: 0 <= i < |r| ==> sep !in r[i]
    ensures Join(r, sep) == s
  {
    if s == [] then [[]]
    else
      var rest := Split(s[1..], sep);
      if s[0] == sep then
        assert ([[]] + rest)[1..] == rest;
        [[]] + rest
      else
        JoinCons(s[0], rest[0], rest[1..], sep);
        assert [rest[0]] + rest[1..] == rest;
        [[s[0]] + rest[0]] + rest[1..]
  }

  /** Splitting a joined list of sep-free pieces gives the pieces back. */
  lemma {:induction false} SplitJoin(parts: seq<string>, sep: char)
    requires |parts| >= 1
    requires forall i :: 0 <= i < |parts| ==> sep !in parts[i]
    ensures Split(Join(parts, sep), sep) == parts
    decreases |Join(parts, sep)|
  {
    var p := parts[0];
    if p == [] {
      if |parts| > 1 {
        var tail := parts[1..];
        assert Join(parts, sep) == [sep] + Join(tail, sep);
        SplitJoin(tail, sep);
        assert ([sep] + Join(tail, sep))[1..] == Join(tail, sep);
        assert parts == [[]] + tail;
      }
    } else {
      var tail := parts[1..];
      var shorter := [p[1..]] + tail;
      assert p == [p[0]] + p[1..];
      assert parts == [p] + tail;
      JoinCons(p[0], p[1..], tail, sep);
      assert shorter[1..] == tail;
      SplitJoin(shorter, sep);
      var s := Join(parts, sep);
      assert s[1..] == Join(shorter, sep);
      assert Split(s, sep) == [[p[0]] + shorter[0]] + shorter[1..];
    }
  }

  function DigitChar(d: nat): (c: char)
    requires d < 10
    ensures IsDigit(c)
  {
    ('0' as int + d) as char
  }

  function DigitValue(c: char): (d: nat)
    requires IsDigit(c)
    ensures d < 10
  {
    c as int - '0' as int
  }

  /** The decimal rendering of `n` that `${n}` produces, most significant digit first. */
  function Digits(n: nat): (r: string)
    ensures |r| >= 1 && AllDigits(r)
  {
    if n < 10 then [DigitChar(n)] else Digits(n / 10) + [DigitChar(n % 10)]
  }

  /** The value of a string of decimal digits. */
  function ParseDigits(s: string): nat
    requires AllDigits(s)
  {
    if s == [] then 0 else ParseDigits(s[..|s| - 1]) * 10 + DigitValue(s[|s| - 1])
  }

  /** Reading back a rendered number gives the number. */
  lemma {:induction false} ParseDigitsOfDigits(n: nat)
    ensures ParseDigits(Digits(n)) == n
  {
    var s := Digits(n);
    if n >= 10 {
      ParseDigitsOfDigits(n / 10);
      assert s[..|s| - 1] == Digits(n / 10);
    }
  }

  /** Distinct numbers render to distinct strings. */
  lemma DigitsInjective(m: nat, n: nat)
    requires Digits(m) == Digits(n)
    ensures m == n
  {
    ParseDigitsOfDigits(m);
    ParseDigitsOfDigits(n);
  }

  function Pow10(k: nat): (p: nat)
    ensures p >= 1
  {
    if k == 0 then 1 else 10 * Pow10(k - 1)
  }

  /** A number with exactly k significant digits renders to k characters. */
  lemma {:induction false} DigitsLength(n: nat, k: nat)
    requires 1 <= k && n < Pow10(k) && (k == 1 || Pow10(k - 1) <= n)
    ensures |Digits(n)| == k
  {
    if k > 1 {
      if k == 2 {
        assert n / 10 < 10;
      } else {
        assert Pow10(k - 2) <= n / 10 < Pow10(k - 1);
        DigitsLength(n / 10, k - 1);
      }
    }
  }

  /** `${i}` for a possibly negative integer. */
  function IntToString(i: int): (r: string)
    ensures |r| >= 1
    ensures i >= 0 ==> r == Digits(i)
    ensures i < 0 ==> r == "-" + Digits(-i)
  {
    if i < 0 then "-" + Digits(-i) else Digits(i)
  }
}

=== FILE: ticket_controller.dfy ===
/** `updateTicket`, restricted to its two guarded paths: editing the seat total (which
    re-derives the available seats) and changing the PNR (which is copied onto every
    booking of the ticket). The update bypasses the schema validators. */
module TicketController {
  import opened Results
  import opened Text
  import opened TicketModel
  import opened BookingModel
  import opened Store

  /** `Math.max(0, Math.min(x, hi))`: `x` clamped into `[0, hi]`, or zero when `hi` is negative. */
  function Clamp(x: int, hi: int): (r: int)
    ensures 0 <= r
    ensures r <= x || r == 0
    ensures hi >= 0 ==> r <= hi
    ensures 0 <= x <= hi ==> r == x
  {
    if x <= hi then (if x < 0 then 0 else x) else (if hi < 0 then 0 else hi)
  }

  /** The available seats after the total moves from `t.quantityTotal` to `newTotal`: shifted
      by the same delta, then clamped to `[0, max(0, newTotal - booked)]`; unchanged when
      the total does not move. */
  function RederiveAvailable(t: Ticket, newTotal: int): (available: int)
    ensures newTotal != t.quantityTotal ==> 0 <= available
    ensures newTotal != t.quantityTotal && newTotal >= t.quantityBooked ==> available <= newTotal - t.quantityBooked
    ensures newTotal == t.quantityTotal ==> available == t.quantityAvailable
    ensures newTotal != t.quantityTotal && 0 <= t.quantityAvailable + newTotal - t.quantityTotal <= newTotal - t.quantityBooked ==>
      available == t.quantityAvailable + newTotal - t.quantityTotal
  {
    var delta := newTotal - t.quantityTotal;
    if delta != 0 then
      var maxAvailable := if newTotal - t.quantityBooked > 0 then newTotal - t.quantityBooked else 0;
      Clamp(t.quantityAvailable + delta, maxAvailable)
    else t.quantityAvailable
  }

  /** `Booking.updateMany({ ticket: id }, { $set: { pnr } })`: every booking of ticket `id`
      gets the PNR, trimmed by the booking schema's setter; the others are left alone. */
  function PropagatePnr(bookings: seq<Booking>, id: TicketId, pnr: string): (bs: seq<Booking>)
    ensures |bs| == |bookings|
    ensures forall i :: 0 <= i < |bookings| && bookings[i].ticket == id ==> bs[i] == bookings[i].(pnr := Some(Trim(pnr)))
    ensures forall i :: 0 <= i < |bookings| && bookings[i].ticket != id ==> bs[i] == bookings[i]
  {
    seq(|bookings|, i requires 0 <= i < |bookings| =>
      if bookings[i].ticket == id then bookings[i].(pnr := Some(Trim(pnr))) else bookings[i])
  }

  /** Propagating the same PNR twice is propagating it once. */
  lemma PropagatePnrIdempotent(bookings: seq<Booking>, id: TicketId, pnr: string)
    ensures PropagatePnr(PropagatePnr(bookings, id, pnr), id, pnr) == PropagatePnr(bookings, id, pnr)
  {
    var once := PropagatePnr(bookings, id, pnr);
    var twice := PropagatePnr(once, id, pnr);
    forall i | 0 <= i < |bookings|
      ensures twice[i] == once[i]
    {
    }
  }

  /** The ticket after an edit: the total as sent (or kept), the available seats re-derived
      from it, and a sent PNR stored trimmed by the schema's setter. */
  function EditTicket(t: Ticket, quantityTotal: Option<int>, pnr: Option<string>): (t': Ticket)
    ensures t' == t.(quantityTotal := t'.quantityTotal, quantityAvailable := t'.quantityAvailable, pnr := t'.pnr)
    ensures t'.quantityTotal == quantityTotal.GetOr(t.quantityTotal)
    ensures t'.quantityAvailable == RederiveAvailable(t, t'.quantityTotal)
    ensures pnr.Some? ==> t'.pnr == Some(Trim(pnr.value))
    ensures pnr.None? ==> t'.pnr == t.pnr
    ensures PnrTrimmed(t) ==> PnrTrimmed(t')
  {
    var total := quantityTotal.GetOr(t.quantityTotal);
    t.(quantityTotal := total, quantityAvailable := RederiveAvailable(t, total),
       pnr := if pnr.Some? then TrimOption(pnr) else t.pnr)
  }

  /** Editing a ticket a second time with the same fields changes nothing more. */
  lemma EditTicketIdempotent(t: Ticket, quantityTotal: Option<int>, pnr: Option<string>)
    ensures EditTicket(EditTicket(t, quantityTotal, pnr), quantityTotal, pnr) == EditTicket(t, quantityTotal, pnr)
  {
    var t' := EditTicket(t, quantityTotal, pnr);
    assert RederiveAvailable(t', t'.quantityTotal) == t'.quantityAvailable;
  }

  /** The bookings after an edit: a PNR sent as a string that differs from the stored one,
      compared as sent, is propagated; otherwise the bookings stay. */
  function RetagBookings(bookings: seq<Booking>, id: TicketId, oldPnr: Option<string>, pnr: Option<string>): (bs: seq<Booking>)
    ensures pnr.None? || pnr == oldPnr ==> bs == bookings
    ensures pnr.Some? && pnr != oldPnr ==> bs == PropagatePnr(bookings, id, pnr.value)
  {
    if pnr.Some? && pnr != oldPnr then PropagatePnr(bookings, id, pnr.value) else bookings
  }

  /** Re-tagging with the PNR an edit stored leaves the bookings as the first edit left them,
      provided the ticket's PNR was stored trimmed. */
  lemma RetagBookingsTwice(bookings: seq<Booking>, id: TicketId, oldPnr: Option<string>, pnr: Option<string>)
    requires oldPnr.None? || IsTrimmed(oldPnr.value)
    ensures var stored := if pnr.Some? then Some(Trim(pnr.value)) else oldPnr;
            var once := RetagBookings(bookings, id, oldPnr, pnr);
            RetagBookings(once, id, stored, pnr) == once
  {
    var stored := if pnr.Some? then Some(Trim(pnr.value)) else oldPnr;
    if pnr.Some? && pnr != stored {
      assert pnr != oldPnr by {
        if IsTrimmed(pnr.value) {
          TrimOfTrimmed(pnr.value);
        }
      }
      PropagatePnrIdempotent(bookings, id, pnr.value);
    }
  }

  /** `updateTicket`: the seat total re-derives the available seats; a PNR sent as a string
      is stored trimmed by the schema's setter and, when it differs from the old PNR as
      sent (before trimming), is copied onto the ticket's bookings. */
  function UpdateTicket(s: State, id: TicketId, quantityTotal: Option<int>, pnr: Option<string>): (r: Result<State>)
    ensures id !in s.tickets ==> r == Err(NotFound("Ticket"))
    ensures id in s.tickets ==>
      (r.Err? <==> quantityTotal.Some? && quantityTotal.value < s.tickets[id].quantityBooked)
      && (r.Err? ==> r.error == QuantityBelowBooked)
    ensures r.Ok? ==>
      id in s.tickets && id in r.value.tickets
      && r.value == s.(tickets := s.tickets[id := r.value.tickets[id]], bookings := r.value.bookings)
    ensures r.Ok? ==>
      var t := s.tickets[id];
      var t' := r.value.tickets[id];
      t' == t.(quantityTotal := t'.quantityTotal, quantityAvailable := t'.quantityAvailable, pnr := t'.pnr)
      && t'.quantityTotal == quantityTotal.GetOr(t.quantityTotal)
      && t'.quantityAvailable == RederiveAvailable(t, t'.quantityTotal)
      && (pnr.Some? ==> t'.pnr == Some(Trim(pnr.value)))
      && (pnr.None? ==> t'.pnr == t.pnr)
      && (PnrTrimmed(t) ==> PnrTrimmed(t'))
    ensures r.Ok? ==>
      r.value.bookings == (if pnr.Some? && pnr != s.tickets[id].pnr then PropagatePnr(s.bookings, id, pnr.value) else s.bookings)
  {
    if id !in s.tickets then Err(NotFound("Ticket"))
    else
      var t := s.tickets[id];
      if quantityTotal.Some? && quantityTotal.value < t.quantityBooked then Err(QuantityBelowBooked)
      else
        Ok(s.(tickets := s.tickets[id := EditTicket(t, quantityTotal, pnr)],
              bookings := RetagBookings(s.bookings, id, t.pnr, pnr)))
  }

  /** The seat invariant survives an edit: a balanced ticket stays balanced, with the
      available seats equal to the new total less the booked seats, never negative. */
  lemma UpdateKeepsSeatsBalanced(s: State, id: TicketId, quantityTotal: Option<int>, pnr: Option<string>)
    requires UpdateTicket(s, id, quantityTotal, pnr).Ok?
    requires ValidTicket(s.tickets[id]) && SeatsBalanced(s.tickets[id])
    ensures var t' := UpdateTicket(s, id, quantityTotal, pnr).value.tickets[id];
      SeatsBalanced(t') && 0 <= t'.quantityAvailable == t'.quantityTotal - t'.quantityBooked
      && t'.quantityBooked == s.tickets[id].quantityBooked
  {
  }

  /** An edit keeps the store well formed: the total is at least the booked seats, the
      clamped available seats are non-negative, and booking PNRs are not validated. */
  lemma UpdateKeepsWellFormed(s: State, id: TicketId, quantityTotal: Option<int>, pnr: Option<string>)
    requires WellFormed(s)
    requires UpdateTicket(s, id, quantityTotal, pnr).Ok?
    ensures WellFormed(UpdateTicket(s, id, quantityTotal, pnr).value)
  {
    var s' := UpdateTicket(s, id, quantityTotal, pnr).value;
    var t := s.tickets[id];
    var t' := s'.tickets[id];
    assert s'.users == s.users && s'.promos == s.promos && s'.requests == s.requests;
    assert TicketsValid(s'.tickets) by {
      UpdateKeepsSeatsBalanced(s, id, quantityTotal, pnr);
      assert t'.fromAirport == t.fromAirport && t'.toAirport == t.toAirport;
      ReplaceTicketKeepsTicketsValid(s.tickets, id, t');
      assert s'.tickets == s.tickets[id := t'];
    }
    assert BookingsValid(s'.bookings) by {
      if pnr.Some? && pnr != t.pnr {
        PropagatePnrKeepsBookingsValid(s.bookings, id, pnr.value);
      }
    }
  }

  /** Rewriting PNRs keeps every booking valid and every reference where it was. */
  lemma PropagatePnrKeepsBookingsValid(bookings: seq<Booking>, id: TicketId, pnr: string)
    requires BookingsValid(bookings)
    ensures BookingsValid(PropagatePnr(bookings, id, pnr))
  {
    var bs := PropagatePnr(bookings, id, pnr);
    assert forall i :: 0 <= i < |bs| ==> bs[i].reference == bookings[i].reference && ValidBooking(bs[i]);
  }

  /** A changed PNR reaches every booking of the ticket, trimmed, and no other booking; the
      ticket and its bookings then agree on the PNR. Whether it changed is judged on the
      PNR as sent, so a PNR that differs from the stored one only by surrounding blanks
      is propagated too. */
  lemma PnrReachesEveryBooking(s: State, id: TicketId, quantityTotal: Option<int>, p: string)
    requires UpdateTicket(s, id, quantityTotal, Some(p)).Ok?
    requires s.tickets[id].pnr != Some(p)
    ensures var s' := UpdateTicket(s, id, quantityTotal, Some(p)).value;
      |s'.bookings| == |s.bookings| && s'.tickets[id].pnr == Some(Trim(p))
      && (forall i :: 0 <= i < |s.bookings| ==> (s'.bookings[i].pnr == Some(Trim(p)) || s'.bookings[i] == s.bookings[i]))
      && (forall i :: 0 <= i < |s.bookings| && s.bookings[i].ticket == id ==> s'.bookings[i].pnr == s'.tickets[id].pnr)
      && (forall i :: 0 <= i < |s.bookings| && s.bookings[i].ticket != id ==> s'.bookings[i] == s.bookings[i])
  {
  }

  /** An unchanged PNR, sent exactly as stored, leaves every booking alone. */
  lemma SamePnrLeavesBookings(s: State, id: TicketId, quantityTotal: Option<int>, p: string)
    requires UpdateTicket(s, id, quantityTotal, Some(p)).Ok?
    requires s.tickets[id].pnr == Some(p)
    ensures UpdateTicket(s, id, quantityTotal, Some(p)).value.bookings == s.bookings
  {
  }

  /** An edit that would leave the ticket and its bookings as they are leaves the store as it is. */
  lemma UpdateTicketFixedPoint(s: State, id: TicketId, quantityTotal: Option<int>, pnr: Option<string>)
    requires id in s.tickets
    requires quantityTotal.None? || quantityTotal.value >= s.tickets[id].quantityBooked
    requires EditTicket(s.tickets[id], quantityTotal, pnr) == s.tickets[id]
    requires RetagBookings(s.bookings, id, s.tickets[id].pnr, pnr) == s.bookings
    ensures UpdateTicket(s, id, quantityTotal, pnr) == Ok(s)
  {
    assert s.tickets[id := s.tickets[id]] == s.tickets;
  }

  /** Repeating an edit changes nothing more, on a ticket whose PNR is stored as the setter
      stores it. (With an untrimmed stored PNR sent back unchanged, the first edit only trims
      it and the second then sees a changed PNR and propagates it.) */
  lemma UpdateTicketIdempotent(s: State, id: TicketId, quantityTotal: Option<int>, pnr: Option<string>)
    requires UpdateTicket(s, id, quantityTotal, pnr).Ok?
    requires PnrTrimmed(s.tickets[id])
    ensures UpdateTicket(UpdateTicket(s, id, quantityTotal, pnr).value, id, quantityTotal, pnr)
         == UpdateTicket(s, id, quantityTotal, pnr)
  {
    var t := s.tickets[id];
    var s' := UpdateTicket(s, id, quantityTotal, pnr).value;
    var t' := EditTicket(t, quantityTotal, pnr);
    assert s' == s.(tickets := s.tickets[id := t'], bookings := RetagBookings(s.bookings, id, t.pnr, pnr));
    EditTicketIdempotent(t, quantityTotal, pnr);
    RetagBookingsTwice(s.bookings, id, t.pnr, pnr);
    UpdateTicketFixedPoint(s', id, quantityTotal, pnr);
  }
}

=== FILE: ticket_model.dfy ===
/** The Ticket document: one block of seats on one flight, bought in bulk by the admin. */
module TicketModel {
  import opened Results
  import opened Text

  type TicketId = string

  datatype Ticket = Ticket(
    fromAirport: string,
    toAirport: string,
    airline: string,
    flightNumber: string,
    pnr: Option<string>,
    departureTime: int,       // epoch milliseconds
    arrivalTime: int,         // epoch milliseconds
    basePrice: real,
    infantPrice: real,
    quantityTotal: int,
    quantityAvailable: int,
    quantityBooked: int,
    isActive: bool)

  /** The airport fields after the schema's `trim` and `uppercase` setters. */
  function NormalizeAirport(s: string): string {
    Upper(Trim(s))
  }

  /** An airport code as stored: three characters, upper case, no surrounding space. */
  predicate AirportCode(s: string) {
    |s| == 3 && IsUpper(s) && IsTrimmed(s)
  }

  /** The schema validators, which every save runs: route codes of length three, the
      required carrier fields present, and non-negative prices and counts. */
  predicate TicketValidators(t: Ticket) {
    |t.fromAirport| == 3 && |t.toAirport| == 3
    && t.airline != [] && t.flightNumber != []
    && t.basePrice >= 0.0 && t.infantPrice >= 0.0
    && t.quantityTotal >= 0 && t.quantityAvailable >= 0 && t.quantityBooked >= 0
  }

  /** A ticket as the schema stores it: its validators hold and its route codes went
      through the `trim` and `uppercase` setters. */
  predicate ValidTicket(t: Ticket) {
    TicketValidators(t) && AirportCode(t.fromAirport) && AirportCode(t.toAirport)
  }

  /** A PNR as the schema's `trim` setter stores it. */
  predicate PnrTrimmed(t: Ticket) {
    t.pnr.None? || IsTrimmed(t.pnr.value)
  }

  /** The `trim: true` setter on an optional string field: a value that is sent is stored
      trimmed, an absent one stays absent. */
  function TrimOption(field: Option<string>): (r: Option<string>)
    ensures r.Some? <==> field.Some?
    ensures r.Some? ==> r.value == Trim(field.value) && IsTrimmed(r.value)
  {
    if field.Some? then Some(Trim(field.value)) else None
  }

  /** The seat-conservation invariant: every seat is either available or booked. */
  predicate SeatsBalanced(t: Ticket) {
    t.quantityAvailable + t.quantityBooked == t.quantityTotal
  }

  /** The fields an admin supplies when creating a ticket; `None` marks a field left out. */
  datatype TicketInput = TicketInput(
    fromAirport: string,
    toAirport: string,
    airline: string,
    flightNumber: string,
    pnr: Option<string>,
    departureTime: int,
    arrivalTime: int,
    basePrice: real,
    infantPrice: Option<real>,
    quantityTotal: int,
    quantityAvailable: Option<int>,
    quantityBooked: Option<int>,
    isActive: Option<bool>)

  /** A new Ticket document: the `trim` and `uppercase` setters, then schema defaults (`infantPrice` 0, `quantityBooked`
      0, `isActive` true), then the pre-validate hook that fills a missing `quantityAvailable`
      with `quantityTotal`, then validation. */
  function NewTicket(input: TicketInput): (r: Result<Ticket>)
    ensures r.Ok? ==> ValidTicket(r.value)
    ensures r.Ok? && input.quantityAvailable.None? ==> r.value.quantityAvailable == input.quantityTotal
    ensures r.Ok? && input.quantityBooked.None? ==> r.value.quantityBooked == 0
    ensures r.Ok? && input.isActive.None? ==> r.value.isActive
    ensures r.Ok? ==> PnrTrimmed(r.value) && (input.pnr.Some? <==> r.value.pnr.Some?)
    ensures r.Ok? && input.pnr.Some? ==> r.value.pnr.value == Trim(input.pnr.value)
    ensures r.Ok? ==> r.value.quantityTotal == input.quantityTotal && r.value.basePrice == input.basePrice
    ensures r.Err? <==>
      |Trim(input.fromAirport)| != 3 || |Trim(input.toAirport)| != 3
      || Trim(input.airline) == [] || Trim(input.flightNumber) == []
      || input.basePrice < 0.0 || input.infantPrice.GetOr(0.0) < 0.0 || input.quantityTotal < 0
      || input.quantityAvailable.GetOr(input.quantityTotal) < 0 || input.quantityBooked.GetOr(0) < 0
  {
    var from := NormalizeAirport(input.fromAirport);
    var to := NormalizeAirport(input.toAirport);
    NormalizedAirportIsCode(input.fromAirport);
    NormalizedAirportIsCode(input.toAirport);
    var t := Ticket(
      from, to, Trim(input.airline), Trim(input.flightNumber),
      TrimOption(input.pnr),
      input.departureTime, input.arrivalTime,
      input.basePrice, input.infantPrice.GetOr(0.0),
      input.quantityTotal,
      input.quantityAvailable.GetOr(input.quantityTotal),
      input.quantityBooked.GetOr(0),
      input.isActive.GetOr(true));
    if TicketValidators(t) then Ok(t) else Err(SchemaViolation("Ticket"))
  }

  lemma NormalizedAirportIsCode(s: string)
    ensures |NormalizeAirport(s)| == |Trim(s)|
    ensures |Trim(s)| == 3 ==> AirportCode(NormalizeAirport(s))
  {
    var t := Trim(s);
    var u := Upper(t);
    UpperIsUpper(t);
    if |t| == 3 {
      assert !IsSpace(u[0]) && !IsSpace(u[2]);
    }
  }

  /** A ticket created without explicit seat counts starts balanced: all seats available. */
  lemma NewTicketBalanced(input: TicketInput)
    requires input.quantityAvailable.None? && input.quantityBooked.None?
    requires NewTicket(input).Ok?
    ensures SeatsBalanced(NewTicket(input).value)
    ensures NewTicket(input).value.quantityBooked == 0
  {
  }
}

=== FILE: user_model.dfy ===
/** The User document, restricted to what the credit ledger reads and writes: the role,
    the human-readable agent id, the approval flag and the agent's finance fields. */
module UserModel {
  import opened Results
  import opened Text
  import opened RandomCodes

  type UserId = string

  datatype UserType = Agent | Customer | Admin

  datatype User = User(
    userType: UserType,
    agentId: Option<string>,
    isApproved: bool,
    totalCreditLimit: real,
    availableCreditLimit: real,
    markerAmount: real,
    balanceDue: real)      // may be negative: an advance paid by the agent

  /** `/^FD\d{4}$/`: "FD" followed by four decimal digits. */
  predicate AgentIdFormat(s: string) {
    |s| == 6 && s[0] == 'F' && s[1] == 'D' && AllDigits(s[2..])
  }

  /** `/^FD\d{4}$/i`, the test handlers use to tell an agent id from a database id. */
  predicate LooksLikeAgentId(s: string) {
    AgentIdFormat(Upper(s))
  }

  /** The schema validators: non-negative credit fields and markup (balance due has no
      bound), and an agent id of the right format on an agent that has one. Like every
      custom validator, the agent-id check is skipped on an absent value, and validation
      runs before the pre-save hook that generates a new agent's id. */
  predicate ValidUser(u: User) {
    u.totalCreditLimit >= 0.0 && u.availableCreditLimit >= 0.0 && u.markerAmount >= 0.0
    && (u.userType == Agent && u.agentId.Some? ==> AgentIdFormat(u.agentId.value))
  }

  /** The sparse unique index on agentId. */
  predicate UniqueAgentIds(users: map<UserId, User>) {
    forall a, b :: a in users && b in users && users[a].agentId.Some? && users[a].agentId == users[b].agentId ==> a == b
  }

  function AgentIdsInUse(users: map<UserId, User>): (used: set<string>)
    ensures forall id :: id in users && users[id].agentId.Some? ==> users[id].agentId.value in used
    ensures forall a :: a in used ==> exists id :: id in users && users[id].agentId == Some(a)
  {
    set id | id in users && users[id].agentId.Some? :: users[id].agentId.value
  }

  /** Database ids are written in their canonical lower-case hexadecimal form; MongoDB
      reads the hex digits of an id in either case. */
  predicate CanonicalIds(users: map<UserId, User>) {
    forall id :: id in users ==> Lower(id) == id
  }

  /** `User.findById(s)`: the id is matched regardless of letter case. */
  function FindUserById(users: map<UserId, User>, s: string): (r: Option<UserId>)
    ensures r.Some? ==> r.value in users && r.value == Lower(s)
    ensures r.None? <==> Lower(s) !in users
  {
    if Lower(s) in users then Some(Lower(s)) else None
  }

  /** `User.findOne({ agentId: code })`; the unique index makes the answer unique. */
  function FindByAgentId(users: map<UserId, User>, code: string): (r: Option<UserId>)
    requires UniqueAgentIds(users)
    ensures r.Some? ==> r.value in users && users[r.value].agentId == Some(code)
    ensures r.None? <==> forall id :: id in users ==> users[id].agentId != Some(code)
  {
    if exists id :: id in users && users[id].agentId == Some(code) then
      var id :| id in users && users[id].agentId == Some(code);
      Some(id)
    else None
  }

  /** The lookup the admin handlers share: an `FD####` code (in either case) is looked up
      by agent id, anything else as a database id; the user found must be an agent. */
  function FindAgent(users: map<UserId, User>, key: string): (r: Option<UserId>)
    requires UniqueAgentIds(users)
    ensures r.Some? ==> r.value in users && users[r.value].userType == Agent
    ensures r.Some? && LooksLikeAgentId(key) ==> users[r.value].agentId == Some(Upper(key))
    ensures r.Some? && !LooksLikeAgentId(key) ==> r.value == Lower(key)
    ensures r.None? && LooksLikeAgentId(key) ==>
      forall id :: id in users && users[id].agentId == Some(Upper(key)) ==> users[id].userType != Agent
    ensures r.None? && !LooksLikeAgentId(key) ==> Lower(key) !in users || users[Lower(key)].userType != Agent
  {
    var found := if LooksLikeAgentId(key) then FindByAgentId(users, Upper(key)) else FindUserById(users, key);
    if found.Some? && users[found.value].userType == Agent then found else None
  }

  /** A user document with the schema defaults: approval off for agents and on for everyone
      else unless given, and zero credit, markup and balance. */
  function NewUser(userType: UserType, isApproved: Option<bool>): (u: User)
    ensures isApproved.None? ==> (u.isApproved <==> userType != Agent)
    ensures isApproved.Some? ==> u.isApproved == isApproved.value
    ensures u.totalCreditLimit == 0.0 && u.availableCreditLimit == 0.0
    ensures u.markerAmount == 0.0 && u.balanceDue == 0.0 && u.agentId.None?
  {
    User(userType, None, isApproved.GetOr(userType != Agent), 0.0, 0.0, 0.0, 0.0)
  }

  /** `FD${Math.floor(1000 + Math.random() * 9000)}` for one draw. */
  function AgentIdCandidate(r: real): (id: string)
    requires IsDraw(r)
    ensures AgentIdFormat(id)
  {
    var n := Scaled(r, 1000, 9000);
    DigitsLength(n, 4);
    "FD" + Digits(n)
  }

  function AgentIdCandidates(draws: seq<real>): (c: seq<string>)
    requires ValidDraws(draws)
    ensures |c| == MaxAttempts
    ensures forall i :: 0 <= i < MaxAttempts ==> c[i] == AgentIdCandidate(draws[i])
  {
    seq(MaxAttempts, i requires 0 <= i < MaxAttempts => AgentIdCandidate(draws[i]))
  }

  /** What `generateAgentId` returns: the first of the ten candidates no user holds yet, or
      failure when all ten collide. */
  function NextAgentId(used: set<string>, draws: seq<real>): (r: Result<string>)
    requires ValidDraws(draws)
    ensures r.Ok? ==> AgentIdFormat(r.value) && r.value !in used
    ensures r.Ok? ==> exists i :: 0 <= i < MaxAttempts && r.value == AgentIdCandidates(draws)[i]
    ensures r.Err? <==> forall i :: 0 <= i < MaxAttempts ==> AgentIdCandidate(draws[i]) in used
    ensures r.Err? ==> r.error == AgentIdGenerationFailed
  {
    var candidates := AgentIdCandidates(draws);
    match FirstUnused(candidates, used)
    case Some(i) => Ok(candidates[i])
    case None => Err(AgentIdGenerationFailed)
  }

  /** The retry loop of `generateAgentId`: draw, look the id up, stop at the first free one,
      give up after ten attempts. */
  method GenerateAgentId(used: set<string>, draws: seq<real>) returns (r: Result<string>)
    requires ValidDraws(draws)
    ensures r == NextAgentId(used, draws)
  {
    var agentId := "";
    var isUnique := false;
    var attempts := 0;
    while !isUnique && attempts < MaxAttempts
      invariant 0 <= attempts <= MaxAttempts
      invariant !isUnique ==> forall j :: 0 <= j < attempts ==> AgentIdCandidate(draws[j]) in used
      invariant isUnique ==> 1 <= attempts && agentId == AgentIdCandidate(draws[attempts - 1]) && agentId !in used
      invariant isUnique ==> forall j :: 0 <= j < attempts - 1 ==> AgentIdCandidate(draws[j]) in used
    {
      agentId := AgentIdCandidate(draws[attempts]);
      if agentId !in used {
        isUnique := true;
      }
      attempts := attempts + 1;
    }
    var candidates := AgentIdCandidates(draws);
    if !isUnique {
      r := Err(AgentIdGenerationFailed);
    } else {
      var first := FirstUnused(candidates, used);
      assert first == Some(attempts - 1);
      r := Ok(agentId);
    }
  }

  /** `user.save()`: the schema validators run first; then, for a new agent without an id,
      the pre-save hook generates one; then the unique index on agentId is checked. An
      existing document keeps its agent id, present or not. */
  function SaveUser(users: map<UserId, User>, id: UserId, u: User, draws: seq<real>): (r: Result<map<UserId, User>>)
    requires ValidDraws(draws)
    ensures !ValidUser(u) ==> r == Err(SchemaViolation("User"))
    ensures r.Ok? ==> r.value.Keys == users.Keys + {id}
    ensures r.Ok? ==> forall other :: other in users && other != id ==> r.value[other] == users[other]
    ensures r.Ok? ==> ValidUser(r.value[id])
    ensures r.Ok? && id in users ==> r.value[id] == u
    ensures r.Ok? && (u.agentId.Some? || u.userType != Agent) ==> r.value[id] == u
    ensures r.Ok? && id !in users && u.userType == Agent && u.agentId.None? ==>
      r.value[id].agentId.Some?
      && NextAgentId(AgentIdsInUse(users), draws) == Ok(r.value[id].agentId.value)
      && r.value[id] == u.(agentId := r.value[id].agentId)
  {
    var isNew := id !in users;
    var used := AgentIdsInUse(users - {id});
    assert isNew ==> users - {id} == users;
    if !ValidUser(u) then Err(SchemaViolation("User"))
    else
      var saved :- if isNew && u.userType == Agent && u.agentId.None? then
                     var generated :- NextAgentId(used, draws);
                     Ok(u.(agentId := Some(generated)))
                   else Ok(u);
      if saved.agentId.Some? && saved.agentId.value in used then Err(DuplicateKey("User"))
      else Ok(users[id := saved])
  }

  /** Saving a user never breaks the uniqueness of agent ids. */
  lemma SaveUserKeepsAgentIdsUnique(users: map<UserId, User>, id: UserId, u: User, draws: seq<real>)
    requires ValidDraws(draws) && UniqueAgentIds(users)
    requires SaveUser(users, id, u, draws).Ok?
    ensures UniqueAgentIds(SaveUser(users, id, u, draws).value)
  {
    var used := AgentIdsInUse(users - {id});
    forall other | other in users && other != id && users[other].agentId.Some?
      ensures users[other].agentId.value in used
    {
      assert (users - {id})[other] == users[other];
    }
  }
}
